=== FILE: README.md ===
# Magic-rune match-3 with a LAN lobby: a Dafny model

The repository is a small match-3 game, 魔法符文消除 ("magic rune elimination"). It has three parts:

- **A desktop game in pygame.** Runs of three or more gems of one kind are removed. Runs of four or more leave a special rune, and a clicked special rune blasts an area. The board then refills under gravity.
- **A browser version of the board in React.**
- **A LAN lobby.** Peers announce themselves by UDP broadcast. A host advertises a room, and one guest joins it. Both mark themselves ready, and the room snapshot is re-broadcast after every change.

This project models the logic of these parts as pure state transitions and proves properties of them.

Module layout:

| module | what it models |
|---|---|
| `Options` | `None`-or-value, with a default getter |
| `Decimal` | decimal text of naturals; room identifiers are the whole seconds of the clock |
| `Rooms` | players, rooms, the room status labels, the broadcast messages, the network manager's state `Lobby` and its invariant `Valid` |
| `Session` | the network manager's local commands and its two stand-alone handlers |
| `Receive` | each branch of the receive loop, and the dispatch over message types |
| `Gems` | gems, rune kinds and the desktop board's geometry |
| `Gravity` | square boards, columns, and the gravity-and-refill step both boards share |
| `Runs` | runs of one kind along a line; the desktop scan; the browser's windows of three |
| `Matching` | desktop match detection with special-rune classification |
| `Board` | desktop play: match removal, special runes, refill, swap, clicks, the initial deal |
| `WebBoard` | the browser board's click, swap, match check, removal and refill |
| `Widgets` | rectangles and push buttons |
| `Platform` | the battle-platform screen: start gating, room overlay sync, player list, status text |
| `PlatformEvents` | the battle-platform screen's event handler, room overlay clicks, join clicks and once-a-second refresh |
| `LobbyScreen` | the direct-connection lobby screen: input boxes, event handler, per-frame update |
| `Findings` | four defects of the program, each as written and corrected |

How the model treats the program's mutable state and side effects:

- **The current room.** In the program it is the same Python object as the entry in the room dictionary. The model stores only its key. `Rooms.Valid` states the invariant under which the two views agree: the current key is listed, rooms are stored under their own id, addresses are unique among players, and the local address is never a player. Every lobby transition is proved to preserve it.
- **Outside inputs.** The clock, the local address and the host name are parameters (`Env`).
- **Sends.** Every datagram a step would send is returned as a list of `Packet`s.
- **Randomness.** Random gem kinds come from a supply sequence, and the initial deal from a list of candidate boards.
- **Caught exceptions.** Where the program catches an exception, the model takes the path the exception leads to. Examples:
  - the missing `last_active` attribute makes the sweep treat every guestless room as stale;
  - an off-board grid index makes a click do nothing;
  - a magic rune fired at an empty cell changes nothing.

Where the code departs from what its own constants, comments or sibling handlers suggest, the model follows the code:

- **Player timeout.** The network manager's sweep keeps players heard from less than 10 seconds ago (`network_manager.py:338`). The battle-platform list's own pruning uses 5 seconds, with the comment that a player silent for 5 seconds counts as offline (`battle_platform.py:161`). The two lists therefore disagree for players silent between 5 and 10 seconds.
- **Empty rooms.** The sweep means to drop a guestless room after 30 idle seconds (`network_manager.py:352`), but it reads `room.last_active`, which no code ever assigns. The resulting `AttributeError` is caught and marks the room stale (`network_manager.py:356-358`), so every guestless room is removed at the next sweep.
- **Join requests.** The receive loop's join branch replaces any existing guest and does not move the room to Preparing. The accept-only-if-empty rule belongs to `handle_join_request`, which nothing calls.
- **Leave messages.** The receive loop's leave branch does not delete a room when its host leaves; it only forgets the current room. When the guest leaves, it keeps the status and the guest's ready flag. The delete-or-reset rule belongs to `handle_leave_room`.
- **Readiness without a guest.** A ready toggle before any guest has joined still sets the status to Preparing.
- **Guest address in the room snapshot.** `broadcast_room` does not include the guest's address.
- **Start gating.** `can_start_game` does not check that the local peer is the host. Only the overlay's start button does.

## Model

| member | source | states |
|---|---|---|
| Decimal.NatToDecimal | network_manager.py:22 | a room id is a non-empty string of decimal digits, one digit exactly for seconds below ten |
| Decimal.NatToDecimalInjective | network_manager.py:22 | two numbers get the same decimal text exactly when they are equal |
| Rooms.NewPlayer | network_manager.py:7-12 | a new player has the given name and address, is online, and was last seen now |
| Rooms.ParseStatus | network_manager.py:404 | reading a received status text gives a status whose label is that same text, so no received text is lost |
| Rooms.ParseStatusCanonical | network_manager.py:404 | a received status is never a known label disguised as free text |
| Rooms.LabelRoundTrip | network_manager.py:183 | sending a status as its label and reading it back returns the same status exactly when the status is canonical |
| Rooms.RoomIdAtCollides | network_manager.py:22 | two rooms get the same id exactly when they are created in the same whole second |
| Rooms.Initial | network_manager.py:30-51 | the constructed manager has no players, no rooms, no current room, nobody ready, and its last sweep at construction time |
| Rooms.InitialValid | network_manager.py:30-51 | the constructed state satisfies the lobby invariant |
| Rooms.BroadcastRoom | network_manager.py:173-194 | the room broadcast carries the room id, the host's name and address, a status text that reads back as the room's status for every canonical status, the guest's name exactly when there is a guest, and both flags, but never a guest address |
| Rooms.FullRoomMessage | network_manager.py:308-320 | the snapshot sent after a ready toggle carries the room id, the host's name and address, a status text that reads back as the room's status (准备中 or 准备完成 after a toggle), the guest's name and address exactly when there is a guest, and both ready flags |
| Rooms.ReadyStatus | network_manager.py:302-306 | the derived status is 准备完成 exactly when both flags are set and 准备中 otherwise |
| Session.CreateRoom | network_manager.py:196-213 | the new room is hosted at the local address, waiting, guestless, with both flags false; it is stored under its id, becomes current and is broadcast; nothing else changes and the invariant is kept |
| Session.JoinRoom | network_manager.py:215-253 | joining succeeds exactly for a known room that is still waiting; on success only the current room and the two readiness flags change, and one join request goes to the host; on failure nothing changes and nothing is sent |
| Session.HandleJoinRequest | network_manager.py:255-265 | a request is accepted exactly when it names the current room and that room has no guest; then the requester becomes the guest, the status becomes Preparing and the room is broadcast; a refused request changes nothing |
| Session.ApplyLocalReady | network_manager.py:284-306 | only the flag of the local peer's role changes (host checked first), and the status is recomputed from the two flags |
| Session.SendReadyState | network_manager.py:281-328 | with a current room, the local readiness is stored, only that room changes, and a ready message then a full snapshot are broadcast; without one, nothing changes; the invariant is kept |
| Session.KeepFresh | network_manager.py:337-338 | the kept players are exactly those heard from less than ten seconds ago, in their original order, and addresses stay unique |
| Rooms.SublistKeepsOrder | network_manager.py:337-338 | any two players of a filtered list come from positions of the full list in the same order |
| Session.CleanupStaleData | network_manager.py:330-366 | within five seconds of the last sweep nothing changes; otherwise the fresh players are kept, exactly the rooms whose host is online and that have a guest are kept unchanged, and the current room is forgotten if it was dropped |
| Session.CleanupPreservesValid | network_manager.py:330-366 | the sweep keeps the lobby invariant |
| Session.CleanupDropsOwnRoom | network_manager.py:344-348 | a host's own room never survives a sweep, because the host ignores its own presence broadcasts and so never counts as online |
| Session.HandleLeaveRoom | network_manager.py:546-576 | a missing or unknown room id changes nothing; the address, possibly missing, is compared as it is; the host leaving deletes the room and forgets it if current; the guest leaving empties the slot, clears the guest flag, sets Waiting, resets the session if current, and broadcasts the room; anyone else gets the room re-broadcast |
| Session.AddresslessLeaveMatchesAddresslessPlayer | network_manager.py:548-567 | a leave without an address deletes a room whose host has no address, evicts a guest recorded without one, and otherwise changes nothing |
| Session.HandleLeaveRoomPreservesValid | network_manager.py:546-576 | the leave handler keeps the lobby invariant |
| Session.LeaveDeletesOnlyOnHostDeparture | network_manager.py:553-567 | a known room is deleted exactly when the leaving address is the host's, whatever the room's status |
| Session.SecondJoinRejected | network_manager.py:255-265 | of two join requests for an empty room, the first makes its sender the guest and the second changes nothing |
| Receive.OnStartGame | network_manager.py:375-383 | a start message for the current room puts that room in the game; any other start message changes nothing |
| Receive.OnGameState | network_manager.py:385-393 | the opponent's score and moves are taken only from another peer's message about the current room |
| Receive.RoomFromMessage | network_manager.py:399-409 | a room seen for the first time takes the message's id, host, status and flags, with missing flags read as false, and has a guest exactly when the message names a non-empty guest |
| Receive.Overwrite | network_manager.py:411-423 | a known room keeps its host, takes the status and both flags from the message, drops the guest when none is named, and otherwise creates a guest or updates only the guest's address |
| Receive.OpponentReadyIn | network_manager.py:428-431 | the opponent's readiness is the host flag when the local peer is the guest, otherwise the guest flag, and false with no guest |
| Receive.OnRoom | network_manager.py:395-433 | a room snapshot is merged last-writer-wins into the room list; only for the current room is the opponent's readiness re-derived; the invariant is kept |
| Receive.FindPlayer | network_manager.py:442-445 | the lookup returns the first player with the address, or nothing exactly when no player has it |
| Receive.OnPresence | network_manager.py:435-454 | the local address is ignored; a known address only has its last-seen time refreshed in place; an unknown one is appended; addresses stay unique |
| Receive.OnJoinRequest | network_manager.py:456-462 | a join request for the current room replaces the guest whatever it was, keeps the status, and broadcasts the room; other requests change nothing |
| Receive.HandleReadyState | network_manager.py:601-627 | a ready message for the current room sets only the flag of the declared role (guest when the role is missing), mirrors the readiness into the opponent flag when another peer sent it, and recomputes the status; other messages change nothing |
| Receive.OnLeaveRoom | network_manager.py:468-481 | the host leaving only forgets the current room; the guest leaving empties the slot and the opponent's readiness and re-broadcasts; the set of listed rooms never changes |
| Receive.Receive | network_manager.py:368-486 | every message keeps the lobby invariant, never changes the local readiness, and only join and leave messages send anything; result and unknown messages are ignored |
| Receive.PresenceIdempotent | network_manager.py:435-451 | hearing the same announcement twice leaves one entry per address, and the second hearing moves only its last-seen time |
| Receive.FullRoomRoundTrip | network_manager.py:411-423 | merging the full snapshot of a stored room into a peer that knows it gives back that room, losing only a guest whose name is empty |
| Receive.MergeKeepsHost | network_manager.py:411-423 | merging a snapshot of a known room never changes its host, and leaves it guestless exactly when the message names no guest |
| Gems.NewGem | game.py:93-108 | a new gem is plain, not being removed, and heads for its own cell |
| Gravity.OccupiedIncreasing | game.py:620-629 | the pieces of a column are visited in top-to-bottom order, so gravity keeps their order |
| Gravity.OccupiedComplete | game.py:620-629 | every piece of a column is visited, so gravity loses none |
| Gravity.CompactStep | game.py:620-629 | visiting one more cell upward either counts a hole or drops the piece by the holes counted so far, keeping the holes above the dropped pieces |
| Gravity.Compact | game.py:618-629 | after the bottom-up pass the holes are exactly the top cells, and below them the column's pieces follow in their original order, each placed in its new row |
| Gravity.Refill | game.py:632-637 | the top cells, as many as there were holes, get new pieces from the supply in order, and the rest of the column is untouched |
| Gravity.Settle | game.py:618-637 | gravity plus refill of one column uses one new piece per hole and yields the settled column |
| Gravity.SettleBoard | game.py:612-641 | each column of the board is settled independently, drawing its new pieces from the supply after those of the columns to its left |
| Gravity.SettledBoardFull | game.py:612-641 | after the refill no cell of the board is empty |
| Runs.SpecialFor | game.py:456-466 | a run earns no special rune exactly when it is shorter than four; four earns explosive, five line, six or more magic |
| Runs.Extend | game.py:447-453 | the inner scan stops exactly at the end of the run it is extending |
| Runs.ScanFinds | game.py:439-468 | scanning a line from a run boundary records exactly the cells of later runs of three or more, and exactly the starts of later runs of four or more |
| Runs.ScanLine | game.py:439-468 | the scan of a whole line finds exactly the cells lying in a run of three or more, and exactly the starts of runs of four or more |
| Runs.RunLength | game.py:446-453 | the measured length of a run is the distance from its start to its end |
| Runs.WindowIffLongRun | game.js:78-104 | a cell lies in a window of three equal cells exactly when it lies in a run of three or more |
| Matching.MatchedCells | game.py:439-490 | the matched cells are exactly those lying in a long run along their row or column |
| Matching.SpecialCells | game.py:456-498 | the special cells are exactly the starts of runs of four or more along a row or a column |
| Matching.ScannedSpecial | game.py:488-498 | where both scans record a special rune, the column scan's entry wins; the entry is never "none" |
| Matching.SpecialsMap | game.py:456-498 | the special runes are recorded exactly at the special cells, each with the rune its run earns, the column run taking precedence |
| Matching.SpecialKindByLength | game.py:456-498 | the rune left at a run's start follows the deciding run's length: four gives explosive, five line, six or more magic, the column's run deciding where both earn one |
| Matching.FindMatches | game.py:433-502 | detection returns exactly the cells in a horizontal or vertical run of three or more, and at every start of a run of four or more the special rune that run earns |
| Matching.SpecialsAreMatched | game.py:520-524 | every special cell is also a matched cell, and every matched cell holds a gem |
| Matching.NoMatchesNoTriples | game.py:350-353 | a board with no matches has no three equal gems in a row anywhere |
| Board.HasMatchIff | game.py:350-353 | the detection finds something exactly when some cell lies in a long run |
| Board.ResolvedCell | game.py:520-541 | a special cell gets a new special gem of the same kind at rest, another matched cell is marked as removing, and any other cell is untouched |
| Board.Resolve | game.py:520-541 | the same per-cell rule holds over the whole board |
| Board.RemoveMatches | game.py:504-551 | with matches, the combo grows by one, the best combo is the maximum, 10 points per matched cell plus 5 per combo step are scored and the board is resolved; without matches only the combo resets |
| Board.ResolveKeepsAtRest | game.py:524-529 | resolving matches keeps every gem heading for its own cell |
| Board.Affected | game.py:559-583 | an explosive rune reaches the occupied cells of the clipped 3-by-3 block, a line rune its row and column, and a magic rune every gem of its kind |
| Board.MarkRemoving | game.py:588-591 | exactly the reached occupied cells are marked as removing |
| Board.ActivateSpecialGem | game.py:553-610 | firing a rune succeeds exactly when it reaches some gem; then those gems are marked and the animation starts, otherwise nothing changes |
| Board.ClickedSpecialFires | game.py:816-818 | a clicked special rune always reaches at least itself, so it always fires and is itself removed |
| Board.FillEmpty | game.py:612-641 | every column settles under gravity with new gems from the supply, no cell is left empty, and a board at rest stays at rest |
| Board.SettledColumnAtRest | game.py:626-635 | fallen gems head for their new row and new gems for their own cell |
| Board.FillKeepsAtRest | game.py:612-641 | the refill keeps every gem heading for its own cell |
| Board.Exchange | game.py:907-910 | after a swap, each of the two cells holds the other's gem, heading for its new cell, and no other cell changes |
| Board.RestoreAtRest | game.py:924-927 | putting the two gems of a board at rest back gives the original board |
| Board.SwapGems | game.py:895-934 | an empty cell makes the swap a no-op; a swap that creates a match stays and costs exactly one move; any other swap is undone and costs nothing |
| Board.FailedSwapChangesNothing | game.py:921-928 | a swap that spends no move leaves a board at rest exactly as it was |
| Board.GetCell | game.py:425-431 | a position maps to a cell exactly inside the board rectangle with both far edges included, and the cell is the 60-pixel square containing the position |
| Board.ClickCell | game.py:805-843 | every click keeps the board 8 by 8 and any selection on the board |
| Board.HandleClick | game.py:805-810 | a click during animation changes nothing, and every click keeps the game well formed |
| Board.SelectionRules | game.py:826-838 | a plain cell clicked with nothing selected becomes the selection; with a selection the click always clears it; a click on a cell that is not a neighbour changes nothing else, a click on a neighbour attempts the swap, and only that swap can spend a move |
| Board.SpecialClickCostsOneMove | game.py:816-823 | clicking a special rune costs exactly one move and keeps the selection |
| Board.Dealt | game.py:345-348 | a dealt board holds a plain gem at rest in every cell, of the drawn kind |
| Board.IsClean | game.py:350-353 | a dealt board is accepted exactly when it has no match |
| Board.InitializeGrid | game.py:342-356 | the deal returns the first drawn board without a match, and every board drawn before it had one |
| WebBoard.IsAdjacent | game.js:39-44 | two positions are neighbours exactly when both exist and their Manhattan distance is one |
| WebBoard.Exchange | game.js:49-52 | the two cells trade contents and no other cell changes |
| WebBoard.SwapTiles | game.js:46-57 | a swap is refused while animating or with no moves left; otherwise the tiles trade places and one move is spent whether or not a match follows, and a check of the new board is scheduled |
| WebBoard.HandleTileClick | game.js:59-72 | with no selection the tile is selected; with one the selection is always cleared; for a neighbour the two tiles trade places, one move is spent and a check of the new board is scheduled, with score, highlights and animation untouched; for any other tile nothing else changes |
| WebBoard.ExchangeTwice | game.js:49-52 | swapping the same two tiles twice gives back the board |
| WebBoard.ClickNeighboursSwaps | game.js:59-72 | clicking one tile and then a neighbour trades exactly those two tiles, spends one move, clears the selection and schedules a check, leaving score and highlights alone |
| WebBoard.WindowMarks | game.js:78-104 | the marked cells are exactly those lying in a window of three equal cells along their row or column |
| WebBoard.CoveredIffWindow | game.js:78-104 | testing the three windows through a cell is the same as asking whether any window of three covers it |
| WebBoard.CheckMatches | game.js:74-115 | with marks, 50 points per distinct marked cell are scored and removal is scheduled; without, the animation stops and the score is unchanged |
| WebBoard.Cleared | game.js:120-123 | exactly the marked cells are emptied |
| WebBoard.RemoveMatches | game.js:117-129 | on a full board a cell becomes empty exactly when it was marked; unmarked cells are untouched and the refill is scheduled |
| WebBoard.FillEmptySpaces | game.js:131-158 | every column is compacted to the bottom in order and topped up from the supply, so the board is full; the highlight clears and a new check is scheduled |
| WebBoard.FillKeepsOrder | game.js:137-145 | the surviving runes of a column appear below the new ones in their original order |
| WebBoard.WindowMarksAreRuns | game.js:78-104 | on a full board the window check marks exactly the cells in a run of three or more |
| WebBoard.BothGamesMatchAlike | game.js:74-104 | on a full board the browser check and the desktop detection mark exactly the same cells |
| Widgets.NewButton | battle_platform.py:9-17 | a new button has the given label, area and activity, and is not hovered |
| Widgets.Update | battle_platform.py:37-39 | the hover update changes nothing but the hover flag |
| Widgets.HoverShowsClickable | battle_platform.py:37-42 | a button is hovered exactly where a click would be taken; an inactive button neither highlights nor reacts |
| Platform.OverlayUpdate | battle_platform.py:554-577 | the ready button offers to cancel once ready; the start button is enabled exactly for the host of a room with a guest and both flags set; with a guest, the local role's flag takes the local readiness; without a room nothing changes |
| Platform.OverlaySettles | battle_platform.py:573-577 | a second frame changes no room state, and on the host the start button then follows the local readiness and the guest's flag |
| Platform.HostGatesAgree | battle_platform.py:245-250 | on the host, once the opponent's readiness is the guest's flag, the start command is accepted exactly when the start button is enabled |
| Platform.MaxScroll | battle_platform.py:224-227 | the scroll limit is how far the rows overflow the 500-pixel panel, and zero when they fit |
| Platform.Wheel | battle_platform.py:221-227 | a wheel turn over the list keeps the offset between zero and the scroll limit, moving 20 pixels a notch when that stays in range; elsewhere it is ignored |
| Platform.WheelClamps | battle_platform.py:224-227 | a turn past either end stops at that end, and turning further down never moves the list back up |
| Platform.ListClickHitsRow | battle_platform.py:179-185 | a click inside row k's 45-pixel band, counting the scroll, selects player k; a click below the last row keeps the selection |
| Platform.Prune | battle_platform.py:159-162 | the discovery pass keeps exactly the players heard from within five seconds, in their original order, so list positions keep their order |
| Platform.PruneWithinSweep | battle_platform.py:159-162 | every player the screen keeps is also kept by the network manager's sweep |
| PlatformEvents.NewScreen | battle_platform.py:90-142 | the constructed screen lists nobody, selects nobody, has no room and has never refreshed; the refresh button lies in the list panel except for its bottom two pixel rows, and the create-room button lies in the room panel |
| PlatformEvents.ByAddress | battle_platform.py:286 | the list keyed by address holds only listed players, one per address |
| PlatformEvents.ByAddressKeepsDistinct | battle_platform.py:286 | with distinct addresses, keying by address keeps every player in order |
| PlatformEvents.ScreenUpdate | battle_platform.py:278-291 | within a second of the last refresh nothing changes; otherwise the list is re-read from the network manager, and in a room the overlay's frame runs; the lobby invariant is kept |
| PlatformEvents.OverlayUpdateValid | battle_platform.py:554-577 | the overlay's frame keeps the lobby invariant |
| PlatformEvents.OverlayUpdateKeepsRooms | battle_platform.py:554-577 | the overlay's frame keeps the players and the set of rooms |
| PlatformEvents.UpdateListsPlayers | battle_platform.py:284-287 | on a lobby that keeps its invariant, the refreshed list is the network manager's player list itself |
| PlatformEvents.JoinTarget | battle_platform.py:189-210 | the chosen room is the first listed room that is waiting and whose join button is under the click, and none is chosen when no such room exists |
| PlatformEvents.JoinButtonsDisjoint | battle_platform.py:196-201 | no point lies on two join buttons |
| PlatformEvents.JoinTargetIsHitRoom | battle_platform.py:189-210 | a click on a waiting room's join button picks exactly that room |
| PlatformEvents.ListedJoinHitJoins | battle_platform.py:189-210 | the listed rooms being the network manager's own, a click on a waiting room's join button whose host has an address joins exactly that room, which becomes current with readiness reset |
| PlatformEvents.PanelClick | battle_platform.py:179-210 | a list click selects as the list dictates, a join-button hit runs the join for that room and adopts it on success, and any other click changes nothing; players and rooms are untouched |
| PlatformEvents.RefreshClick | battle_platform.py:215-217 | a refresh click sends exactly the presence broadcast and refreshes the screen when a second has passed; without it nothing changes; players and the set of rooms are untouched and the invariant is kept |
| PlatformEvents.CreateClick | battle_platform.py:218-219 | a create-room click gives `create_room`'s lobby and broadcast and makes its room the screen's; it adds exactly the new room id and keeps the players and the invariant |
| PlatformEvents.CreatedRoomIgnoresLobby | network_manager.py:196-208 | the room `create_room` makes depends only on the clock, this host's name and its address |
| PlatformEvents.ButtonsClick | battle_platform.py:212-219 | refresh then create-room: the presence broadcast comes first and create-room's broadcast last; the refresh re-reads the players when due; create-room's room becomes current and the screen's; a click on neither changes nothing |
| PlatformEvents.JoinListed | network_manager.py:215-253 | joining a listed room succeeds exactly when its host has an address and the room is known and waiting; success makes it current, resets readiness and sends one request to the host; failure sends nothing; it resets both readiness flags when the room is known and waiting, since only the send to an address-less host failed, and otherwise changes nothing |
| PlatformEvents.OverlayClick | battle_platform.py:638-667 | the overlay handles a click exactly when it hits the enabled start button or the leave button; a ready click runs `send_ready_state` with the flipped readiness (room flag, status, ready and room broadcasts) and relabels the button; start then marks the current room playing and appends the start broadcast, leave appends the leave broadcast, and nothing else changes the lobby or the packets; the invariant is kept |
| PlatformEvents.ReadyClick | battle_platform.py:642-646 | the ready button runs `send_ready_state` with the flipped readiness and relabels itself; any other click changes nothing |
| PlatformEvents.PlayingKeepsValid | battle_platform.py:656 | marking the current room as playing keeps the lobby invariant |
| PlatformEvents.LobbyClick | battle_platform.py:179-220 | outside a room a click selects on the list, joins the waiting room whose button it hits, or creates a room exactly as `create_room` does, on the lobby the list or join step left, with its broadcast as the last packet, and that room becomes the screen's; a refresh click broadcasts this peer's presence and, once a second has passed, re-reads the players keyed by address, and without a refresh the list and its refresh time stay as they were; the scroll never moves, the game never starts, and a click on nothing changes no lobby state; players never change and rooms are added only by create-room |
| PlatformEvents.RefreshListsPlayers | battle_platform.py:213-217 | on a lobby that keeps its invariant, a refresh click outside a room announces this peer and lists exactly the network manager's players in their order |
| PlatformEvents.HandleEvent | battle_platform.py:168-227 | in a room the list, selection, scroll and screen room are frozen and only a click reaches the overlay, whose packets and lobby it keeps; the game starts exactly after a handled click that leaves the room playing, and a handled leave forgets the room; outside a room the wheel scrolls, a click goes to the lobby, and the game never starts; the invariant is kept |
| PlatformEvents.JoinedScreenIgnoresList | battle_platform.py:168-177 | after a click that joins a room, the next event leaves the list, its selection and its scroll unchanged |
| Platform.ReadyCount | battle_platform.py:355 | the ready count is two exactly when both flags are set and zero exactly when neither is |
| Platform.StatusTextCountsReady | battle_platform.py:350-356 | two preparing rooms show the same text exactly when they have the same number of ready players, and the text says all are ready exactly when both are |
| Platform.StatusTextByStatus | battle_platform.py:348-358 | a waiting room invites joining, a preparing room never shows that invitation, and any other status is shown as its own text |
| LobbyScreen.NewInputBox | network_lobby.py:6-17 | a new box is empty, inactive, with the cursor shown and the blink timer at zero |
| LobbyScreen.DropLast | network_lobby.py:34-35 | backspace removes exactly the last character, and empty text stays empty |
| LobbyScreen.HandleBoxEvent | network_lobby.py:19-40 | a click activates the box exactly when it lands inside; an inactive box ignores keys; Return deactivates without editing; Backspace shortens by one; other keys append only below 20 characters |
| LobbyScreen.TextCapped | network_lobby.py:37-39 | text of 20 or more characters never grows, and one event changes the text only by its last character or by appending |
| LobbyScreen.BoxUpdate | network_lobby.py:42-46 | the cursor flips and the time is recorded exactly when more than 500 ms have passed since the last blink |
| LobbyScreen.BlinkSpacing | network_lobby.py:44-46 | after a blink, the cursor does not blink again within 500 ms |
| LobbyScreen.InitialScreen | network_lobby.py:164-195 | the screen starts with create and join enabled, ready and start disabled, address editing off, not ready, and no error shown |
| LobbyScreen.HandleEvent | network_lobby.py:197-226 | the create and join buttons fail; the ready button toggles the readiness and broadcasts the new value; with address editing on, keys edit the address text with no length cap |
| LobbyScreen.ReadyToggleTwice | network_lobby.py:212-217 | two ready clicks restore the readiness, broadcasting the new value and then the old |
| LobbyScreen.ReadyAndAddressUnreachable | network_lobby.py:164-226 | no event or frame ever enables the ready button or address editing, so neither the ready toggle nor address editing can happen |
| LobbyScreen.UpdateScreen | network_lobby.py:228-235 | each frame both boxes blink and a positive error timer counts down by one; nothing else changes |
| LobbyScreen.TimerCountsDown | network_lobby.py:234-235 | the error timer never goes negative, and after n frames it reads max(0, t - n) |
| Findings.ReadyBeforeGuestLocksRoom | network_manager.py:302-306 | as written: a host that marks itself ready before any guest joins puts its room in Preparing, and any peer that takes in the snapshot is refused when it tries to join |
| Findings.ApplyLocalReadyFixed | network_manager.py:302-306 | corrected: a guestless room stays Waiting whatever the host's readiness; with a guest the two flags decide as before |
| Findings.ReadyBeforeGuestKeepsRoomOpen | network_manager.py:302-306 | with the correction, a readied host's room can still be joined |
| Findings.BroadcastErasesGuestIp | network_manager.py:179-188 | as written: any peer that takes in the room broadcast of a room with a guest records that guest without an address |
| Findings.LeaveWithoutAddressEvictsGuest | network_manager.py:546-567 | as written: after a room broadcast, a leave for that room without `player_ip` evicts the recorded guest |
| Findings.GuestReadyLost | network_manager.py:281-320 | as written: once its address is lost, a guest's ready toggle never reaches any peer; the snapshot restores the old flag |
| Findings.GuestReadySticks | network_manager.py:308-320 | corrected: when the guest's address travels with the snapshot, the guest's readiness reaches every peer |
| Findings.SecondJoinOverwrites | network_manager.py:456-462 | as written: a second join request replaces the first guest |
| Findings.SecondJoinRefused | network_manager.py:255-265 | corrected: the first requester stays the guest and the second is refused |
| Findings.EdgeClickOffBoard | game.py:425-431 | as written: a click on the board's right edge maps to column 8, which is off the board |
| Findings.GetCellStrict | game.py:425-431 | corrected: a position maps to a cell exactly inside the half-open board rectangle, and the cell is always on the board |
| Findings.GetCellAgreesInside | game.py:425-431 | the two mappings agree inside the board, and the written one's extra cells are all off the board |
| Findings.EdgeClickHarmless | game.py:805-843 | because the bad lookup is caught, the click handler behaves exactly as with the corrected mapping |

## Left out

- Socket, pickle and JSON I/O are not modelled. This includes `get_local_ip`, `check_firewall`, `get_network_interfaces`, `get_broadcast_address` and `log_network_status`. Sends are returned as `Packet` lists; the local address, host name and clock are parameters.
- Threads are not modelled: the receive thread, the discovery thread and any interleaving of their steps. Each handler is one atomic step.
- `network.py` (the TCP variant) is not part of this model. `constants.py` is used only as the idea of a screen state.
- The stubs `request_player_list`, `send_challenge`, `accept_challenge` and `decline_challenge` have no behaviour to model. Neither do `connect`, `disconnect` and `is_connected`.
- Malformed messages are not modelled. A missing required field raises `KeyError` and the loop drops the message; `Msg` is a typed record, so only the fields the receive loop reads with `.get` are optional. `Session.HandleLeaveRoom` is the exception: it reads both of its fields with `.get`, so it takes them as options, and a missing address matches a host or guest recorded without one.
- The `on_game_start` callback of the start-game branch is a foreign call and is left out.
- `broadcast_game_state`, `broadcast_game_result` and the battle platform's `start_game` and `leave_room` senders are left out. They only build messages, and their receiving branches are modelled.
- `network_lobby.py`'s create and join buttons call `start_server` and `connect_to_server`, which the network manager does not define. The model records that outcome as `Fails` and does not model what follows.
- In `battle_platform.py`, the methods `create_room`, `leave_room`, `toggle_ready`, `start_game`, `invite_player`, `handle_player_selection` and `refresh_player_list` are left out: nothing calls them. `handle_button_click` is modelled only for `create_room`, the one name its caller passes; its other branches are unreachable because the screen has only the refresh and create-room buttons. `RoomView` only draws.
- The screen's room dictionary becomes the network manager's own after the first refresh. The join click takes the listed rooms in the dictionary's insertion order as a parameter, because the model's room map has no order.
- Floating-point animation is left out: `Gem.update`, the fade and scale, `update_animations`, `update_gem_positions`, `is_animating` and the `dt`-driven `Game.update`. The gem's screen position is not modelled either.
- Rendering, fonts, sound and image loading are left out.
- Randomness is replaced by input sequences. `random.choice` and `Math.random` become supply sequences of kinds, and `initialize_grid`'s retry-forever loop becomes a finite list of candidate boards. `None` means every candidate had a match; termination of the real loop depends on the random source.
- The browser game's `initializeBoard`, `gameLevel` and its timers are left out. The timers are modelled as the `Pending` step a transition schedules.
- The browser game copies only the outer board array before writing a cell, so a board handed to a timer shares its rows with later boards. For example, two swaps made within the 300 ms before the first check starts both lead to checks that read the twice-swapped rows, and the same marks are scored twice. The model treats each scheduled board (`Pending`) as a value, so each check sees the board as it was when scheduled.
- The browser match check assumes a full board. The program would fail on an empty cell, which its own sequence of steps never presents.
- Board.ClickCell: its contract states only that the game stays well formed. Its branch-by-branch behaviour is stated by `Board.SelectionRules`, `Board.SpecialClickCostsOneMove` and `Board.HandleClick` rather than in its own ensures.
- Platform.ListClick, Platform.StatusText, Platform.CanStartGame and Widgets.Clicked have no ensures of their own. They are stated through `Platform.ListClickHitsRow`, `Platform.StatusTextCountsReady`, `Platform.StatusTextByStatus`, `Platform.HostGatesAgree` and `Widgets.HoverShowsClickable`.

## Findings

| source | as written | input that shows it | evidently intended | confidence | as-written member | corrected member |
|---|---|---|---|---|---|---|
| network_manager.py:302-306 | a ready toggle sets 准备中 even when the room has no guest | host creates a room, toggles ready before anyone joins; peers then see 准备中 and `join_room` refuses | a guestless room stays 等待中 until a guest joins | not executed | Findings.ReadyBeforeGuestLocksRoom | Findings.ApplyLocalReadyFixed |
| network_manager.py:179-188 | `broadcast_room` omits `guest_ip`, so receivers set the guest's address to None | host accepts a guest and broadcasts; the guest's next ready toggle matches neither role and its flag is overwritten by its own snapshot | the room broadcast carries the guest's address, as the snapshot in `send_ready_state` does | not executed | Findings.GuestReadyLost | Findings.GuestReadySticks |
| network_manager.py:456-462 | the loop's join branch replaces an existing guest and never sets 准备中 | two peers send `join_request` for the same room; the second becomes the guest | accept only while the slot is empty, as `handle_join_request` does | not executed | Findings.SecondJoinOverwrites | Findings.SecondJoinRefused |
| game.py:425-431 | the board rectangle test includes the right and bottom edges | a click at x = 640 maps to column 8, one past the last | a half-open rectangle, so every returned cell is on the board | not executed | Findings.EdgeClickOffBoard | Findings.GetCellStrict |

=== FILE: board.dfy ===
/** The play logic of the desktop match-3 game: resolving matches into
    removals and special runes, firing special runes, the gravity refill,
    swapping two gems, mapping a mouse position to a cell, the click handler,
    and the initial deal. */
module Board {
  import opened Options
  import opened Gems
  import opened Gravity
  import opened Matching

  /** The play state. `score` and `moves` are unbounded Python integers. */
  datatype Game = Game(grid: Grid, selected: Option<Cell>, score: int, moves: int,
                       animating: bool, combo: nat, maxCombo: nat)

  /** The outcome of an operation that also reports success. */
  datatype Outcome = Outcome(game: Game, ok: bool)

  const StartMoves: int := 30

  /** The grid is 8 by 8 and any selection is a cell of it. */
  ghost predicate ValidGame(st: Game) {
    IsBoard(st.grid, GridSize) &&
    (st.selected.Some? ==> OnBoard(st.selected.value.0, st.selected.value.1))
  }

  /** Every gem is heading for the cell it occupies: nothing is in flight. */
  ghost predicate AtRest(g: Grid)
    requires IsBoard(g, GridSize)
  {
    forall i, j :: OnBoard(i, j) && g[i][j].Some? ==> g[i][j].value.targetRow == i && g[i][j].value.targetCol == j
  }

  /** Some cell of the board is in a run of three or more. */
  ghost predicate HasMatch(g: Grid)
    requires IsBoard(g, GridSize)
  {
    exists i, j :: Matched(g, i, j)
  }

  /** The detection finds a match exactly when some cell is in a long run. */
  lemma HasMatchIff(g: Grid)
    requires IsBoard(g, GridSize)
    ensures HasMatch(g) <==> FindMatches(g).cells != {}
  {
    if FindMatches(g).cells != {} {
      var c :| c in FindMatches(g).cells;
      assert Matched(g, c.0, c.1);
    }
    if HasMatch(g) {
      var i, j :| Matched(g, i, j);
      assert (i, j) in FindMatches(g).cells;
    }
  }

  function Max(a: int, b: int): int { if a >= b then a else b }
  function Min(a: int, b: int): int { if a <= b then a else b }
  function Abs(a: int): nat { if a >= 0 then a else -a }

  // ---------------------------------------------------------------------
  // remove_matches

  /** The board after resolving the matches: each special start cell holds a
      new special gem of the same kind, every other matched gem is marked as
      removing, everything else is untouched. */
  function Resolve(g: Grid): (r: Grid)
    requires IsBoard(g, GridSize)
    ensures IsBoard(r, GridSize)
    ensures forall i, j :: OnBoard(i, j) && Special(g, i, j) ==>
      g[i][j].Some? && r[i][j] == Some(Gem(g[i][j].value.kind, SpecialDue(g, i, j), false, i, j))
    ensures forall i, j :: OnBoard(i, j) && Matched(g, i, j) && !Special(g, i, j) ==>
      g[i][j].Some? && r[i][j] == Some(g[i][j].value.(removing := true))
    ensures forall i, j :: OnBoard(i, j) && !Matched(g, i, j) ==> r[i][j] == g[i][j]
  {
    seq(GridSize, i requires 0 <= i < GridSize =>
      seq(GridSize, j requires 0 <= j < GridSize => ResolvedCell(g, i, j)))
  }

  /** Cell (i, j) after resolving the matches found on the board. */
  function ResolvedCell(g: Grid, i: nat, j: nat): (c: Option<Gem>)
    requires IsBoard(g, GridSize) && OnBoard(i, j)
    ensures Special(g, i, j) ==> g[i][j].Some? && c == Some(Gem(g[i][j].value.kind, SpecialDue(g, i, j), false, i, j))
    ensures Matched(g, i, j) && !Special(g, i, j) ==> g[i][j].Some? && c == Some(g[i][j].value.(removing := true))
    ensures !Matched(g, i, j) ==> c == g[i][j]
  {
    var m := FindMatches(g);
    SpecialsAreMatched(g);
    if (i, j) in m.specials then
      var sg := NewGem(g[i][j].value.kind, i, j);
      Some(sg.(special := m.specials[(i, j)]))
    else if (i, j) in m.cells && g[i][j].Some? then Some(g[i][j].value.(removing := true))
    else g[i][j]
  }

  /** One round of match resolution: with matches, the combo grows, the
      score gains 10 per matched cell plus 5 per combo step, and the board is
      resolved; without, the combo resets and nothing else changes. */
  function RemoveMatches(st: Game): (r: Outcome)
    requires IsBoard(st.grid, GridSize)
    ensures r.ok <==> exists i, j :: Matched(st.grid, i, j)
    ensures !r.ok ==> r.game == st.(combo := 0)
    ensures r.ok ==> r.game.combo == st.combo + 1 && r.game.maxCombo == Max(st.maxCombo, st.combo + 1)
    ensures r.ok ==> r.game.score == st.score + 10 * |FindMatches(st.grid).cells| + 5 * (st.combo + 1)
    ensures r.ok ==> r.game.grid == Resolve(st.grid) && r.game.animating
    ensures r.game.moves == st.moves && r.game.selected == st.selected
  {
    var m := FindMatches(st.grid);
    if m.cells == {} then
      assert forall i, j :: !Matched(st.grid, i, j) by {
        forall i, j ensures !Matched(st.grid, i, j) {
          assert (i, j) !in m.cells;
        }
      }
      Outcome(st.(combo := 0), false)
    else
      var c :| c in m.cells;
      assert Matched(st.grid, c.0, c.1);
      var combo := st.combo + 1;
      Outcome(st.(combo := combo, maxCombo := Max(st.maxCombo, combo),
                  score := st.score + 10 * |m.cells| + 5 * combo,
                  grid := Resolve(st.grid), animating := true), true)
  }

  /** A resolved board is still at rest when the original was: new special
      gems head for their own cell and marking keeps the target. */
  lemma ResolveKeepsAtRest(g: Grid)
    requires IsBoard(g, GridSize) && AtRest(g)
    ensures AtRest(Resolve(g))
  {
    var r: Grid := Resolve(g);
    forall i: int, j: int | OnBoard(i, j) && r[i][j].Some?
      ensures r[i][j].value.targetRow == i && r[i][j].value.targetCol == j
    {
      if Matched(g, i, j) {
        SpecialsAreMatched(g);
      }
    }
  }

  // ---------------------------------------------------------------------
  // activate_special_gem

  /** The occupied cells a special rune at (row, col) reaches, as the three
      loops of the program collect them. */
  function Affected(g: Grid, row: nat, col: nat, sp: SpecialType): (a: set<Cell>)
    requires IsBoard(g, GridSize) && OnBoard(row, col)
    requires sp == Magic ==> g[row][col].Some?
    ensures forall c :: c in a ==> OnBoard(c.0, c.1) && g[c.0][c.1].Some?
    ensures sp == Explosive ==> forall i, j :: (i, j) in a <==>
      OnBoard(i, j) && g[i][j].Some? && Abs(i - row) <= 1 && Abs(j - col) <= 1
    ensures sp == Line ==> forall i, j :: (i, j) in a <==>
      OnBoard(i, j) && g[i][j].Some? && (i == row || j == col)
    ensures sp == Magic ==> forall i, j :: (i, j) in a <==>
      OnBoard(i, j) && g[i][j].Some? && g[i][j].value.kind == g[row][col].value.kind
    ensures sp == NoSpecial ==> a == {}
  {
    match sp
    case Explosive =>
      set i: nat, j: nat | Max(0, row - 1) <= i < Min(GridSize, row + 2) &&
                           Max(0, col - 1) <= j < Min(GridSize, col + 2) && g[i][j].Some? :: (i, j)
    case Line =>
      (set i: nat | i < GridSize && g[i][col].Some? :: (i, col)) +
      (set j: nat | j < GridSize && g[row][j].Some? :: (row, j))
    case Magic =>
      set i: nat, j: nat | i < GridSize && j < GridSize && g[i][j].Some? &&
                           g[i][j].value.kind == g[row][col].value.kind :: (i, j)
    case NoSpecial => {}
  }

  /** The board with every gem in `a` marked as removing. */
  function MarkRemoving(g: Grid, a: set<Cell>): (r: Grid)
    requires IsBoard(g, GridSize)
    ensures IsBoard(r, GridSize)
    ensures forall i, j :: OnBoard(i, j) ==>
      r[i][j] == if (i, j) in a && g[i][j].Some? then Some(g[i][j].value.(removing := true)) else g[i][j]
  {
    seq(GridSize, i requires 0 <= i < GridSize =>
      seq(GridSize, j requires 0 <= j < GridSize =>
        if (i, j) in a && g[i][j].Some? then Some(g[i][j].value.(removing := true)) else g[i][j]))
  }

  /** Firing a special rune: the reached gems are marked as removing and the
      animation starts, and the result says whether anything was reached. A
      magic rune fired at an empty cell fails on the missing gem's kind, which
      the program catches: nothing changes and the result is false. */
  function ActivateSpecialGem(st: Game, row: nat, col: nat, sp: SpecialType): (r: Outcome)
    requires IsBoard(st.grid, GridSize) && OnBoard(row, col)
    ensures sp == Magic && st.grid[row][col].None? ==> r == Outcome(st, false)
    ensures !(sp == Magic && st.grid[row][col].None?) ==>
      var a := Affected(st.grid, row, col, sp);
      (r.ok <==> a != {}) &&
      (r.ok ==> r.game == st.(grid := MarkRemoving(st.grid, a), animating := true)) &&
      (!r.ok ==> r.game == st)
  {
    if sp == Magic && st.grid[row][col].None? then Outcome(st, false)
    else
      var a := Affected(st.grid, row, col, sp);
      if a != {} then Outcome(st.(grid := MarkRemoving(st.grid, a), animating := true), true)
      else Outcome(st, false)
  }

  /** A special gem clicked on always fires, and it is itself among the gems
      it removes. */
  lemma ClickedSpecialFires(st: Game, row: nat, col: nat)
    requires IsBoard(st.grid, GridSize) && OnBoard(row, col)
    requires st.grid[row][col].Some? && st.grid[row][col].value.special != NoSpecial
    ensures var r := ActivateSpecialGem(st, row, col, st.grid[row][col].value.special);
      r.ok && r.game.grid[row][col] == Some(st.grid[row][col].value.(removing := true))
  {
    var sp := st.grid[row][col].value.special;
    assert (row, col) in Affected(st.grid, row, col, sp);
  }

  // ---------------------------------------------------------------------
  // fill_empty

  /** A gem that falls to row k heads for row k. */
  function Fall(gem: Gem, k: nat): Gem {
    gem.(targetRow := k)
  }

  /** The new gem dealt into (row, col). */
  function Deal(kind: Kind, row: nat, col: nat): Gem {
    NewGem(kind, row, col)
  }

  /** The gravity refill: in every column the gems fall to the bottom in
      their original order, heading for their new row, and the top cells get
      new gems whose kinds are taken in turn from `supply` (the random
      choices). No cell is left empty. */
  method FillEmpty(st: Game, supply: seq<Kind>) returns (r: Game)
    requires IsBoard(st.grid, GridSize)
    requires HolesBefore(st.grid, GridSize) <= |supply|
    ensures r == st.(grid := r.grid) && IsBoard(r.grid, GridSize)
    ensures forall j :: 0 <= j < GridSize ==>
      HolesBefore(st.grid, j) + Holes(Column(st.grid, j), 0) <= |supply| &&
      Column(r.grid, j) == Settled(Column(st.grid, j), supply[HolesBefore(st.grid, j)..], Fall, Deal, j)
    ensures forall i, j :: OnBoard(i, j) ==> r.grid[i][j].Some?
    ensures AtRest(st.grid) ==> AtRest(r.grid)
  {
    var g := SettleBoard(st.grid, GridSize, supply, Fall, Deal);
    SettledBoardFull(st.grid, GridSize, supply, Fall, Deal, g);
    if AtRest(st.grid) {
      FillKeepsAtRest(st.grid, supply, g);
    }
    r := st.(grid := g);
  }

  /** Every gem of a column j is heading for its own cell. */
  ghost predicate ColumnAtRest(col: seq<Option<Gem>>, j: nat) {
    forall i :: 0 <= i < |col| && col[i].Some? ==> col[i].value.targetRow == i && col[i].value.targetCol == j
  }

  /** Gravity keeps a column at rest: fallen gems head for their new row and
      new gems for their own cell. */
  lemma SettledColumnAtRest(col: seq<Option<Gem>>, supply: seq<Kind>, j: nat)
    requires Holes(col, 0) <= |supply| && ColumnAtRest(col, j)
    ensures ColumnAtRest(Settled(col, supply, Fall, Deal, j), j)
  {
    var s := Settled(col, supply, Fall, Deal, j);
    var holes := Holes(col, 0);
    forall i | 0 <= i < |s| && s[i].Some? ensures s[i].value.targetRow == i && s[i].value.targetCol == j {
      if i < holes {
        assert s[i] == Some(Deal(supply[i], i, j));
      } else {
        var from := Occupied(col, 0)[i - holes];
        assert col[from].Some?;
        assert s[i] == Some(Place(col[from].value, from, i, Fall));
      }
    }
  }

  lemma AtRestByColumns(g: Grid)
    requires IsBoard(g, GridSize)
    ensures AtRest(g) <==> forall j :: 0 <= j < GridSize ==> ColumnAtRest(Column(g, j), j)
  {
    if forall j :: 0 <= j < GridSize ==> ColumnAtRest(Column(g, j), j) {
      forall i, j | OnBoard(i, j) && g[i][j].Some?
        ensures g[i][j].value.targetRow == i && g[i][j].value.targetCol == j
      {
        assert Column(g, j)[i] == g[i][j];
      }
    }
  }

  /** Gravity keeps the board at rest. */
  lemma FillKeepsAtRest(g: Grid, supply: seq<Kind>, g': Grid)
    requires IsBoard(g, GridSize) && IsBoard(g', GridSize) && AtRest(g)
    requires forall j :: 0 <= j < GridSize ==>
      HolesBefore(g, j) + Holes(Column(g, j), 0) <= |supply| &&
      Column(g', j) == Settled(Column(g, j), supply[HolesBefore(g, j)..], Fall, Deal, j)
    ensures AtRest(g')
  {
    AtRestByColumns(g);
    AtRestByColumns(g');
    forall j | 0 <= j < GridSize ensures ColumnAtRest(Column(g', j), j) {
      SettledColumnAtRest(Column(g, j), supply[HolesBefore(g, j)..], j);
    }
  }

  // ---------------------------------------------------------------------
  // swap_gems

  /** The board with the gems of two cells exchanged, each heading for its
      new cell (assigned in the program's order, so a cell swapped with itself
      keeps its gem). */
  function Exchange(g: Grid, r1: nat, c1: nat, r2: nat, c2: nat): (x: Grid)
    requires IsBoard(g, GridSize) && OnBoard(r1, c1) && OnBoard(r2, c2)
    requires g[r1][c1].Some? && g[r2][c2].Some?
    ensures IsBoard(x, GridSize)
    ensures (r1, c1) != (r2, c2) ==>
      x[r1][c1] == Some(g[r2][c2].value.(targetRow := r1, targetCol := c1)) &&
      x[r2][c2] == Some(g[r1][c1].value.(targetRow := r2, targetCol := c2))
    ensures forall i, j :: OnBoard(i, j) && (i, j) != (r1, c1) && (i, j) != (r2, c2) ==> x[i][j] == g[i][j]
  {
    var gem1 := g[r1][c1].value.(targetRow := r2, targetCol := c2);
    var gem2 := g[r2][c2].value.(targetRow := r1, targetCol := c1);
    var x1 := g[r1 := g[r1][c1 := Some(gem2)]];
    x1[r2 := x1[r2][c2 := Some(gem1)]]
  }

  /** The board with the two gems back in place, each heading for its own
      cell again. */
  function Restore(g: Grid, r1: nat, c1: nat, r2: nat, c2: nat): (x: Grid)
    requires IsBoard(g, GridSize) && OnBoard(r1, c1) && OnBoard(r2, c2)
    requires g[r1][c1].Some? && g[r2][c2].Some?
    ensures IsBoard(x, GridSize)
  {
    var gem1 := g[r1][c1].value.(targetRow := r1, targetCol := c1);
    var gem2 := g[r2][c2].value.(targetRow := r2, targetCol := c2);
    var x1 := g[r1 := g[r1][c1 := Some(gem1)]];
    x1[r2 := x1[r2][c2 := Some(gem2)]]
  }

  /** Putting the gems of a board at rest back in place rebuilds the board. */
  lemma RestoreAtRest(g: Grid, r1: nat, c1: nat, r2: nat, c2: nat)
    requires IsBoard(g, GridSize) && OnBoard(r1, c1) && OnBoard(r2, c2)
    requires g[r1][c1].Some? && g[r2][c2].Some? && AtRest(g)
    ensures Restore(g, r1, c1, r2, c2) == g
  {
    var x := Restore(g, r1, c1, r2, c2);
    forall i | 0 <= i < GridSize ensures x[i] == g[i] {
      assert forall j :: 0 <= j < GridSize ==> x[i][j] == g[i][j];
    }
  }

  /** Swapping two gems: nothing happens if either cell is empty; if the
      exchanged board has a match the exchange stays, one move is spent and
      the animation starts; otherwise the gems go back and no move is spent. */
  function SwapGems(st: Game, r1: nat, c1: nat, r2: nat, c2: nat): (r: Game)
    requires IsBoard(st.grid, GridSize) && OnBoard(r1, c1) && OnBoard(r2, c2)
    ensures IsBoard(r.grid, GridSize)
    ensures st.grid[r1][c1].None? || st.grid[r2][c2].None? ==> r == st
    ensures st.grid[r1][c1].Some? && st.grid[r2][c2].Some? ==>
      var x := Exchange(st.grid, r1, c1, r2, c2);
      ((exists i, j :: Matched(x, i, j)) ==> r == st.(grid := x, moves := st.moves - 1, animating := true)) &&
      ((forall i, j :: !Matched(x, i, j)) ==> r == st.(grid := Restore(st.grid, r1, c1, r2, c2)))
  {
    if st.grid[r1][c1].None? || st.grid[r2][c2].None? then st
    else
      var x := Exchange(st.grid, r1, c1, r2, c2);
      if FindMatches(x).cells != {} then
        var c :| c in FindMatches(x).cells;
        assert Matched(x, c.0, c.1);
        st.(grid := x, moves := st.moves - 1, animating := true)
      else
        assert forall i, j :: !Matched(x, i, j) by {
          forall i, j ensures !Matched(x, i, j) {
            assert (i, j) !in FindMatches(x).cells;
          }
        }
        st.(grid := Restore(st.grid, r1, c1, r2, c2))
  }

  /** A swap that makes no match leaves a board at rest exactly as it was. */
  lemma FailedSwapChangesNothing(st: Game, r1: nat, c1: nat, r2: nat, c2: nat)
    requires IsBoard(st.grid, GridSize) && OnBoard(r1, c1) && OnBoard(r2, c2) && AtRest(st.grid)
    requires SwapGems(st, r1, c1, r2, c2).moves == st.moves
    ensures SwapGems(st, r1, c1, r2, c2) == st
  {
    if st.grid[r1][c1].Some? && st.grid[r2][c2].Some? {
      RestoreAtRest(st.grid, r1, c1, r2, c2);
    }
  }

  // ---------------------------------------------------------------------
  // get_cell and the click handler

  /** The cell under a mouse position, as the program computes it: the board
      rectangle is checked with inclusive bounds on both sides, then the
      offsets are divided by the cell size. */
  function GetCell(x: int, y: int): (c: Option<Cell>)
    ensures c.Some? <==> OffsetX <= x <= OffsetX + GridSize * CellSize && OffsetY <= y <= OffsetY + GridSize * CellSize
    ensures c.Some? ==> 0 <= c.value.0 <= GridSize && 0 <= c.value.1 <= GridSize
    ensures c.Some? ==> OffsetY + c.value.0 * CellSize <= y < OffsetY + (c.value.0 + 1) * CellSize
    ensures c.Some? ==> OffsetX + c.value.1 * CellSize <= x < OffsetX + (c.value.1 + 1) * CellSize
  {
    if OffsetX <= x <= OffsetX + GridSize * CellSize && OffsetY <= y <= OffsetY + GridSize * CellSize then
      Some(((y - OffsetY) / CellSize, (x - OffsetX) / CellSize))
    else None
  }

  /** Reaction to a left click on cell `cell` (None when the click missed the
      board). An index off the board makes the program fail on the grid
      lookup, which it catches: nothing changes. A special gem fires and costs
      a move when it reaches anything; otherwise the click selects a cell, or
      with a cell already selected, swaps the two if they are neighbours and
      clears the selection either way. */
  function ClickCell(st: Game, cell: Option<Cell>): (r: Game)
    requires ValidGame(st)
    ensures ValidGame(r)
  {
    if st.animating || cell.None? then st
    else
      var (row, col) := cell.value;
      if !OnBoard(row, col) then st
      else
        var gem := st.grid[row][col];
        if gem.Some? && gem.value.special != NoSpecial then
          var a := ActivateSpecialGem(st, row, col, gem.value.special);
          if a.ok then a.game.(moves := a.game.moves - 1) else a.game
        else if st.selected.Some? then
          var (sr, sc) := st.selected.value;
          var swapped := if Abs(row - sr) + Abs(col - sc) == 1 then SwapGems(st, sr, sc, row, col) else st;
          swapped.(selected := None)
        else
          st.(selected := Some((row, col)))
  }

  /** The click handler as written: only when nothing is animating, mapping
      the position with `GetCell`. */
  function HandleClick(st: Game, x: int, y: int): (r: Game)
    requires ValidGame(st)
    ensures ValidGame(r)
    ensures st.animating ==> r == st
  {
    ClickCell(st, GetCell(x, y))
  }

  /** The selection rules: a plain cell clicked with nothing selected becomes
      the selection; with a selection, the click always clears it, a click
      on a cell that is not a neighbour changes nothing else, and only the
      swap of two neighbours can spend a move. */
  lemma SelectionRules(st: Game, row: nat, col: nat)
    requires ValidGame(st) && !st.animating && OnBoard(row, col)
    requires st.grid[row][col].None? || st.grid[row][col].value.special == NoSpecial
    ensures st.selected.None? ==> ClickCell(st, Some((row, col))) == st.(selected := Some((row, col)))
    ensures st.selected.Some? ==> ClickCell(st, Some((row, col))).selected.None?
    ensures st.selected.Some? && Abs(row - st.selected.value.0) + Abs(col - st.selected.value.1) != 1 ==>
      ClickCell(st, Some((row, col))) == st.(selected := None)
    ensures st.selected.Some? && Abs(row - st.selected.value.0) + Abs(col - st.selected.value.1) == 1 ==>
      ClickCell(st, Some((row, col))) == SwapGems(st, st.selected.value.0, st.selected.value.1, row, col).(selected := None)
    ensures ClickCell(st, Some((row, col))).moves != st.moves ==>
      st.selected.Some? && Abs(row - st.selected.value.0) + Abs(col - st.selected.value.1) == 1
  {
  }

  /** Clicking a special gem costs exactly one move and keeps the selection. */
  lemma SpecialClickCostsOneMove(st: Game, row: nat, col: nat)
    requires ValidGame(st) && !st.animating && OnBoard(row, col)
    requires st.grid[row][col].Some? && st.grid[row][col].value.special != NoSpecial
    ensures ClickCell(st, Some((row, col))).moves == st.moves - 1
    ensures ClickCell(st, Some((row, col))).selected == st.selected
  {
    ClickedSpecialFires(st, row, col);
  }

  // ---------------------------------------------------------------------
  // initialize_grid

  /** A full board dealt from one 8-by-8 draw of kinds, every gem plain and at
      rest in its own cell. */
  function Dealt(kinds: seq<seq<Kind>>): (g: Grid)
    requires IsBoard(kinds, GridSize)
    ensures IsBoard(g, GridSize) && AtRest(g)
    ensures forall i, j :: OnBoard(i, j) ==> g[i][j] == Some(NewGem(kinds[i][j], i, j))
  {
    seq(GridSize, i requires 0 <= i < GridSize =>
      seq(GridSize, j requires 0 <= j < GridSize => Some(NewGem(kinds[i][j], i, j))))
  }

  /** The program's own test of a dealt board: its match detection finds
      nothing. */
  method IsClean(g: Grid) returns (clean: bool)
    requires IsBoard(g, GridSize)
    ensures clean <==> !HasMatch(g)
  {
    HasMatchIff(g);
    clean := FindMatches(g).cells == {};
  }

  /** The initial deal: boards are dealt from the successive random draws
      until one has no match. The program retries forever; here the draws are
      a finite list, and `None` means every draw had a match. */
  method InitializeGrid(draws: seq<seq<seq<Kind>>>) returns (g: Option<Grid>, tries: nat)
    requires forall d :: 0 <= d < |draws| ==> IsBoard(draws[d], GridSize)
    ensures tries <= |draws|
    ensures g.Some? <==> tries < |draws|
    ensures g.Some? ==> g.value == Dealt(draws[tries]) && !HasMatch(g.value)
    ensures forall d :: 0 <= d < tries ==> HasMatch(Dealt(draws[d]))
  {
    tries := 0;
    while tries < |draws|
      invariant tries <= |draws|
      invariant forall d :: 0 <= d < tries ==> HasMatch(Dealt(draws[d]))
    {
      var board := Dealt(draws[tries]);
      var clean := IsClean(board);
      if clean {
        return Some(board), tries;
      }
      tries := tries + 1;
    }
    g := None;
  }
}

=== FILE: decimal.dfy ===
/** Decimal rendering of naturals, as Python's `str(int(...))` and f-string
    interpolation produce it. Room identifiers and status labels use it. */
module Decimal {

  function DigitChar(d: nat): (c: char)
    requires d < 10
    ensures '0' <= c <= '9'
  {
    "0123456789"[d]
  }

  /** The decimal representation of n without leading zeros. */
  function NatToDecimal(n: nat): (s: string)
    ensures 1 <= |s|
    ensures forall i :: 0 <= i < |s| ==> '0' <= s[i] <= '9'
    ensures n < 10 <==> |s| == 1
  {
    if n < 10 then [DigitChar(n)]
    else NatToDecimal(n / 10) + [DigitChar(n % 10)]
  }

  lemma DigitCharInjective(a: nat, b: nat)
    requires a < 10 && b < 10
    ensures DigitChar(a) == DigitChar(b) ==> a == b
  {
  }

  /** Different numbers are rendered differently, so decimal identifiers
      collide exactly when the numbers do. */
  lemma {:induction false} NatToDecimalInjective(a: nat, b: nat)
    ensures NatToDecimal(a) == NatToDecimal(b) <==> a == b
  {
    if NatToDecimal(a) == NatToDecimal(b) {
      if a < 10 || b < 10 {
        assert a < 10 && b < 10;
        DigitCharInjective(a, b);
      } else {
        var sa, sb := NatToDecimal(a), NatToDecimal(b);
        assert sa[|sa| - 1] == DigitChar(a % 10);
        assert sb[|sb| - 1] == DigitChar(b % 10);
        DigitCharInjective(a % 10, b % 10);
        assert sa[..|sa| - 1] == NatToDecimal(a / 10);
        assert sb[..|sb| - 1] == NatToDecimal(b / 10);
        NatToDecimalInjective(a / 10, b / 10);
      }
    }
  }
}

=== FILE: findings.dfy ===
/** Four defects of the program, each shown on the model as written and
    paired with a corrected definition for which the intended property
    holds. */
module Findings {
  import opened Options
  import opened Rooms
  import Session
  import Receive
  import Gems
  import Board

  // ---------------------------------------------------------------------
  // A ready toggle before any guest joins locks the room.

  /** The host creates a room and marks itself ready before anyone joins:
      the status becomes Preparing, and any other peer that takes in the
      room snapshot is refused when it tries to join. */
  lemma ReadyBeforeGuestLocksRoom(s: Lobby, env: Env, peer: Lobby, penv: Env, hostIp: Ip)
    requires penv.localIp != env.localIp
    ensures var created := Session.CreateRoom(s, env);
            var readied := Session.SendReadyState(created.lobby, env, true);
            var room := Current(readied.lobby).value;
            var seen := Receive.Receive(peer, penv, readied.sent[1].msg).lobby;
            && readied.value && room.guest.None? && room.status == Preparing
            && !Session.JoinRoom(seen, penv, room.roomId, hostIp).value
  {
    var created := Session.CreateRoom(s, env);
    var readied := Session.SendReadyState(created.lobby, env, true);
    var room := Current(readied.lobby).value;
    assert readied.sent[1].msg == FullRoomMessage(room);
    LabelRoundTrip(room.status);
  }

  /** The corrected status rule: a room without a guest stays Waiting
      whatever the host's readiness; with a guest the two flags decide. */
  function ApplyLocalReadyFixed(room: Room, localIp: Ip, ready: bool): (room': Room)
    ensures room'.guest.None? ==> room'.status == Waiting
    ensures room'.guest.Some? ==> room' == Session.ApplyLocalReady(room, localIp, ready)
    ensures room' == Session.ApplyLocalReady(room, localIp, ready).(status := room'.status)
  {
    var r := Session.ApplyLocalReady(room, localIp, ready);
    if r.guest.None? then r.(status := Waiting) else r
  }

  /** With the corrected rule the readied host's room stays open: a peer
      that takes in its snapshot can join it. */
  lemma ReadyBeforeGuestKeepsRoomOpen(s: Lobby, env: Env, peer: Lobby, penv: Env, hostIp: Ip)
    requires penv.localIp != env.localIp
    ensures var room := Session.CreateRoom(s, env).value;
            var room' := ApplyLocalReadyFixed(room, env.localIp, true);
            var seen := Receive.Receive(peer, penv, FullRoomMessage(room')).lobby;
            && room'.hostReady && room'.status == Waiting
            && Session.JoinRoom(seen, penv, room'.roomId, hostIp).value
  {
    var room := Session.CreateRoom(s, env).value;
    var room' := ApplyLocalReadyFixed(room, env.localIp, true);
    LabelRoundTrip(room'.status);
  }

  // ---------------------------------------------------------------------
  // The room broadcast drops the guest's address.

  /** A room with a guest whose address is known. */
  predicate GuestAt(room: Room, ip: Ip) {
    room.guest.Some? && room.guest.value.ip == Some(ip)
  }

  /** Any peer that takes in `broadcast_room`'s snapshot of a room with a
      guest (as the host sends after a join) is left with a guest of no
      address, the guest itself included. */
  lemma BroadcastErasesGuestIp(s: Lobby, env: Env, room: Room)
    requires room.guest.Some? && room.guest.value.name != ""
    ensures var t := Receive.Receive(s, env, BroadcastRoom(room)).lobby;
            && room.roomId in t.rooms && t.rooms[room.roomId].guest.Some?
            && t.rooms[room.roomId].guest.value.ip.None?
  {
  }

  /** Since receivers record a broadcast room's guest without an address, a
      leave message for that room that lacks `player_ip` evicts the guest
      there, whoever sent it. */
  lemma LeaveWithoutAddressEvictsGuest(s: Lobby, env: Env, room: Room)
    requires room.guest.Some? && room.guest.value.name != "" && room.host.ip.Some?
    requires room.roomId in s.rooms ==> s.rooms[room.roomId].host.ip.Some?
    ensures var t := Receive.Receive(s, env, BroadcastRoom(room)).lobby;
            var u := Session.HandleLeaveRoom(t, Some(room.roomId), None).lobby;
            && room.roomId in u.rooms && u.rooms[room.roomId].guest.None?
  {
    BroadcastErasesGuestIp(s, env, room);
  }

  /** The guest's readiness never sticks: in a room whose guest has no
      address, the guest's toggle changes no flag locally, and the two
      messages it sends leave every receiver with the guest's old flag, the
      room snapshot overwriting what the ready-state message had set. */
  lemma GuestReadyLost(g: Lobby, genv: Env, h: Lobby, henv: Env, ready: bool)
    requires Current(g).Some? && Current(g).value.guest.Some? && Current(g).value.guest.value.ip.None?
    requires !IsHost(Current(g).value, genv.localIp)
    ensures var r := Session.SendReadyState(g, genv, ready);
            var room := Current(g).value;
            var h1 := Receive.Receive(h, henv, r.sent[0].msg).lobby;
            var h2 := Receive.Receive(h1, henv, r.sent[1].msg).lobby;
            && room.roomId in h2.rooms && h2.rooms[room.roomId].guestReady == room.guestReady
  {
  }

  /** With the guest's address carried in the room snapshot, the guest keeps
      its address and its readiness reaches every receiver: after the
      guest's two messages the room's guest flag is the guest's choice. */
  lemma GuestReadySticks(g: Lobby, genv: Env, h: Lobby, henv: Env, room: Room, ready: bool)
    requires GuestAt(room, genv.localIp) && room.guest.value.name != ""
    requires Valid(g, genv.localIp) && Receive.ForCurrent(g, room.roomId)
    requires !IsHost(Current(g).value, genv.localIp)
    ensures var g1 := Receive.Receive(g, genv, FullRoomMessage(room)).lobby;
            var r := Session.SendReadyState(g1, genv, ready);
            var h1 := Receive.Receive(h, henv, r.sent[0].msg).lobby;
            var h2 := Receive.Receive(h1, henv, r.sent[1].msg).lobby;
            && Current(g1).Some? && GuestAt(Current(g1).value, genv.localIp)
            && room.roomId in h2.rooms && h2.rooms[room.roomId].guestReady == ready
  {
    var g1 := Receive.Receive(g, genv, FullRoomMessage(room)).lobby;
    assert Current(g1).Some? && GuestAt(Current(g1).value, genv.localIp);
    var r := Session.SendReadyState(g1, genv, ready);
    var room' := Current(r.lobby).value;
    assert room'.guestReady == ready;
    assert r.sent[1].msg == FullRoomMessage(room');
    var h1 := Receive.Receive(h, henv, r.sent[0].msg).lobby;
    assert Receive.Receive(h1, henv, r.sent[1].msg).lobby == Receive.OnRoom(h1, henv, FullRoomMessage(room'));
  }

  // ---------------------------------------------------------------------
  // The join request in the receive loop replaces an existing guest.

  /** Two join requests for the host's current room: the receive loop takes
      both, and the second sender replaces the first as the guest. */
  lemma SecondJoinOverwrites(s: Lobby, env: Env, roomId: RoomId, n1: string, ip1: Ip, n2: string, ip2: Ip)
    requires Receive.ForCurrent(s, roomId) && ip1 != ip2
    ensures var s1 := Receive.Receive(s, env, JoinRequest(roomId, n1, ip1)).lobby;
            var s2 := Receive.Receive(s1, env, JoinRequest(roomId, n2, ip2)).lobby;
            && Current(s2).Some? && GuestAt(Current(s2).value, ip2)
            && !GuestAt(Current(s2).value, ip1)
  {
  }

  /** The corrected join handling, as `handle_join_request` does it: the
      first requester stays the guest and the second is refused. */
  lemma SecondJoinRefused(s: Lobby, env: Env, roomId: RoomId, n1: string, ip1: Ip, n2: string, ip2: Ip)
    requires Receive.ForCurrent(s, roomId) && Current(s).value.guest.None?
    ensures var r1 := Session.HandleJoinRequest(s, env, roomId, n1, ip1);
            var r2 := Session.HandleJoinRequest(r1.lobby, env, roomId, n2, ip2);
            && r1.value && !r2.value
            && Current(r2.lobby).Some? && GuestAt(Current(r2.lobby).value, ip1)
  {
    Session.SecondJoinRejected(s, env, roomId, n1, ip1, n2, ip2);
  }

  // ---------------------------------------------------------------------
  // The mouse mapping accepts the board's right and bottom edge.

  /** A click on the board's right edge maps to column 8, one past the last
      column. */
  lemma EdgeClickOffBoard()
    ensures Board.GetCell(640, 100) == Some((0, 8))
    ensures !Gems.OnBoard(0, 8)
  {
    assert Gems.OffsetX == 160 && Gems.OffsetY == 60;
  }

  /** The intended mapping, with the far edges excluded: every cell it
      returns is on the board, and every on-board cell is hit by the pixel at
      its top-left corner. */
  function GetCellStrict(x: int, y: int): (c: Option<Gems.Cell>)
    ensures c.Some? <==>
      Gems.OffsetX <= x < Gems.OffsetX + Gems.GridSize * Gems.CellSize &&
      Gems.OffsetY <= y < Gems.OffsetY + Gems.GridSize * Gems.CellSize
    ensures c.Some? ==> Gems.OnBoard(c.value.0, c.value.1)
    ensures c.Some? ==> Gems.OffsetY + c.value.0 * Gems.CellSize <= y < Gems.OffsetY + (c.value.0 + 1) * Gems.CellSize
    ensures c.Some? ==> Gems.OffsetX + c.value.1 * Gems.CellSize <= x < Gems.OffsetX + (c.value.1 + 1) * Gems.CellSize
  {
    if Gems.OffsetX <= x < Gems.OffsetX + Gems.GridSize * Gems.CellSize &&
       Gems.OffsetY <= y < Gems.OffsetY + Gems.GridSize * Gems.CellSize
    then Some(((y - Gems.OffsetY) / Gems.CellSize, (x - Gems.OffsetX) / Gems.CellSize))
    else None
  }

  /** The two mappings agree on every pixel of the board's interior, and
      the edge clicks the written one lets through are the only ones it maps
      off the board. */
  lemma GetCellAgreesInside(x: int, y: int)
    ensures GetCellStrict(x, y).Some? ==> Board.GetCell(x, y) == GetCellStrict(x, y)
    ensures Board.GetCell(x, y).Some? && GetCellStrict(x, y).None? ==>
      !Gems.OnBoard(Board.GetCell(x, y).value.0, Board.GetCell(x, y).value.1)
  {
  }

  /** The defect is harmless to play: the failed grid lookup is caught, so
      the click handler behaves exactly as with the corrected mapping. */
  lemma EdgeClickHarmless(st: Board.Game, x: int, y: int)
    requires Board.ValidGame(st)
    ensures Board.HandleClick(st, x, y) == Board.ClickCell(st, GetCellStrict(x, y))
  {
    GetCellAgreesInside(x, y);
  }
}

=== FILE: gems.dfy ===
/** The pieces of the match-3 board and the board geometry of the desktop
    game. */
module Gems {
  import opened Options

  /** The six rune kinds; both boards use the same six. */
  datatype Kind = Fire | Water | Wind | Earth | Light | Shadow

  /** The special rune a long run leaves behind. */
  datatype SpecialType = NoSpecial | Explosive | Line | Magic

  /** A gem of the desktop board. Screen position, fade and scale are
      animation state and are not modelled; `targetRow`/`targetCol` record the
      cell the gem is heading for. */
  datatype Gem = Gem(kind: Kind, special: SpecialType, removing: bool, targetRow: int, targetCol: int)

  /** A freshly constructed gem at (row, col): plain, not removing, heading
      for its own cell. */
  function NewGem(kind: Kind, row: int, col: int): (g: Gem)
    ensures g.kind == kind && g.special == NoSpecial && !g.removing
    ensures g.targetRow == row && g.targetCol == col
  {
    Gem(kind, NoSpecial, false, row, col)
  }

  type Cell = (int, int)
  type Grid = seq<seq<Option<Gem>>>

  const GridSize: nat := 8
  const CellSize: nat := 60
  const WindowWidth: nat := 800
  const WindowHeight: nat := 600
  /** Left and top margins of the board: (800 - 8*60) / 2 and (600 - 8*60) / 2. */
  const OffsetX: nat := (WindowWidth - GridSize * CellSize) / 2
  const OffsetY: nat := (WindowHeight - GridSize * CellSize) / 2

  /** A cell index on the board. */
  predicate OnBoard(i: int, j: int) {
    0 <= i < GridSize && 0 <= j < GridSize
  }

  /** The kinds along one line of gems; scanning for runs looks only at
      whether a cell is occupied and at its kind. */
  function Kinds(line: seq<Option<Gem>>): (ks: seq<Option<Kind>>)
    ensures |ks| == |line|
    ensures forall p :: 0 <= p < |line| ==> ks[p].Some? == line[p].Some?
    ensures forall p :: 0 <= p < |line| && line[p].Some? ==> ks[p] == Some(line[p].value.kind)
  {
    seq(|line|, p requires 0 <= p < |line| => if line[p].Some? then Some(line[p].value.kind) else None)
  }
}

=== FILE: gravity.dfy ===
/** Square boards stored row by row, and the gravity step both match-3
    boards share: every column's pieces fall to the bottom in their original
    order and the holes left at the top are filled with new pieces. */
module Gravity {
  import opened Options

  /** An n-by-n board, row-major: `g[row][col]`. */
  ghost predicate IsBoard<T>(g: seq<seq<T>>, n: nat) {
    |g| == n && forall i :: 0 <= i < n ==> |g[i]| == n
  }

  /** Column j of a board, top to bottom. */
  function Column<T>(g: seq<seq<T>>, j: nat): (c: seq<T>)
    requires forall i :: 0 <= i < |g| ==> j < |g[i]|
    ensures |c| == |g| && forall i :: 0 <= i < |g| ==> c[i] == g[i][j]
  {
    seq(|g|, i requires 0 <= i < |g| => g[i][j])
  }

  /** The board with column j replaced. */
  function SetColumn<T>(g: seq<seq<T>>, j: nat, c: seq<T>): (g': seq<seq<T>>)
    requires forall i :: 0 <= i < |g| ==> j < |g[i]|
    requires |c| == |g|
    ensures |g'| == |g|
    ensures forall i :: 0 <= i < |g| ==> |g'[i]| == |g[i]| && g'[i] == g[i][j := c[i]]
  {
    seq(|g|, i requires 0 <= i < |g| => g[i][j := c[i]])
  }

  /** Number of empty cells in col[lo..]. */
  function Holes<T>(col: seq<Option<T>>, lo: nat): (h: nat)
    requires lo <= |col|
    ensures h <= |col| - lo
    decreases |col| - lo
  {
    if lo == |col| then 0
    else (if col[lo].None? then 1 else 0) + Holes(col, lo + 1)
  }

  /** Indices of the occupied cells of col[lo..], top to bottom. */
  function Occupied<T>(col: seq<Option<T>>, lo: nat): (idx: seq<nat>)
    requires lo <= |col|
    ensures |idx| + Holes(col, lo) == |col| - lo
    ensures forall m :: 0 <= m < |idx| ==> lo <= idx[m] < |col| && col[idx[m]].Some?
    decreases |col| - lo
  {
    if lo == |col| then []
    else if col[lo].Some? then [lo] + Occupied(col, lo + 1)
    else Occupied(col, lo + 1)
  }

  /** The occupied indices are listed top to bottom, so the gravity step
      keeps the pieces' vertical order. */
  lemma {:induction false} OccupiedIncreasing<T>(col: seq<Option<T>>, lo: nat)
    requires lo <= |col|
    ensures forall m, m' :: 0 <= m < m' < |Occupied(col, lo)| ==> Occupied(col, lo)[m] < Occupied(col, lo)[m']
    decreases |col| - lo
  {
    if lo < |col| {
      OccupiedIncreasing(col, lo + 1);
    }
  }

  /** Every occupied cell is listed, so no piece is lost. */
  lemma {:induction false} OccupiedComplete<T>(col: seq<Option<T>>, lo: nat)
    requires lo <= |col|
    ensures forall k :: lo <= k < |col| && col[k].Some? ==> k in Occupied(col, lo)
    decreases |col| - lo
  {
    if lo < |col| {
      OccupiedComplete(col, lo + 1);
    }
  }

  /** A piece that ends in row k: untouched if it was already there, else
      passed through `moved`. */
  function Place<T>(v: T, from: nat, k: nat, moved: (T, nat) -> T): T {
    if from == k then v else moved(v, k)
  }

  /** The settled column, described declaratively: the top `Holes` cells hold
      new pieces made from `supply`, and below them the original pieces follow
      in their original order. */
  function Settled<T, K>(col: seq<Option<T>>, supply: seq<K>, moved: (T, nat) -> T, make: (K, nat, nat) -> T, j: nat): (r: seq<Option<T>>)
    requires Holes(col, 0) <= |supply|
    ensures |r| == |col|
    ensures forall k :: 0 <= k < |r| ==> r[k].Some?
  {
    var holes := Holes(col, 0);
    var occ := Occupied(col, 0);
    seq(|col|, k requires 0 <= k < |col| =>
      if k < holes then Some(make(supply[k], k, j))
      else Some(Place(col[occ[k - holes]].value, occ[k - holes], k, moved)))
  }

  /** The state of the bottom-up pass once the cells from `lo` down have
      been visited: the cells above are untouched, `empty` holes sit just
      below them, and the occupied cells seen so far follow in order, each
      in its new row. */
  ghost predicate CompactedFrom<T>(col: seq<Option<T>>, moved: (T, nat) -> T, c: seq<Option<T>>, lo: nat, empty: nat, occ: seq<nat>) {
    && lo <= |col| && |c| == |col|
    && empty == Holes(col, lo) && occ == Occupied(col, lo)
    && lo + empty + |occ| == |col|
    && (forall k :: 0 <= k < lo ==> c[k] == col[k])
    && (forall k :: lo <= k < lo + empty ==> c[k].None?)
    && (forall m :: 0 <= m < |occ| ==>
          c[lo + empty + m] == Some(Place(col[occ[m]].value, occ[m], lo + empty + m, moved)))
  }

  /** One step of the pass: visit the cell just above `lo`. A hole is
      counted; a piece drops by the number of holes counted so far. */
  method CompactStep<T>(col: seq<Option<T>>, moved: (T, nat) -> T, c: seq<Option<T>>, lo: nat, empty: nat, ghost occ: seq<nat>)
    returns (c': seq<Option<T>>, empty': nat, ghost occ': seq<nat>)
    requires lo > 0 && CompactedFrom(col, moved, c, lo, empty, occ)
    ensures CompactedFrom(col, moved, c', lo - 1, empty', occ')
    ensures c[lo - 1].None? ==> c' == c && empty' == empty + 1
    ensures c[lo - 1].Some? ==> empty' == empty
  {
    var i := lo - 1;
    c', empty', occ' := c, empty, occ;
    assert c[i] == col[i];
    if c[i].None? {
      empty' := empty + 1;
    } else {
      assert Occupied(col, i) == [i] + occ;
      if empty > 0 {
        c' := c[i + empty := Some(moved(c[i].value, i + empty))][i := None];
      }
      forall m | 0 <= m < |occ|
        ensures c'[lo + empty + m] == Some(Place(col[occ[m]].value, occ[m], lo + empty + m, moved))
      {
        assert c'[lo + empty + m] == c[lo + empty + m];
      }
      occ' := [i] + occ;
    }
  }

  /** The bottom-up gravity pass both programs write: scanning up a column,
      each piece is moved down by the number of holes seen below it (and
      passed through `moved` when it moves). Afterwards the holes are the top
      cells and the pieces follow below them in their original order. */
  method Compact<T>(col: seq<Option<T>>, moved: (T, nat) -> T) returns (c: seq<Option<T>>, empty: nat)
    ensures empty == Holes(col, 0) && |c| == |col|
    ensures forall k :: 0 <= k < empty ==> c[k].None?
    ensures forall m :: 0 <= m < |Occupied(col, 0)| ==>
      c[empty + m] == Some(Place(col[Occupied(col, 0)[m]].value, Occupied(col, 0)[m], empty + m, moved))
  {
    c := col;
    var lo: nat := |col|;
    empty := 0;
    ghost var occ: seq<nat> := [];
    while lo > 0
      invariant CompactedFrom(col, moved, c, lo, empty, occ)
    {
      c, empty, occ := CompactStep(col, moved, c, lo, empty, occ);
      lo := lo - 1;
    }
  }

  /** The top-down refill of column j: the first `empty` cells get new pieces
      made from `supply`; the rest of the column is left alone. */
  method Refill<T, K>(c: seq<Option<T>>, empty: nat, supply: seq<K>, make: (K, nat, nat) -> T, j: nat) returns (res: seq<Option<T>>)
    requires empty <= |c| && empty <= |supply|
    ensures |res| == |c|
    ensures forall k :: 0 <= k < empty ==> res[k] == Some(make(supply[k], k, j))
    ensures forall k :: empty <= k < |c| ==> res[k] == c[k]
  {
    res := c;
    var k := 0;
    while k < empty
      invariant 0 <= k <= empty && |res| == |c|
      invariant forall k' :: 0 <= k' < k ==> res[k'] == Some(make(supply[k'], k', j))
      invariant forall k' :: k <= k' < |c| ==> res[k'] == c[k']
    {
      res := res[k := Some(make(supply[k], k, j))];
      k := k + 1;
    }
  }

  /** Gravity followed by refill of column j; `used` pieces were drawn from
      `supply`. */
  method Settle<T, K>(col: seq<Option<T>>, supply: seq<K>, moved: (T, nat) -> T, make: (K, nat, nat) -> T, j: nat)
    returns (res: seq<Option<T>>, used: nat)
    requires Holes(col, 0) <= |supply|
    ensures used == Holes(col, 0)
    ensures res == Settled(col, supply, moved, make, j)
  {
    var c, empty := Compact(col, moved);
    res := Refill(c, empty, supply, make, j);
    used := empty;
    ghost var occ := Occupied(col, 0);
    forall k | 0 <= k < |col| ensures res[k] == Settled(col, supply, moved, make, j)[k] {
      if k >= empty {
        assert res[k] == c[empty + (k - empty)];
      }
    }
  }

  /** Total number of holes in columns 0..j-1: the position in the stream of
      new pieces where column j starts drawing. */
  function HolesBefore<T>(g: seq<seq<Option<T>>>, j: nat): nat
    requires forall i :: 0 <= i < |g| ==> j <= |g[i]|
  {
    if j == 0 then 0 else HolesBefore(g, j - 1) + Holes(Column(g, j - 1), 0)
  }

  /** Replacing column j leaves every other column as it was. */
  lemma SetColumnOther<T>(g: seq<seq<T>>, n: nat, j: nat, c: seq<T>, j': nat)
    requires IsBoard(g, n) && j < n && j' < n && j != j' && |c| == n
    ensures IsBoard(SetColumn(g, j, c), n)
    ensures Column(SetColumn(g, j, c), j') == Column(g, j')
  {
  }

  /** Replacing column j and reading it back gives the new column. */
  lemma SetColumnSame<T>(g: seq<seq<T>>, n: nat, j: nat, c: seq<T>)
    requires IsBoard(g, n) && j < n && |c| == n
    ensures IsBoard(SetColumn(g, j, c), n)
    ensures Column(SetColumn(g, j, c), j) == c
  {
  }

  /** The gravity step over the whole board, column by column from the left;
      each column draws its new pieces from `supply` in turn. */
  method SettleBoard<T, K>(g: seq<seq<Option<T>>>, n: nat, supply: seq<K>,
                           moved: (T, nat) -> T, make: (K, nat, nat) -> T)
    returns (g': seq<seq<Option<T>>>)
    requires IsBoard(g, n)
    requires HolesBefore(g, n) <= |supply|
    ensures IsBoard(g', n)
    ensures forall j :: 0 <= j < n ==>
      HolesBefore(g, j) + Holes(Column(g, j), 0) <= |supply| &&
      Column(g', j) == Settled(Column(g, j), supply[HolesBefore(g, j)..], moved, make, j)
  {
    HolesBeforeMonotone(g, n);
    g' := g;
    var j := 0;
    while j < n
      invariant 0 <= j <= n
      invariant IsBoard(g', n)
      invariant forall j' :: j <= j' < n ==> Column(g', j') == Column(g, j')
      invariant forall j' :: 0 <= j' < j ==>
        Column(g', j') == Settled(Column(g, j'), supply[HolesBefore(g, j')..], moved, make, j')
    {
      var col := Column(g', j);
      var res, used := Settle(col, supply[HolesBefore(g, j)..], moved, make, j);
      ghost var before := g';
      g' := SetColumn(g', j, res);
      SetColumnSame(before, n, j, res);
      forall j' | 0 <= j' < n && j' != j ensures Column(g', j') == Column(before, j') {
        SetColumnOther(before, n, j, res, j');
      }
      j := j + 1;
    }
  }

  /** After the gravity step no cell of the board is empty. */
  lemma SettledBoardFull<T, K>(g: seq<seq<Option<T>>>, n: nat, supply: seq<K>,
                               moved: (T, nat) -> T, make: (K, nat, nat) -> T, g': seq<seq<Option<T>>>)
    requires IsBoard(g, n) && IsBoard(g', n)
    requires forall j :: 0 <= j < n ==>
      HolesBefore(g, j) + Holes(Column(g, j), 0) <= |supply| &&
      Column(g', j) == Settled(Column(g, j), supply[HolesBefore(g, j)..], moved, make, j)
    ensures forall i, j :: 0 <= i < n && 0 <= j < n ==> g'[i][j].Some?
  {
    forall i, j | 0 <= i < n && 0 <= j < n ensures g'[i][j].Some? {
      assert Column(g', j)[i] == g'[i][j];
    }
  }

  lemma {:induction false} HolesBeforeMonotone<T>(g: seq<seq<Option<T>>>, n: nat)
    requires IsBoard(g, n)
    ensures forall j :: 0 <= j < n ==> HolesBefore(g, j) + Holes(Column(g, j), 0) <= HolesBefore(g, n)
    decreases n
  {
    forall j | 0 <= j < n ensures HolesBefore(g, j) + Holes(Column(g, j), 0) <= HolesBefore(g, n) {
      HolesBeforeUpTo(g, n, j + 1);
    }
  }

  lemma {:induction false} HolesBeforeUpTo<T>(g: seq<seq<Option<T>>>, n: nat, j: nat)
    requires IsBoard(g, n) && j <= n
    ensures HolesBefore(g, j) <= HolesBefore(g, n)
    decreases n - j
  {
    if j < n {
      HolesBeforeUpTo(g, n, j + 1);
    }
  }
}

=== FILE: lobbyscreen.dfy ===
/** The direct-connection lobby screen: its text input boxes, its event
    handler and its per-frame update. The screen calls two network
    operations, `start_server` and `connect_to_server`, that the network
    manager does not define; the call fails, and the model records that as
    the `Fails` outcome. */
module LobbyScreen {
  import opened Options
  import opened Widgets

  /** Longest text an input box accepts by typing. */
  const MaxText: nat := 20
  /** Milliseconds between two cursor blinks. */
  const BlinkPeriod: int := 500

  datatype Key = Return | Backspace | Typed(unicode: string)

  datatype Event = MouseDown(pos: Point) | KeyDown(key: Key) | OtherEvent

  /** A text input box. */
  datatype InputBox = InputBox(rect: Rect, text: string, placeholder: string, active: bool,
                               cursorVisible: bool, cursorTimer: int)

  /** A new box: empty, inactive, cursor shown, timer at zero. */
  function NewInputBox(rect: Rect, placeholder: string): (b: InputBox)
    ensures b.text == [] && !b.active && b.cursorVisible && b.cursorTimer == 0
  {
    InputBox(rect, [], placeholder, false, true, 0)
  }

  /** The text without its last character; empty text stays empty. */
  function DropLast(s: string): (r: string)
    ensures |s| > 0 ==> r + [s[|s| - 1]] == s
    ensures |s| == 0 ==> r == s
  {
    if |s| > 0 then s[..|s| - 1] else s
  }

  /** An input box's event handling: a click inside activates it and a click
      outside deactivates it; while active, Return deactivates it, Backspace
      drops the last character, and any other key appends its text while the
      text is shorter than the limit. */
  function HandleBoxEvent(b: InputBox, e: Event): (b': InputBox)
    ensures b'.rect == b.rect && b'.placeholder == b.placeholder
    ensures b'.cursorVisible == b.cursorVisible && b'.cursorTimer == b.cursorTimer
    ensures e.MouseDown? ==> b' == b.(active := Contains(b.rect, e.pos))
    ensures e.OtherEvent? ==> b' == b
    ensures e.KeyDown? && !b.active ==> b' == b
    ensures e.KeyDown? && b.active && e.key == Return ==> b' == b.(active := false)
    ensures e.KeyDown? && b.active && e.key == Backspace ==>
      b' == b.(text := b'.text) && |b'.text| == if |b.text| > 0 then |b.text| - 1 else 0
    ensures e.KeyDown? && b.active && e.key.Typed? ==>
      b' == b.(text := b'.text) && (|b.text| < MaxText ==> b'.text == b.text + e.key.unicode) &&
      (|b.text| >= MaxText ==> b'.text == b.text)
  {
    match e
    case MouseDown(pos) => b.(active := Contains(b.rect, pos))
    case KeyDown(key) =>
      if !b.active then b
      else
        (match key
         case Return => b.(active := false)
         case Backspace => b.(text := DropLast(b.text))
         case Typed(u) => if |b.text| < MaxText then b.(text := b.text + u) else b)
    case OtherEvent => b
  }

  /** Typed text is capped: a box whose text is at the limit or beyond never
      grows, and one key adds at most that key's text to a shorter one; text
      only ever changes by the last character or a typed suffix. */
  lemma TextCapped(b: InputBox, e: Event)
    ensures |b.text| >= MaxText ==> |HandleBoxEvent(b, e).text| <= |b.text|
    ensures |b.text| < MaxText && e.KeyDown? && e.key.Typed? ==>
      |HandleBoxEvent(b, e).text| <= MaxText - 1 + |e.key.unicode|
    ensures var t := HandleBoxEvent(b, e).text;
      t == b.text || (|t| + 1 == |b.text| && t == b.text[..|t|]) || (|t| >= |b.text| && t[..|b.text|] == b.text)
  {
  }

  /** A box's cursor blink: more than 500 ms after the last blink the cursor
      flips and the time is recorded. */
  function BoxUpdate(b: InputBox, ticks: int): (b': InputBox)
    ensures ticks - b.cursorTimer > BlinkPeriod ==> b' == b.(cursorVisible := !b.cursorVisible, cursorTimer := ticks)
    ensures ticks - b.cursorTimer <= BlinkPeriod ==> b' == b
  {
    if ticks - b.cursorTimer > BlinkPeriod then b.(cursorVisible := !b.cursorVisible, cursorTimer := ticks) else b
  }

  /** The screen's state. `inputActive` guards editing of the address text. */
  datatype Screen = Screen(create: Button, join: Button, ready: Button, start: Button,
                           roomName: InputBox, ip: InputBox,
                           ipInput: string, inputActive: bool, isReady: bool, opponentReady: bool,
                           errorMessage: string, errorTimer: int)

  /** The screen as constructed. */
  function InitialScreen(): (sc: Screen)
    ensures sc.create.active && sc.join.active && !sc.ready.active && !sc.start.active
    ensures !sc.inputActive && !sc.isReady && sc.ipInput == [] && sc.errorTimer == 0
  {
    Screen(NewButton("创建房间", 300, 150, 200, 50, true), NewButton("加入房间", 300, 200, 200, 50, true),
           NewButton("准备", 300, 300, 200, 50, false), NewButton("开始游戏", 300, 350, 200, 50, false),
           NewInputBox(Rect(300, 100, 200, 32), "房间名称"), NewInputBox(Rect(300, 250, 200, 32), "输入IP地址"),
           [], false, false, false, [], 0)
  }

  /** What an event leads to: the new screen and the readiness broadcast,
      if any; or a failure when a button calls a network operation that does
      not exist. */
  datatype Handled = Done(screen: Screen, sentReady: Option<bool>) | Fails

  /** The screen's event handler: the create and join buttons call the
      missing network operations; the ready button toggles the local
      readiness and broadcasts it; with the address box in use, keys edit
      the address text without any length cap. */
  function HandleEvent(sc: Screen, e: Event): (r: Handled)
    ensures e.MouseDown? && (Clicked(sc.create, e.pos) || Clicked(sc.join, e.pos)) ==> r.Fails?
    ensures e.MouseDown? && !Clicked(sc.create, e.pos) && !Clicked(sc.join, e.pos) && Clicked(sc.ready, e.pos) ==>
      r == Done(sc.(isReady := !sc.isReady), Some(!sc.isReady))
    ensures e.MouseDown? && !Clicked(sc.create, e.pos) && !Clicked(sc.join, e.pos) && !Clicked(sc.ready, e.pos) ==>
      r == Done(sc, None)
    ensures e.KeyDown? && !sc.inputActive ==> r == Done(sc, None)
    ensures e.KeyDown? && sc.inputActive ==>
      r.Done? && r.sentReady.None? && r.screen == sc.(ipInput := r.screen.ipInput, inputActive := r.screen.inputActive)
    ensures e.KeyDown? && sc.inputActive && e.key == Return ==> r == Done(sc.(inputActive := false), None)
    ensures e.KeyDown? && sc.inputActive && e.key == Backspace ==> r == Done(sc.(ipInput := DropLast(sc.ipInput)), None)
    ensures e.KeyDown? && sc.inputActive && e.key.Typed? ==>
      r == Done(sc.(ipInput := sc.ipInput + e.key.unicode), None)
    ensures e.OtherEvent? ==> r == Done(sc, None)
  {
    match e
    case MouseDown(pos) =>
      if Clicked(sc.create, pos) then Fails
      else if Clicked(sc.join, pos) then Fails
      else if Clicked(sc.ready, pos) then Done(sc.(isReady := !sc.isReady), Some(!sc.isReady))
      else Done(sc, None)
    case KeyDown(key) =>
      if sc.inputActive then
        (match key
         case Return => Done(sc.(inputActive := false), None)
         case Backspace => Done(sc.(ipInput := DropLast(sc.ipInput)), None)
         case Typed(u) => Done(sc.(ipInput := sc.ipInput + u), None))
      else Done(sc, None)
    case OtherEvent => Done(sc, None)
  }

  /** The per-frame update: both boxes blink, and a positive error timer
      counts down by one. */
  function UpdateScreen(sc: Screen, ticks: int): (sc': Screen)
    ensures sc'.roomName == BoxUpdate(sc.roomName, ticks) && sc'.ip == BoxUpdate(sc.ip, ticks)
    ensures sc' == sc.(roomName := sc'.roomName, ip := sc'.ip, errorTimer := sc'.errorTimer)
    ensures sc.errorTimer > 0 ==> sc'.errorTimer == sc.errorTimer - 1
    ensures sc.errorTimer <= 0 ==> sc'.errorTimer == sc.errorTimer
  {
    sc.(roomName := BoxUpdate(sc.roomName, ticks), ip := BoxUpdate(sc.ip, ticks),
        errorTimer := if sc.errorTimer > 0 then sc.errorTimer - 1 else sc.errorTimer)
  }

  /** The screen after one frame per tick reading, in order. */
  function Frames(sc: Screen, ticks: seq<int>): Screen
    decreases |ticks|
  {
    if ticks == [] then sc else Frames(UpdateScreen(sc, ticks[0]), ticks[1..])
  }

  /** The error timer never goes below zero from a start at zero or above,
      and after n frames it reads max(0, t - n): an error message stays
      exactly t frames. */
  lemma {:induction false} TimerCountsDown(sc: Screen, ticks: seq<int>)
    requires sc.errorTimer >= 0
    ensures Frames(sc, ticks).errorTimer >= 0
    ensures Frames(sc, ticks).errorTimer == if sc.errorTimer - |ticks| > 0 then sc.errorTimer - |ticks| else 0
    decreases |ticks|
  {
    if ticks != [] {
      TimerCountsDown(UpdateScreen(sc, ticks[0]), ticks[1..]);
    }
  }

  /** The cursor blinks at most once per period: a box that has just
      blinked does not blink again within 500 ms. */
  lemma BlinkSpacing(b: InputBox, t1: int, t2: int)
    requires t1 - b.cursorTimer > BlinkPeriod && t2 - t1 <= BlinkPeriod
    ensures BoxUpdate(BoxUpdate(b, t1), t2) == BoxUpdate(b, t1)
    ensures BoxUpdate(b, t1).cursorVisible != b.cursorVisible
  {
  }

  /** Two clicks on the active ready button restore the readiness, the two
      broadcasts carrying the new value and then the old. */
  lemma ReadyToggleTwice(sc: Screen, pos: Point)
    requires !Clicked(sc.create, pos) && !Clicked(sc.join, pos) && Clicked(sc.ready, pos)
    ensures var r1 := HandleEvent(sc, MouseDown(pos));
            && r1.Done? && r1.sentReady == Some(!sc.isReady)
            && var r2 := HandleEvent(r1.screen, MouseDown(pos));
               r2 == Done(sc, Some(sc.isReady))
  {
  }

  /** The states the screen can reach while it keeps running: nothing turns
      the address box on, and the ready button, inactive from the start, is
      only turned on after a network call that fails. */
  ghost predicate Reachable(sc: Screen) {
    !sc.inputActive && !sc.ready.active
  }

  /** The reachable states are closed under events and frames, so neither
      the ready toggle nor address editing ever happens. */
  lemma ReadyAndAddressUnreachable(sc: Screen, e: Event, ticks: int)
    requires Reachable(sc)
    ensures Reachable(InitialScreen())
    ensures HandleEvent(sc, e).Done? ==> Reachable(HandleEvent(sc, e).screen) && HandleEvent(sc, e).sentReady.None?
    ensures HandleEvent(sc, e).Done? ==> HandleEvent(sc, e).screen.ipInput == sc.ipInput
    ensures Reachable(UpdateScreen(sc, ticks))
  {
  }
}

=== FILE: matching.dfy ===
/** Match detection on the desktop board: every row is scanned for runs,
    then every column; the matched cells are the union, and a run of four or
    more leaves a special rune at its start cell, the column scan overriding
    the row scan where both start a long run at the same cell. */
module Matching {
  import opened Options
  import opened Gems
  import opened Runs
  import opened Gravity

  /** What the detection finds: the matched cells and the special rune due at
      each start cell of a long run. */
  datatype Matches = Matches(cells: set<Cell>, specials: map<Cell, SpecialType>)

  /** The kinds along row i. */
  function RowKinds(g: Grid, i: nat): (l: Line)
    requires IsBoard(g, GridSize) && i < GridSize
    ensures |l| == GridSize
  {
    Kinds(g[i])
  }

  /** The kinds down column j. */
  function ColKinds(g: Grid, j: nat): (l: Line)
    requires IsBoard(g, GridSize) && j < GridSize
    ensures |l| == GridSize
  {
    Kinds(Column(g, j))
  }

  /** Cell p starts a run of four or more. */
  predicate EarnsSpecial(l: Line, p: nat) {
    StartsRun(l, p) && RunEnd(l, p) - p >= 4
  }

  /** Cell (i, j) lies in a run of three or more along its row or its column. */
  predicate Matched(g: Grid, i: int, j: int)
    requires IsBoard(g, GridSize)
  {
    OnBoard(i, j) && (InLongRun(RowKinds(g, i), j) || InLongRun(ColKinds(g, j), i))
  }

  /** Cell (i, j) starts a run of four or more along its row or its column. */
  predicate Special(g: Grid, i: int, j: int)
    requires IsBoard(g, GridSize)
  {
    OnBoard(i, j) && (EarnsSpecial(RowKinds(g, i), j) || EarnsSpecial(ColKinds(g, j), i))
  }

  /** The special rune due at a special cell: the column run's if the column
      earns one there, else the row run's. */
  function SpecialDue(g: Grid, i: int, j: int): SpecialType
    requires IsBoard(g, GridSize) && Special(g, i, j)
  {
    if EarnsSpecial(ColKinds(g, j), i) then SpecialFor(RunEnd(ColKinds(g, j), i) - i)
    else SpecialFor(RunEnd(RowKinds(g, i), j) - j)
  }

  /** The cells where a long run starts, along a row or a column. */
  function SpecialCells(g: Grid): (cs: set<Cell>)
    requires IsBoard(g, GridSize)
    ensures forall c :: c in cs <==> Special(g, c.0, c.1)
  {
    set i: nat, j: nat | i < GridSize && j < GridSize && (j in ScanLine(RowKinds(g, i)).starts || i in ScanLine(ColKinds(g, j)).starts) :: (i, j)
  }

  /** The cells in a long run along a row or a column. */
  function MatchedCells(g: Grid): (cs: set<Cell>)
    requires IsBoard(g, GridSize)
    ensures forall c :: c in cs <==> Matched(g, c.0, c.1)
  {
    set i: nat, j: nat | i < GridSize && j < GridSize && (j in ScanLine(RowKinds(g, i)).cells || i in ScanLine(ColKinds(g, j)).cells) :: (i, j)
  }

  /** The special rune due at each special cell; the column scan runs second,
      so its entry replaces the row scan's. */
  function SpecialsMap(g: Grid): (sp: map<Cell, SpecialType>)
    requires IsBoard(g, GridSize)
    ensures forall c :: c in sp <==> Special(g, c.0, c.1)
    ensures forall c :: c in sp ==> sp[c] == SpecialDue(g, c.0, c.1) && sp[c] != NoSpecial
  {
    map c | c in SpecialCells(g) :: ScannedSpecial(g, c.0, c.1)
  }

  /** The entry the two scans leave at a special cell. */
  function ScannedSpecial(g: Grid, i: nat, j: nat): (sp: SpecialType)
    requires IsBoard(g, GridSize) && Special(g, i, j)
    ensures sp == SpecialDue(g, i, j) && sp != NoSpecial
  {
    if i in ScanLine(ColKinds(g, j)).starts then SpecialFor(RunLength(ColKinds(g, j), i))
    else SpecialFor(RunLength(RowKinds(g, i), j))
  }

  /** The detection pass: scan all rows, then all columns. */
  function FindMatches(g: Grid): (m: Matches)
    requires IsBoard(g, GridSize)
    ensures forall c :: c in m.cells <==> Matched(g, c.0, c.1)
    ensures forall c :: c in m.specials <==> Special(g, c.0, c.1)
    ensures forall c :: c in m.specials ==> m.specials[c] == SpecialDue(g, c.0, c.1) && m.specials[c] != NoSpecial
  {
    Matches(MatchedCells(g), SpecialsMap(g))
  }

  /** The rune the detection leaves at a special cell follows the length of
      the deciding run, the column's if the column earns a rune there and
      the row's otherwise: four gives an explosive rune, five a line rune,
      six or more a magic rune. */
  lemma SpecialKindByLength(g: Grid, i: nat, j: nat)
    requires IsBoard(g, GridSize) && Special(g, i, j)
    ensures var byCol := EarnsSpecial(ColKinds(g, j), i);
            var l := if byCol then ColKinds(g, j) else RowKinds(g, i);
            var p := if byCol then i else j;
            var n := RunEnd(l, p) - p;
            var sp := FindMatches(g).specials[(i, j)];
            n >= 4 && (sp == Explosive <==> n == 4) && (sp == Line <==> n == 5) && (sp == Magic <==> n >= 6)
  {
  }

  /** Every special cell is also a matched cell, and matched cells are
      occupied. */
  lemma SpecialsAreMatched(g: Grid)
    requires IsBoard(g, GridSize)
    ensures forall i, j :: Special(g, i, j) ==> Matched(g, i, j)
    ensures forall i, j :: Matched(g, i, j) ==> g[i][j].Some?
  {
    forall i, j | Matched(g, i, j) ensures g[i][j].Some? {
      if InLongRun(ColKinds(g, j), i) {
        assert Column(g, j)[i] == g[i][j];
      }
    }
  }

  /** A board without matches has no three cells of one kind in a row, in any
      row or column. */
  lemma NoMatchesNoTriples(g: Grid)
    requires IsBoard(g, GridSize)
    requires FindMatches(g).cells == {}
    ensures forall i, w: nat :: 0 <= i < GridSize ==> !Triple(RowKinds(g, i), w)
    ensures forall j, w: nat :: 0 <= j < GridSize ==> !Triple(ColKinds(g, j), w)
  {
    forall i, w: nat | 0 <= i < GridSize ensures !Triple(RowKinds(g, i), w) {
      if w < GridSize {
        assert (i, w) !in FindMatches(g).cells;
        WindowIffLongRun(RowKinds(g, i), w);
      }
    }
    forall j, w: nat | 0 <= j < GridSize ensures !Triple(ColKinds(g, j), w) {
      if w < GridSize {
        assert (w, j) !in FindMatches(g).cells;
        WindowIffLongRun(ColKinds(g, j), w);
      }
    }
  }
}

=== FILE: options.dfy ===
/** The optional value used throughout the model: Python's `None`-or-value
    and JavaScript's `null`-or-value. */
module Options {

  datatype Option<+T> = None | Some(value: T) {

    /** Returns the value held in Some, or the given default when None. */
    function GetOr(default: T): T {
      match this
      case Some(v) => v
      case None => default
    }
  }
}

=== FILE: platform.dfy ===
/** The decisions of the battle-platform screen: start-game gating, the
    room overlay's per-frame sync, scrolling and clicking the player list,
    the discovery pass's pruning, and the status text shown for a room.
    Drawing is not modelled. */
module Platform {
  import opened Options
  import opened Rooms
  import opened Widgets
  import Decimal
  import Session
  import Receive

  /** Height of one player row in the list. */
  const RowHeight: int := 45
  /** Pixels scrolled per wheel notch. */
  const ScrollStep: int := 20
  /** The player list's panel. */
  const LeftPanel: Rect := Rect(20, 50, 380, 500)
  /** A player silent for longer than this many seconds leaves the list. */
  const ListTimeout: real := 5.0

  // ---------------------------------------------------------------------
  // Start-game gating

  /** The start command is accepted with a room that has a guest, while
      both the local peer and its opponent are ready. */
  predicate CanStartGame(room: Option<Room>, isReady: bool, opponentReady: bool) {
    room.Some? && room.value.guest.Some? && isReady && opponentReady
  }

  /** The overlay's buttons. */
  datatype Overlay = Overlay(ready: Button, start: Button, leave: Button)

  const ReadyText: string := "准备"
  const CancelReadyText: string := "取消准备"

  /** The overlay's per-frame update while the local peer is in a room: the
      ready button offers to cancel once ready; the start button is enabled
      for the host of a room with a guest whose two flags are set, judged
      before this frame's sync; and with a guest present, the flag of the
      local peer's role (host if its address is the host's, guest
      otherwise) is overwritten with the local readiness, leaving the status
      alone. Without a current room nothing changes. */
  function OverlayUpdate(o: Overlay, s: Lobby, localIp: Ip): (r: (Overlay, Lobby))
    ensures Current(s).None? ==> r == (o, s)
    ensures Current(s).Some? ==>
      var room := Current(s).value;
      var (o', s') := r;
      && o'.ready == o.ready.(text := if s.isReady then CancelReadyText else ReadyText)
      && o'.leave == o.leave
      && o'.start == o.start.(active := o'.start.active)
      && (o'.start.active <==> room.guest.Some? && room.hostReady && room.guestReady && IsHost(room, localIp))
      && Current(s').Some?
      && (room.guest.None? ==> s' == s)
      && (room.guest.Some? ==>
            s' == SetCurrent(s, if IsHost(room, localIp) then room.(hostReady := s.isReady)
                                else room.(guestReady := s.isReady)))
  {
    match Current(s)
    case None => (o, s)
    case Some(room) =>
      var isHost := IsHost(room, localIp);
      var canStart := room.guest.Some? && room.hostReady && room.guestReady && isHost;
      var o' := o.(ready := o.ready.(text := if s.isReady then CancelReadyText else ReadyText),
                   start := o.start.(active := canStart));
      if room.guest.Some? then
        (o', SetCurrent(s, if isHost then room.(hostReady := s.isReady) else room.(guestReady := s.isReady)))
      else (o', s)
  }

  /** A second frame changes no room state: the sync is idempotent. The start
      button then reflects the synced flags, so on the host it is enabled
      exactly when a guest is present, the host is ready and the guest's
      flag is set. */
  lemma OverlaySettles(o: Overlay, s: Lobby, localIp: Ip)
    requires Valid(s, localIp) && Current(s).Some?
    ensures var (o1, s1) := OverlayUpdate(o, s, localIp);
            var (o2, s2) := OverlayUpdate(o1, s1, localIp);
            && s2 == s1
            && (IsHost(Current(s).value, localIp) ==>
                  (o2.start.active <==> Current(s).value.guest.Some? && s.isReady && Current(s).value.guestReady))
  {
  }

  /** On the host (not also listed as the guest), once the room merge has
      set the opponent's readiness from the room's guest flag and the local
      readiness agrees with the host flag, the start command is accepted
      exactly when the overlay enables the start button. */
  lemma HostGatesAgree(o: Overlay, s: Lobby, localIp: Ip)
    requires Current(s).Some? && IsHost(Current(s).value, localIp) && !IsGuest(Current(s).value, localIp)
    requires s.isReady == Current(s).value.hostReady
    requires s.opponentReady == Receive.OpponentReadyIn(Current(s).value, localIp)
    ensures CanStartGame(Current(s), s.isReady, s.opponentReady) <==> OverlayUpdate(o, s, localIp).0.start.active
  {
  }

  // ---------------------------------------------------------------------
  // The player list

  /** The largest scroll offset: the list's overflow past the panel. */
  function MaxScroll(n: nat): (m: nat)
    ensures m == 0 <==> n * RowHeight <= LeftPanel.height
    ensures m > 0 ==> m + LeftPanel.height == n * RowHeight
  {
    if n * RowHeight - LeftPanel.height > 0 then n * RowHeight - LeftPanel.height else 0
  }

  /** A wheel turn of `notches` over the list (positive scrolls up) moves the
      offset by 20 pixels a notch, clamped to the list; elsewhere it is
      ignored. */
  function Wheel(offset: int, notches: int, n: nat, mouse: Point): (o: int)
    ensures !Contains(LeftPanel, mouse) ==> o == offset
    ensures Contains(LeftPanel, mouse) ==> 0 <= o <= MaxScroll(n)
    ensures Contains(LeftPanel, mouse) && 0 <= offset - notches * ScrollStep <= MaxScroll(n) ==>
      o == offset - notches * ScrollStep
  {
    if Contains(LeftPanel, mouse) then
      var wanted := offset - notches * ScrollStep;
      var upper := MaxScroll(n);
      if wanted < upper then (if wanted > 0 then wanted else 0) else upper
    else offset
  }

  /** The clamp is the nearest offset in range: a turn past either end
      stops at that end, and turning further never moves the list back. */
  lemma WheelClamps(offset: int, a: int, b: int, n: nat, mouse: Point)
    requires Contains(LeftPanel, mouse) && a <= b
    ensures offset - a * ScrollStep <= 0 ==> Wheel(offset, a, n, mouse) == 0
    ensures offset - a * ScrollStep >= MaxScroll(n) ==> Wheel(offset, a, n, mouse) == MaxScroll(n)
    ensures Wheel(offset, b, n, mouse) <= Wheel(offset, a, n, mouse)
  {
  }

  /** A click on the list selects the player whose row is under the mouse,
      counting scrolled-away rows; a click below the last row, or outside
      the panel, keeps the selection. */
  function ListClick(players: seq<Player>, selected: Option<Player>, pos: Point, offset: int): (r: Option<Player>)
  {
    if Contains(LeftPanel, pos) then
      var index := (pos.y - LeftPanel.top + offset) / RowHeight;
      if 0 <= index < |players| then Some(players[index]) else selected
    else selected
  }

  /** Row k is drawn from 45k pixels below the list top, shifted up by the
      scroll offset; a click anywhere within that band inside the panel
      selects player k, and a click below the last row keeps the
      selection. */
  lemma ListClickHitsRow(players: seq<Player>, selected: Option<Player>, pos: Point, offset: int, k: nat)
    requires Contains(LeftPanel, pos) && k < |players|
    ensures k * RowHeight <= pos.y - LeftPanel.top + offset < (k + 1) * RowHeight ==>
      ListClick(players, selected, pos, offset) == Some(players[k])
    ensures pos.y - LeftPanel.top + offset >= |players| * RowHeight ==>
      ListClick(players, selected, pos, offset) == selected
  {
    var d := pos.y - LeftPanel.top + offset;
    if k * RowHeight <= d < (k + 1) * RowHeight {
      assert d / RowHeight == k;
    }
    if d >= |players| * RowHeight {
      assert d / RowHeight >= |players|;
    }
  }

  /** The discovery pass: drops, in place, every listed player not heard
      from for more than five seconds. */
  function Prune(players: seq<Player>, now: real): (r: seq<Player>)
    ensures forall p :: p in r <==> p in players && now - p.lastSeen <= ListTimeout
    ensures |r| <= |players|
    ensures UniqueIps(players) ==> UniqueIps(r)
    ensures Sublist(r, players)
  {
    if players == [] then []
    else
      var rest := Prune(players[1..], now);
      if now - players[0].lastSeen > ListTimeout then rest
      else
        Session.KeepFreshHead(players, rest);
        assert ([players[0]] + rest)[1..] == rest;
        [players[0]] + rest
  }

  /** The screen's list is stricter than the network manager's sweep: a
      player the list keeps is kept by the sweep as well. */
  lemma PruneWithinSweep(players: seq<Player>, now: real)
    ensures forall p :: p in Prune(players, now) ==> p in Session.KeepFresh(players, now)
  {
  }

  // ---------------------------------------------------------------------
  // The room status text

  const AwaitingText: string := "等待加入"
  const AllReadyText: string := "全部准备"

  /** How many of the two ready flags are set. */
  function ReadyCount(room: Room): (k: nat)
    ensures k <= 2
    ensures k == 2 <==> room.hostReady && room.guestReady
    ensures k == 0 <==> !room.hostReady && !room.guestReady
  {
    (if room.hostReady then 1 else 0) + (if room.guestReady then 1 else 0)
  }

  /** The progress text for a preparing room: the count out of two. */
  function ProgressText(k: nat): string {
    PreparingLabel + "(" + Decimal.NatToDecimal(k) + "/2)"
  }

  /** The status text of a listed room: a waiting room invites joining, a
      preparing room shows how many players are ready (or that all are), any
      other status is shown as its own text. */
  function StatusText(room: Room): (t: string)
  {
    if room.status == Waiting then AwaitingText
    else if room.status == Preparing then
      if room.hostReady && room.guestReady then AllReadyText
      else ProgressText(ReadyCount(room))
    else Label(room.status)
  }

  /** A preparing room's text tells the number of ready players exactly:
      two preparing rooms show the same text iff the same number of their
      players are ready, and the text says all are ready iff both are. */
  lemma StatusTextCountsReady(r1: Room, r2: Room)
    requires r1.status == Preparing && r2.status == Preparing
    ensures StatusText(r1) == StatusText(r2) <==> ReadyCount(r1) == ReadyCount(r2)
    ensures StatusText(r1) == AllReadyText <==> r1.hostReady && r1.guestReady
  {
    var k1, k2 := ReadyCount(r1), ReadyCount(r2);
    if k1 < 2 && k2 < 2 {
      var d1, d2 := Decimal.NatToDecimal(k1), Decimal.NatToDecimal(k2);
      if ProgressText(k1) == ProgressText(k2) {
        assert ProgressText(k1)[4] == d1[0];
        assert ProgressText(k2)[4] == d2[0];
        Decimal.NatToDecimalInjective(k1, k2);
      }
    }
    if k1 < 2 {
      assert ProgressText(k1)[0] != AllReadyText[0];
    }
    if k2 < 2 {
      assert ProgressText(k2)[0] != AllReadyText[0];
    }
  }

  /** A waiting room and a preparing room never show the same text, and
      every status other than those two is shown verbatim. */
  lemma StatusTextByStatus(room: Room)
    ensures room.status == Waiting ==> StatusText(room) == AwaitingText
    ensures room.status == Preparing ==> StatusText(room) != AwaitingText
    ensures room.status != Waiting && room.status != Preparing ==> StatusText(room) == Label(room.status)
  {
    if room.status == Preparing && !(room.hostReady && room.guestReady) {
      assert StatusText(room)[0] != AwaitingText[0];
    }
  }
}

=== FILE: platformevents.dfy ===
/** The battle-platform screen's event handling and its once-a-second
    refresh. While the local peer is in a room every event goes to the room
    overlay and the player list is frozen; otherwise a click lands on the
    player list, on a room's join button or on one of the screen's two
    buttons, and the wheel scrolls the list. */
module PlatformEvents {
  import opened Options
  import opened Rooms
  import opened Widgets
  import Session
  import opened Platform

  /** The room list's panel. */
  const RightPanel: Rect := Rect(420, 50, 360, 500)
  /** Seconds between two refreshes of the screen's copies. */
  const UpdateInterval: real := 1.0
  /** Each listed room takes a 60-pixel row, the first 60 pixels below the
      panel top; its join button sits 300 pixels from the panel's left. */
  const RoomRowHeight: int := 60
  const JoinWidth: int := 50
  const JoinHeight: int := 25

  /** The screen's own state: its copy of the player list, the selection,
      the scroll offset, the room overlay, its two buttons, the room it
      believes it is in, and the time of its last refresh. */
  datatype Screen = Screen(listed: seq<Player>, selected: Option<Player>, offset: int, overlay: Overlay,
                           refresh: Button, createRoom: Button, room: Option<Room>, lastUpdate: real)

  /** The screen as constructed: nothing listed or selected, no room, never
      refreshed; the refresh button sits in the list panel's bottom-left
      corner and the create-room button is centred in the room panel's
      lower part, both 100 by 32 and active. */
  function NewScreen(overlay: Overlay): (sc: Screen)
    ensures sc.listed == [] && sc.selected.None? && sc.offset == 0 && sc.room.None? && sc.lastUpdate == 0.0
    ensures sc.refresh.active && sc.createRoom.active && sc.overlay == overlay
    ensures forall p :: Contains(sc.refresh.rect, p) ==> (Contains(LeftPanel, p) <==> p.y < LeftPanel.top + LeftPanel.height)
    ensures forall p :: Contains(sc.createRoom.rect, p) ==> Contains(RightPanel, p) && !Contains(LeftPanel, p)
  {
    var buttonWidth, buttonHeight, spacing := 100, 32, 10;
    var startX := RightPanel.left + (RightPanel.width - (buttonWidth * 2 + spacing)) / 2;
    var bottomRowY := RightPanel.top + RightPanel.height - buttonHeight - 10;
    var firstRowY := bottomRowY - buttonHeight - 10;
    Screen([], None, 0, overlay,
           NewButton("刷新列表", 30, 520, buttonWidth, buttonHeight, true),
           NewButton("创建房间", startX, firstRowY, buttonWidth, buttonHeight, true),
           None, 0.0)
  }

  // ---------------------------------------------------------------------
  // The refresh

  /** Index of the first player with the given address. */
  function IndexOfIp(l: seq<Player>, ip: Option<Ip>): (r: Option<nat>)
    ensures r.Some? ==> r.value < |l| && l[r.value].ip == ip
    ensures r.None? ==> forall k :: 0 <= k < |l| ==> l[k].ip != ip
  {
    if l == [] then None
    else if l[0].ip == ip then Some(0)
    else match IndexOfIp(l[1..], ip)
      case None => None
      case Some(k) => Some(k + 1)
  }

  /** The dictionary the refresh builds, one entry per address, as the list
      of its values in insertion order: a later player with an address
      already present replaces the earlier one in its place. */
  function ByAddress(players: seq<Player>): (r: seq<Player>)
    ensures forall p :: p in r ==> p in players
    ensures UniqueIps(r)
    decreases |players|
  {
    if players == [] then []
    else
      var acc := ByAddress(players[..|players| - 1]);
      var p := players[|players| - 1];
      assert forall q :: q in acc ==> q in players by {
        forall q | q in acc ensures q in players {
          assert q in players[..|players| - 1];
        }
      }
      match IndexOfIp(acc, p.ip)
      case Some(k) => acc[k := p]
      case None => acc + [p]
  }

  /** With distinct addresses the dictionary holds every player, in order. */
  lemma {:induction false} ByAddressKeepsDistinct(players: seq<Player>)
    requires UniqueIps(players)
    ensures ByAddress(players) == players
    decreases |players|
  {
    if players != [] {
      var init := players[..|players| - 1];
      assert UniqueIps(init);
      ByAddressKeepsDistinct(init);
      assert players == init + [players[|players| - 1]];
    }
  }

  /** `update`: at most once a second the screen re-reads the network
      manager's players, keyed by address, and, in a room, runs the
      overlay's frame. */
  function ScreenUpdate(sc: Screen, s: Lobby, env: Env): (r: (Screen, Lobby))
    ensures env.now - sc.lastUpdate < UpdateInterval ==> r == (sc, s)
    ensures env.now - sc.lastUpdate >= UpdateInterval ==>
      && r.0.lastUpdate == env.now
      && r.0.listed == ByAddress(s.players)
      && r.0 == sc.(listed := r.0.listed, lastUpdate := r.0.lastUpdate, overlay := r.0.overlay)
      && (Current(s).Some? ==> (r.0.overlay, r.1) == OverlayUpdate(sc.overlay, s, env.localIp))
      && (Current(s).None? ==> r.0.overlay == sc.overlay && r.1 == s)
    ensures r.1.players == s.players && r.1.rooms.Keys == s.rooms.Keys
    ensures Valid(s, env.localIp) ==> Valid(r.1, env.localIp)
  {
    if env.now - sc.lastUpdate >= UpdateInterval then
      var sc' := sc.(lastUpdate := env.now, listed := ByAddress(s.players));
      if Current(s).Some? then
        var (o, s') := OverlayUpdate(sc.overlay, s, env.localIp);
        OverlayUpdateKeepsRooms(sc.overlay, s, env.localIp);
        OverlayUpdateValid(sc.overlay, s, env.localIp);
        (sc'.(overlay := o), s')
      else (sc', s)
    else (sc, s)
  }

  /** The overlay's frame keeps the lobby invariant. */
  lemma OverlayUpdateValid(o: Overlay, s: Lobby, localIp: Ip)
    ensures Valid(s, localIp) ==> Valid(OverlayUpdate(o, s, localIp).1, localIp)
  {
  }

  /** The overlay's frame touches only the current room's flags: the
      players and the set of rooms stay as they are. */
  lemma OverlayUpdateKeepsRooms(o: Overlay, s: Lobby, localIp: Ip)
    ensures OverlayUpdate(o, s, localIp).1.players == s.players
    ensures OverlayUpdate(o, s, localIp).1.rooms.Keys == s.rooms.Keys
  {
    if Current(s).Some? {
      assert s.currentRoom.value in s.rooms;
    }
  }

  /** On a lobby that keeps its invariant the refreshed list is the network
      manager's player list itself. */
  lemma UpdateListsPlayers(sc: Screen, s: Lobby, env: Env)
    requires Valid(s, env.localIp) && env.now - sc.lastUpdate >= UpdateInterval
    ensures ScreenUpdate(sc, s, env).0.listed == s.players
  {
    ByAddressKeepsDistinct(s.players);
  }

  // ---------------------------------------------------------------------
  // Joining a listed room

  /** The join button of the t-th listed room. */
  function JoinButton(t: nat): Rect {
    Rect(RightPanel.left + 300, RightPanel.top + RoomRowHeight + RoomRowHeight * t, JoinWidth, JoinHeight)
  }

  /** The click lands on the join button of the t-th listed room, and that
      room shows as waiting; only waiting rooms react. */
  predicate JoinHit(room: Room, t: nat, pos: Point) {
    Label(room.status) == WaitingLabel && Contains(JoinButton(t), pos)
  }

  /** The walk over the listed rooms from the t-th on: the first waiting
      room whose join button is under the click. */
  function JoinTarget(shown: seq<Room>, pos: Point, t: nat): (r: Option<nat>)
    requires t <= |shown|
    ensures r.Some? ==> t <= r.value < |shown| && JoinHit(shown[r.value], r.value, pos)
    ensures r.Some? ==> forall u :: t <= u < r.value ==> !JoinHit(shown[u], u, pos)
    ensures r.None? ==> forall u :: t <= u < |shown| ==> !JoinHit(shown[u], u, pos)
    decreases |shown| - t
  {
    if t == |shown| then None
    else if JoinHit(shown[t], t, pos) then Some(t)
    else JoinTarget(shown, pos, t + 1)
  }

  /** Join buttons are 25 pixels high in 60-pixel rows, so no point lies on
      two of them. */
  lemma JoinButtonsDisjoint(t: nat, u: nat, pos: Point)
    requires Contains(JoinButton(t), pos) && Contains(JoinButton(u), pos)
    ensures t == u
  {
  }

  /** A click on a waiting room's join button picks exactly that room. */
  lemma JoinTargetIsHitRoom(shown: seq<Room>, pos: Point, t: nat)
    requires t < |shown| && JoinHit(shown[t], t, pos)
    ensures JoinTarget(shown, pos, 0) == Some(t)
  {
    var r := JoinTarget(shown, pos, 0);
    JoinButtonsDisjoint(r.value, t, pos);
  }

  /** The listed rooms are the network manager's own rooms: a click on a
      waiting room's join button, when that room's host has an address,
      joins exactly that room. */
  lemma ListedJoinHitJoins(sc: Screen, s: Lobby, env: Env, shown: seq<Room>, pos: Point, t: nat)
    requires Valid(s, env.localIp)
    requires forall r :: r in shown ==> r.roomId in s.rooms && s.rooms[r.roomId] == r
    requires t < |shown| && JoinHit(shown[t], t, pos) && shown[t].host.ip.Some?
    requires !Contains(LeftPanel, pos) && Contains(RightPanel, pos)
    ensures JoinListed(s, env, shown[t]).value
    ensures var (sc', rep) := PanelClick(sc, s, env, shown, pos);
            sc'.room == Some(shown[t]) && Current(rep.lobby) == Some(shown[t]) && !rep.lobby.isReady
  {
    JoinTargetIsHitRoom(shown, pos, t);
    assert shown[t] in shown;
    LabelRoundTrip(shown[t].status);
  }

  /** `join_room` for a listed room. When the room's host has no address the
      send fails after the readiness reset, and the caught error makes the
      join report failure. */
  function JoinListed(s: Lobby, env: Env, room: Room): (r: Reply<bool>)
    ensures r.value <==> room.host.ip.Some? && room.roomId in s.rooms && s.rooms[room.roomId].status == Waiting
    ensures r.value ==> r.lobby == s.(currentRoom := Some(room.roomId), isReady := false, opponentReady := false)
    ensures r.value ==> r.sent == [Packet(Direct(room.host.ip.value), JoinRequest(room.roomId, env.hostName, env.localIp))]
    ensures !r.value ==> r.sent == []
    ensures !r.value && room.roomId in s.rooms && s.rooms[room.roomId].status == Waiting ==>
      r.lobby == s.(isReady := false, opponentReady := false)
    ensures !(room.roomId in s.rooms && s.rooms[room.roomId].status == Waiting) ==> r.lobby == s && !r.value
    ensures Valid(s, env.localIp) ==> Valid(r.lobby, env.localIp)
  {
    if room.host.ip.Some? then Session.JoinRoom(s, env, room.roomId, room.host.ip.value)
    else if room.roomId in s.rooms && s.rooms[room.roomId].status == Waiting then
      Reply(s.(isReady := false, opponentReady := false), [], false)
    else Reply(s, [], false)
  }

  // ---------------------------------------------------------------------
  // Events

  /** The events the screen reacts to: a mouse button press, a wheel turn
      (with the mouse position at that moment), and anything else. */
  datatype Event = MouseDown(pos: Point) | MouseWheel(notches: int, mouse: Point) | OtherEvent

  /** What `handle_event` returns: nothing, or the request to start the game. */
  datatype Outcome = Continue | BeginGame

  /** The overlay's ready button: `send_ready_state` with the flipped
      readiness, and the button relabelled to match. */
  function ReadyClick(o: Overlay, s: Lobby, env: Env, pos: Point): (r: (Overlay, Reply<bool>))
    requires Current(s).Some?
    ensures !Clicked(o.ready, pos) ==> r == (o, Reply(s, [], true))
    ensures Clicked(o.ready, pos) ==>
      && r.0 == o.(ready := o.ready.(text := if !s.isReady then CancelReadyText else ReadyText))
      && r.1 == Session.SendReadyState(s, env, !s.isReady)
    ensures r.1.lobby.currentRoom == s.currentRoom && Current(r.1.lobby).Some?
    ensures Valid(s, env.localIp) ==> Valid(r.1.lobby, env.localIp)
  {
    if Clicked(o.ready, pos) then
      (o.(ready := o.ready.(text := if !s.isReady then CancelReadyText else ReadyText)),
       Session.SendReadyState(s, env, !s.isReady))
    else (o, Reply(s, [], true))
  }

  /** Marking the current room as playing keeps the lobby invariant. */
  lemma PlayingKeepsValid(s: Lobby, localIp: Ip)
    requires Current(s).Some?
    ensures Valid(s, localIp) ==> Valid(SetCurrent(s, Current(s).value.(status := Playing)), localIp)
  {
  }

  /** The room overlay's click handler. The buttons are tried in the order
      ready, start, leave. The ready button flips the local readiness
      through `send_ready_state`, relabels itself and lets the loop go on;
      the start button, when enabled, broadcasts the start message, marks
      the room as playing and ends with true; the leave button broadcasts a
      leave message and ends with true. Otherwise the handler returns
      false. */
  function OverlayClick(o: Overlay, s: Lobby, env: Env, pos: Point): (r: (Overlay, Reply<bool>))
    requires Current(s).Some?
    ensures r.1.value <==> Clicked(o.start, pos) || Clicked(o.leave, pos)
    ensures r.1.lobby.currentRoom == s.currentRoom && Current(r.1.lobby).Some?
    ensures r.0 == o.(ready := r.0.ready) && r.0.ready == o.ready.(text := r.0.ready.text)
    ensures !Clicked(o.ready, pos) && !Clicked(o.start, pos) && !Clicked(o.leave, pos) ==> r == (o, Reply(s, [], false))
    ensures Clicked(o.ready, pos) ==>
      r.1.lobby.isReady == !s.isReady && r.0.ready.text == (if !s.isReady then CancelReadyText else ReadyText)
    ensures !Clicked(o.ready, pos) ==> r.0 == o && r.1.lobby.isReady == s.isReady
    ensures Clicked(o.start, pos) ==>
      Current(r.1.lobby).value.status == Playing && |r.1.sent| > 0 &&
      r.1.sent[|r.1.sent| - 1] == Packet(Broadcast, StartGame(Current(s).value.roomId))
    ensures !Clicked(o.start, pos) && Clicked(o.leave, pos) ==>
      |r.1.sent| > 0 && r.1.sent[|r.1.sent| - 1] == Packet(Broadcast, LeaveRoom(Current(s).value.roomId, env.localIp))
    ensures var b := if Clicked(o.ready, pos) then Session.SendReadyState(s, env, !s.isReady) else Reply(s, [], true);
            && Current(b.lobby).Some?
            && (!Clicked(o.start, pos) ==> r.1.lobby == b.lobby)
            && (Clicked(o.start, pos) ==> r.1.lobby == SetCurrent(b.lobby, Current(b.lobby).value.(status := Playing)))
            && |r.1.sent| == |b.sent| + (if r.1.value then 1 else 0) && r.1.sent[..|b.sent|] == b.sent
    ensures Valid(s, env.localIp) ==> Valid(r.1.lobby, env.localIp)
  {
    var (o1, rep) := ReadyClick(o, s, env, pos);
    var room := Current(rep.lobby).value;
    PlayingKeepsValid(rep.lobby, env.localIp);
    if Clicked(o1.start, pos) then
      (o1, Reply(SetCurrent(rep.lobby, room.(status := Playing)),
                 rep.sent + [Packet(Broadcast, StartGame(room.roomId))], true))
    else if Clicked(o1.leave, pos) then
      (o1, Reply(rep.lobby, rep.sent + [Packet(Broadcast, LeaveRoom(room.roomId, env.localIp))], true))
    else (o1, Reply(rep.lobby, rep.sent, false))
  }

  /** The first part of a click outside a room: a click on the player list
      selects, and a click on a waiting room's join button joins it. */
  function PanelClick(sc: Screen, s: Lobby, env: Env, shown: seq<Room>, pos: Point): (r: (Screen, Reply<()>))
    ensures r.0 == sc.(selected := r.0.selected, room := r.0.room)
    ensures Contains(LeftPanel, pos) ==> r.0.selected == ListClick(sc.listed, sc.selected, pos, sc.offset)
    ensures !Contains(LeftPanel, pos) ==> r.0.selected == sc.selected
    ensures !Contains(LeftPanel, pos) && Contains(RightPanel, pos) && JoinTarget(shown, pos, 0).Some? ==>
      var room := shown[JoinTarget(shown, pos, 0).value];
      r.1.lobby == JoinListed(s, env, room).lobby && r.1.sent == JoinListed(s, env, room).sent &&
      r.0.room == (if JoinListed(s, env, room).value then Some(room) else sc.room)
    ensures Contains(LeftPanel, pos) || !Contains(RightPanel, pos) || JoinTarget(shown, pos, 0).None? ==>
      r.1 == Reply(s, [], ()) && r.0.room == sc.room
    ensures r.1.lobby.players == s.players && r.1.lobby.rooms == s.rooms
    ensures Valid(s, env.localIp) ==> Valid(r.1.lobby, env.localIp)
  {
    if Contains(LeftPanel, pos) then
      (sc.(selected := ListClick(sc.listed, sc.selected, pos, sc.offset)), Reply(s, [], ()))
    else if Contains(RightPanel, pos) then
      match JoinTarget(shown, pos, 0)
      case None => (sc, Reply(s, [], ()))
      case Some(t) =>
        var j := JoinListed(s, env, shown[t]);
        (if j.value then sc.(room := Some(shown[t])) else sc, Reply(j.lobby, j.sent, ()))
    else (sc, Reply(s, [], ()))
  }

  /** The refresh button: announce this peer, then refresh the screen as
      the frame does. The packets returned are the ones this step adds. */
  function RefreshClick(sc: Screen, s: Lobby, env: Env, pos: Point): (r: (Screen, Reply<()>))
    ensures !Clicked(sc.refresh, pos) ==> r == (sc, Reply(s, [], ()))
    ensures Clicked(sc.refresh, pos) ==> r.1.sent == [Packet(Broadcast, Presence(env.hostName, env.localIp))]
    ensures r.0 == sc.(listed := r.0.listed, lastUpdate := r.0.lastUpdate, overlay := r.0.overlay)
    ensures Clicked(sc.refresh, pos) && env.now - sc.lastUpdate >= UpdateInterval ==>
      r.0.lastUpdate == env.now && r.0.listed == ByAddress(s.players)
    ensures !(Clicked(sc.refresh, pos) && env.now - sc.lastUpdate >= UpdateInterval) ==>
      r.0.lastUpdate == sc.lastUpdate && r.0.listed == sc.listed
    ensures r.1.lobby.players == s.players && r.1.lobby.rooms.Keys == s.rooms.Keys
    ensures Valid(s, env.localIp) ==> Valid(r.1.lobby, env.localIp)
  {
    if Clicked(sc.refresh, pos) then
      var (u, l) := ScreenUpdate(sc, s, env);
      (u, Reply(l, [Packet(Broadcast, Presence(env.hostName, env.localIp))], ()))
    else (sc, Reply(s, [], ()))
  }

  /** The create-room button: `create_room`, whose room becomes the
      screen's room. */
  function CreateClick(sc: Screen, s: Lobby, env: Env, pos: Point): (r: (Screen, Reply<()>))
    ensures !Clicked(sc.createRoom, pos) ==> r == (sc, Reply(s, [], ()))
    ensures Clicked(sc.createRoom, pos) ==>
      var c := Session.CreateRoom(s, env);
      r.0 == sc.(room := Some(c.value)) && r.1.lobby == c.lobby && r.1.sent == c.sent
    ensures r.1.lobby.players == s.players
    ensures r.1.lobby.rooms.Keys == s.rooms.Keys + (if Clicked(sc.createRoom, pos) then {RoomIdAt(env.now)} else {})
    ensures Valid(s, env.localIp) ==> Valid(r.1.lobby, env.localIp)
  {
    if Clicked(sc.createRoom, pos) then
      var c := Session.CreateRoom(s, env);
      (sc.(room := Some(c.value)), Reply(c.lobby, c.sent, ()))
    else (sc, Reply(s, [], ()))
  }

  /** The room `create_room` makes depends on the clock and this host only. */
  lemma CreatedRoomIgnoresLobby(s: Lobby, t: Lobby, env: Env)
    ensures Session.CreateRoom(s, env).value == Session.CreateRoom(t, env).value
  {
  }

  /** The screen's two buttons, refresh first, then create-room. */
  function ButtonsClick(sc: Screen, s: Lobby, env: Env, pos: Point): (r: (Screen, Reply<()>))
    ensures r.0 == sc.(listed := r.0.listed, lastUpdate := r.0.lastUpdate, overlay := r.0.overlay, room := r.0.room)
    ensures !Clicked(sc.refresh, pos) && !Clicked(sc.createRoom, pos) ==> r == (sc, Reply(s, [], ()))
    ensures Clicked(sc.refresh, pos) ==> Packet(Broadcast, Presence(env.hostName, env.localIp)) in r.1.sent
    ensures Clicked(sc.refresh, pos) && !Clicked(sc.createRoom, pos) ==>
      r.1.sent == [Packet(Broadcast, Presence(env.hostName, env.localIp))]
    ensures Clicked(sc.refresh, pos) && env.now - sc.lastUpdate >= UpdateInterval ==>
      r.0.lastUpdate == env.now && r.0.listed == ByAddress(s.players)
    ensures !(Clicked(sc.refresh, pos) && env.now - sc.lastUpdate >= UpdateInterval) ==>
      r.0.lastUpdate == sc.lastUpdate && r.0.listed == sc.listed
    ensures !Clicked(sc.createRoom, pos) ==> r.0.room == sc.room
    ensures Clicked(sc.createRoom, pos) ==>
      var c := Session.CreateRoom(s, env);
      && r.0.room == Some(c.value) && Current(r.1.lobby) == r.0.room
      && |r.1.sent| > 0 && r.1.sent[|r.1.sent| - 1] == c.sent[0]
    ensures Clicked(sc.createRoom, pos) && !Clicked(sc.refresh, pos) ==>
      r.1.lobby == Session.CreateRoom(s, env).lobby && r.1.sent == Session.CreateRoom(s, env).sent
    ensures r.1.lobby.players == s.players
    ensures r.1.lobby.rooms.Keys == s.rooms.Keys + (if Clicked(sc.createRoom, pos) then {RoomIdAt(env.now)} else {})
    ensures Valid(s, env.localIp) ==> Valid(r.1.lobby, env.localIp)
  {
    var (sc1, rep1) := RefreshClick(sc, s, env, pos);
    var (sc2, rep2) := CreateClick(sc1, rep1.lobby, env, pos);
    CreatedRoomIgnoresLobby(rep1.lobby, s, env);
    (sc2, Reply(rep2.lobby, rep1.sent + rep2.sent, ()))
  }

  /** The screen's click outside a room: the player list or a room's join
      button, then the refresh and create-room buttons. Refresh announces
      this peer and refreshes the screen; create-room creates a room, and
      the error raised right after it, on enabling a button the screen does
      not have, is caught. */
  function LobbyClick(sc: Screen, s: Lobby, env: Env, shown: seq<Room>, pos: Point): (r: (Screen, Reply<Outcome>))
    ensures r.1.value == Continue
    ensures Contains(LeftPanel, pos) ==> r.0.selected == ListClick(sc.listed, sc.selected, pos, sc.offset)
    ensures !Contains(LeftPanel, pos) ==> r.0.selected == sc.selected
    ensures r.0.offset == sc.offset
    ensures !Contains(LeftPanel, pos) && Contains(RightPanel, pos) && JoinTarget(shown, pos, 0).Some? &&
            !Clicked(sc.refresh, pos) && !Clicked(sc.createRoom, pos) ==>
      var room := shown[JoinTarget(shown, pos, 0).value];
      r.1.lobby == JoinListed(s, env, room).lobby && r.1.sent == JoinListed(s, env, room).sent &&
      r.0.room == (if JoinListed(s, env, room).value then Some(room) else sc.room)
    ensures Clicked(sc.createRoom, pos) ==>
      var c := Session.CreateRoom(s, env);
      && r.0.room == Some(c.value) && Current(r.1.lobby) == r.0.room
      && |r.1.sent| > 0 && r.1.sent[|r.1.sent| - 1] == c.sent[0]
    ensures Clicked(sc.createRoom, pos) && !Clicked(sc.refresh, pos) ==>
      var p := PanelClick(sc, s, env, shown, pos).1;
      r.1.lobby == Session.CreateRoom(p.lobby, env).lobby && r.1.sent == p.sent + Session.CreateRoom(p.lobby, env).sent
    ensures r.1.lobby.players == s.players
    ensures r.1.lobby.rooms.Keys == s.rooms.Keys + (if Clicked(sc.createRoom, pos) then {RoomIdAt(env.now)} else {})
    ensures !Clicked(sc.refresh, pos) && !Clicked(sc.createRoom, pos) && (Contains(LeftPanel, pos) || !Contains(RightPanel, pos)) ==>
      r.1.lobby == s && r.1.sent == []
    ensures Clicked(sc.refresh, pos) ==> Packet(Broadcast, Presence(env.hostName, env.localIp)) in r.1.sent
    ensures Clicked(sc.refresh, pos) && !Clicked(sc.createRoom, pos) ==>
      |r.1.sent| > 0 && r.1.sent[|r.1.sent| - 1] == Packet(Broadcast, Presence(env.hostName, env.localIp))
    ensures Clicked(sc.refresh, pos) && env.now - sc.lastUpdate >= UpdateInterval ==>
      r.0.lastUpdate == env.now && r.0.listed == ByAddress(s.players)
    ensures !(Clicked(sc.refresh, pos) && env.now - sc.lastUpdate >= UpdateInterval) ==>
      r.0.lastUpdate == sc.lastUpdate && r.0.listed == sc.listed
    ensures Valid(s, env.localIp) ==> Valid(r.1.lobby, env.localIp)
  {
    var p := PanelClick(sc, s, env, shown, pos);
    var b := ButtonsClick(p.0, p.1.lobby, env, pos);
    CreatedRoomIgnoresLobby(p.1.lobby, s, env);
    (b.0, Reply(b.1.lobby, p.1.sent + b.1.sent, Continue))
  }

  /** A click on the refresh button outside a room announces this peer and,
      once a second has passed since the last refresh, lists exactly the
      players the network manager knows, in its order. */
  lemma RefreshListsPlayers(sc: Screen, s: Lobby, env: Env, shown: seq<Room>, pos: Point)
    requires Valid(s, env.localIp) && Current(s).None?
    requires Clicked(sc.refresh, pos) && env.now - sc.lastUpdate >= UpdateInterval
    ensures var (sc', rep) := HandleEvent(sc, s, env, shown, MouseDown(pos));
            sc'.listed == s.players && sc'.lastUpdate == env.now &&
            Packet(Broadcast, Presence(env.hostName, env.localIp)) in rep.sent
  {
    ByAddressKeepsDistinct(s.players);
  }

  /** `handle_event`. In a room every event goes to the overlay; when the
      overlay handles a click, the game starts if the room is now playing,
      and otherwise the local peer leaves the room. Outside a room a click
      goes to the lobby and a wheel turn scrolls the list. */
  function HandleEvent(sc: Screen, s: Lobby, env: Env, shown: seq<Room>, ev: Event): (r: (Screen, Reply<Outcome>))
    ensures Current(s).Some? ==>
      r.0.listed == sc.listed && r.0.selected == sc.selected && r.0.offset == sc.offset && r.0.room == sc.room
    ensures Current(s).Some? && !ev.MouseDown? ==> r == (sc, Reply(s, [], Continue))
    ensures Current(s).Some? && ev.MouseDown? && Clicked(sc.overlay.start, ev.pos) ==> r.1.value == BeginGame
    ensures r.1.value == BeginGame ==>
      Current(s).Some? && ev.MouseDown? && Current(r.1.lobby).Some? && Current(r.1.lobby).value.status == Playing
    ensures Current(s).Some? && ev.MouseDown? && !Clicked(sc.overlay.start, ev.pos) && Clicked(sc.overlay.leave, ev.pos) &&
            r.1.value == Continue ==>
      r.1.lobby.currentRoom.None?
    ensures Current(s).Some? && ev.MouseDown? ==>
      var (o, rep) := OverlayClick(sc.overlay, s, env, ev.pos);
      && r.0.overlay == o && r.1.sent == rep.sent
      && r.1.lobby == (if rep.value && Current(rep.lobby).value.status != Playing then rep.lobby.(currentRoom := None) else rep.lobby)
    ensures Current(s).None? ==> r.1.value == Continue
    ensures Current(s).None? && ev.MouseWheel? ==>
      r == (sc.(offset := Wheel(sc.offset, ev.notches, |sc.listed|, ev.mouse)), Reply(s, [], Continue))
    ensures Current(s).None? && ev.OtherEvent? ==> r == (sc, Reply(s, [], Continue))
    ensures Current(s).None? && ev.MouseDown? ==> r == LobbyClick(sc, s, env, shown, ev.pos)
    ensures Valid(s, env.localIp) ==> Valid(r.1.lobby, env.localIp)
  {
    if Current(s).Some? then
      if ev.MouseDown? then
        var (o, rep) := OverlayClick(sc.overlay, s, env, ev.pos);
        if !rep.value then (sc.(overlay := o), Reply(rep.lobby, rep.sent, Continue))
        else if Current(rep.lobby).value.status == Playing then (sc.(overlay := o), Reply(rep.lobby, rep.sent, BeginGame))
        else (sc.(overlay := o), Reply(rep.lobby.(currentRoom := None), rep.sent, Continue))
      else (sc, Reply(s, [], Continue))
    else
      match ev
      case MouseWheel(notches, mouse) =>
        (sc.(offset := Wheel(sc.offset, notches, |sc.listed|, mouse)), Reply(s, [], Continue))
      case OtherEvent => (sc, Reply(s, [], Continue))
      case MouseDown(pos) => LobbyClick(sc, s, env, shown, pos)
  }

  /** After a click that joins a room, the screen is in that room: a wheel
      turn no longer scrolls the list and a list click no longer selects. */
  lemma JoinedScreenIgnoresList(sc: Screen, s: Lobby, env: Env, shown: seq<Room>, pos: Point, ev: Event)
    requires Current(s).None? && !Contains(LeftPanel, pos) && Contains(RightPanel, pos) && !Clicked(sc.createRoom, pos)
    requires JoinTarget(shown, pos, 0).Some?
    requires JoinListed(s, env, shown[JoinTarget(shown, pos, 0).value]).value
    ensures var (sc1, rep) := HandleEvent(sc, s, env, shown, MouseDown(pos));
            var (sc2, _) := HandleEvent(sc1, rep.lobby, env, shown, ev);
            sc2.offset == sc1.offset && sc2.selected == sc1.selected && sc2.listed == sc1.listed
  {
  }
}

=== FILE: receive.dfy ===
/** The branches of the network manager's receive loop. Each inbound message
    is one atomic transition; `Receive` dispatches on the message type. */
module Receive {
  import opened Options
  import opened Rooms

  /** The current room is the one a message names. */
  predicate ForCurrent(s: Lobby, roomId: RoomId) {
    Current(s).Some? && Current(s).value.roomId == roomId
  }

  /** `start_game`: the current room named by the message enters the game. */
  function OnStartGame(s: Lobby, roomId: RoomId): (r: Lobby)
    ensures !ForCurrent(s, roomId) ==> r == s
    ensures ForCurrent(s, roomId) ==> r == SetCurrent(s, Current(s).value.(status := Playing))
    ensures Current(r).Some? <==> Current(s).Some?
    ensures ForCurrent(s, roomId) ==> Current(r).value.status == Playing
  {
    if ForCurrent(s, roomId) then SetCurrent(s, Current(s).value.(status := Playing)) else s
  }

  /** `game_state`: the opponent's score and remaining moves, taken only
      from another peer's message about the current room. */
  function OnGameState(s: Lobby, localIp: Ip, roomId: RoomId, playerIp: Ip, score: int, movesLeft: int): (r: Lobby)
    ensures ForCurrent(s, roomId) && playerIp != localIp ==>
      r == s.(opponentScore := Some(score), opponentMoves := Some(movesLeft))
    ensures !(ForCurrent(s, roomId) && playerIp != localIp) ==> r == s
  {
    if ForCurrent(s, roomId) && playerIp != localIp then
      s.(opponentScore := Some(score), opponentMoves := Some(movesLeft))
    else s
  }

  /** A room built from a message about a room not seen before. The guest
      exists only when the message's guest name is a non-empty text. */
  function RoomFromMessage(m: Msg, now: real): (room: Room)
    requires m.RoomMsg?
    ensures room.roomId == m.roomId && room.host == NewPlayer(m.hostName, m.hostIp, now)
    ensures room.status == ParseStatus(m.statusText)
    ensures room.hostReady == m.hostReadyFlag.GetOr(false) && room.guestReady == m.guestReadyFlag.GetOr(false)
    ensures room.guest.Some? <==> Truthy(m.guestName)
    ensures room.guest.Some? ==> room.guest.value == NewPlayer(m.guestName.value, m.guestIp, now)
  {
    Room(m.roomId, NewPlayer(m.hostName, m.hostIp, now),
         if Truthy(m.guestName) then Some(NewPlayer(m.guestName.value, m.guestIp, now)) else None,
         ParseStatus(m.statusText), m.hostReadyFlag.GetOr(false), m.guestReadyFlag.GetOr(false))
  }

  /** A known room updated from a message: status and both flags are
      overwritten (a missing flag reads as false), the host is kept, the guest
      is dropped when the message names none, a new guest is created when
      the room had none, and an existing guest only takes the message's
      guest address, keeping its name. */
  function Overwrite(room: Room, m: Msg, now: real): (room': Room)
    requires m.RoomMsg?
    ensures room'.roomId == room.roomId && room'.host == room.host
    ensures room'.status == ParseStatus(m.statusText)
    ensures room'.hostReady == m.hostReadyFlag.GetOr(false) && room'.guestReady == m.guestReadyFlag.GetOr(false)
    ensures room'.guest.Some? <==> Truthy(m.guestName)
    ensures Truthy(m.guestName) && room.guest.None? ==> room'.guest == Some(NewPlayer(m.guestName.value, m.guestIp, now))
    ensures Truthy(m.guestName) && room.guest.Some? ==> room'.guest == Some(room.guest.value.(ip := m.guestIp))
  {
    var guest :=
      if Truthy(m.guestName) then
        if room.guest.None? then Some(NewPlayer(m.guestName.value, m.guestIp, now))
        else Some(room.guest.value.(ip := m.guestIp))
      else None;
    room.(status := ParseStatus(m.statusText), hostReady := m.hostReadyFlag.GetOr(false),
          guestReady := m.guestReadyFlag.GetOr(false), guest := guest)
  }

  /** The full snapshot `send_ready_state` sends reproduces a stored room at
      a peer that already knows it: only a guest with an empty name, which
      reads as false, is lost. */
  lemma FullRoomRoundTrip(room: Room, now: real)
    requires Canonical(room.status)
    ensures Overwrite(room, FullRoomMessage(room), now) ==
      room.(guest := if room.guest.Some? && room.guest.value.name == "" then None else room.guest)
  {
  }

  /** The opponent's readiness as seen from a room snapshot: the host's flag
      when the local peer is the guest, otherwise the guest's flag, and false
      without a guest. */
  function OpponentReadyIn(room: Room, localIp: Ip): (b: bool)
    ensures IsGuest(room, localIp) ==> b == room.hostReady
    ensures !IsGuest(room, localIp) ==> b == (room.guest.Some? && room.guestReady)
  {
    if IsGuest(room, localIp) then room.hostReady
    else if room.guest.Some? then room.guestReady else false
  }

  /** `room`: last-writer-wins merge of a whole room snapshot; for the
      current room, the opponent's readiness is re-derived. */
  function OnRoom(s: Lobby, env: Env, m: Msg): (r: Lobby)
    requires m.RoomMsg?
    ensures m.roomId !in s.rooms ==> r.rooms == s.rooms[m.roomId := RoomFromMessage(m, env.now)]
    ensures m.roomId in s.rooms ==> r.rooms == s.rooms[m.roomId := Overwrite(s.rooms[m.roomId], m, env.now)]
    ensures ForCurrent(s, m.roomId) ==>
      r == s.(rooms := r.rooms, opponentReady := OpponentReadyIn(r.rooms[m.roomId], env.localIp))
    ensures !ForCurrent(s, m.roomId) ==> r == s.(rooms := r.rooms)
    ensures Valid(s, env.localIp) ==> Valid(r, env.localIp)
  {
    var merged := if m.roomId in s.rooms then Overwrite(s.rooms[m.roomId], m, env.now)
                  else RoomFromMessage(m, env.now);
    ParseStatusCanonical(m.statusText);
    var t := s.(rooms := s.rooms[m.roomId := merged]);
    if ForCurrent(s, m.roomId) then t.(opponentReady := OpponentReadyIn(merged, env.localIp)) else t
  }

  /** Index of the first player with the given address. */
  function FindPlayer(players: seq<Player>, ip: Ip): (r: Option<nat>)
    ensures r.Some? ==> r.value < |players| && players[r.value].ip == Some(ip)
    ensures r.Some? ==> forall k :: 0 <= k < r.value ==> players[k].ip != Some(ip)
    ensures r.None? <==> forall k :: 0 <= k < |players| ==> players[k].ip != Some(ip)
  {
    if players == [] then None
    else if players[0].ip == Some(ip) then Some(0)
    else
      match FindPlayer(players[1..], ip)
      case Some(i) => Some(i + 1)
      case None => None
  }

  /** `presence`: announcements from the local address are ignored; a known
      address is refreshed in place, an unknown one is appended. */
  function OnPresence(s: Lobby, env: Env, name: string, ip: Ip): (r: Lobby)
    ensures ip == env.localIp ==> r == s
    ensures ip != env.localIp ==> r == s.(players := r.players)
    ensures ip != env.localIp && FindPlayer(s.players, ip).Some? ==>
      var i := FindPlayer(s.players, ip).value;
      r.players == s.players[i := s.players[i].(lastSeen := env.now, status := Online)]
    ensures ip != env.localIp && FindPlayer(s.players, ip).None? ==>
      r.players == s.players + [NewPlayer(name, Some(ip), env.now)]
    ensures Valid(s, env.localIp) ==> Valid(r, env.localIp)
  {
    if ip != env.localIp then
      match FindPlayer(s.players, ip)
      case Some(i) => s.(players := s.players[i := s.players[i].(lastSeen := env.now, status := Online)])
      case None => s.(players := s.players + [NewPlayer(name, Some(ip), env.now)])
    else s
  }

  /** `join_request` as handled inside the loop: the request for the current
      room replaces the guest whatever the room held and leaves the status
      alone; the room is re-broadcast. */
  function OnJoinRequest(s: Lobby, env: Env, roomId: RoomId, playerName: string, playerIp: Ip): (r: Reply<()>)
    ensures !ForCurrent(s, roomId) ==> r.lobby == s && r.sent == []
    ensures ForCurrent(s, roomId) ==>
      var room' := Current(s).value.(guest := Some(NewPlayer(playerName, Some(playerIp), env.now)));
      && r.lobby == SetCurrent(s, room')
      && r.sent == [Packet(Broadcast, BroadcastRoom(room'))]
    ensures Valid(s, env.localIp) ==> Valid(r.lobby, env.localIp)
  {
    if ForCurrent(s, roomId) then
      var room' := Current(s).value.(guest := Some(NewPlayer(playerName, Some(playerIp), env.now)));
      Reply(SetCurrent(s, room'), [Packet(Broadcast, BroadcastRoom(room'))], ())
    else Reply(s, [], ())
  }

  /** `handle_ready_state`: a ready message about the current room sets the
      flag of the sender's declared role (a missing role reads as guest),
      mirrors it into the opponent's readiness when another peer sent it, and
      recomputes the status from the two flags. */
  function HandleReadyState(s: Lobby, localIp: Ip, roomId: RoomId, playerIp: Ip, ready: bool, isHost: Option<bool>): (r: Lobby)
    ensures !ForCurrent(s, roomId) ==> r == s
    ensures ForCurrent(s, roomId) ==> Current(r).Some?
    ensures ForCurrent(s, roomId) ==>
      var room := Current(s).value;
      var room' := Current(r).value;
      && r == SetCurrent(s, room').(opponentReady := r.opponentReady)
      && room'.roomId == room.roomId && room'.host == room.host && room'.guest == room.guest
      && room'.hostReady == (if isHost.GetOr(false) then ready else room.hostReady)
      && room'.guestReady == (if isHost.GetOr(false) then room.guestReady else ready)
      && (room'.status == AllReady <==> room'.hostReady && room'.guestReady)
      && (room'.status != AllReady ==> room'.status == Preparing)
      && r.opponentReady == (if playerIp != localIp then ready else s.opponentReady)
    ensures Valid(s, localIp) ==> Valid(r, localIp)
  {
    if ForCurrent(s, roomId) then
      var room := Current(s).value;
      var flagged := if isHost.GetOr(false) then room.(hostReady := ready) else room.(guestReady := ready);
      var room' := flagged.(status := ReadyStatus(flagged.hostReady, flagged.guestReady));
      SetCurrent(s, room').(opponentReady := if playerIp != localIp then ready else s.opponentReady)
    else s
  }

  /** `leave_room` as handled inside the loop: the host leaving only forgets
      the current room (the room stays listed); the guest leaving empties the
      guest slot and the opponent's readiness but keeps the status and the
      guest's ready flag. The room is re-broadcast unless the host left. */
  function OnLeaveRoom(s: Lobby, roomId: RoomId, playerIp: Ip): (r: Reply<()>)
    ensures !ForCurrent(s, roomId) ==> r.lobby == s && r.sent == []
    ensures ForCurrent(s, roomId) && IsHost(Current(s).value, playerIp) ==>
      r.lobby == s.(currentRoom := None) && r.sent == []
    ensures ForCurrent(s, roomId) && !IsHost(Current(s).value, playerIp) && IsGuest(Current(s).value, playerIp) ==>
      var room' := Current(s).value.(guest := None);
      && r.lobby == SetCurrent(s, room').(opponentReady := false)
      && r.sent == [Packet(Broadcast, BroadcastRoom(room'))]
    ensures ForCurrent(s, roomId) && !IsHost(Current(s).value, playerIp) && !IsGuest(Current(s).value, playerIp) ==>
      r.lobby == s && r.sent == [Packet(Broadcast, BroadcastRoom(Current(s).value))]
    ensures r.lobby.rooms.Keys == s.rooms.Keys
  {
    if ForCurrent(s, roomId) then
      var room := Current(s).value;
      if IsHost(room, playerIp) then
        Reply(s.(currentRoom := None), [], ())
      else if IsGuest(room, playerIp) then
        var room' := room.(guest := None);
        Reply(SetCurrent(s, room').(opponentReady := false), [Packet(Broadcast, BroadcastRoom(room'))], ())
      else Reply(s, [Packet(Broadcast, BroadcastRoom(room))], ())
    else Reply(s, [], ())
  }

  /** One iteration of the receive loop: dispatch on the message type.
      Message types without a branch (`game_result` and unknown ones) are
      ignored. */
  function Receive(s: Lobby, env: Env, m: Msg): (r: Reply<()>)
    ensures Valid(s, env.localIp) ==> Valid(r.lobby, env.localIp)
    ensures m.GameResult? || m.Unknown? ==> r.lobby == s && r.sent == []
    ensures !(m.JoinRequest? || m.LeaveRoom?) ==> r.sent == []
    ensures r.lobby.isReady == s.isReady
  {
    match m
    case StartGame(roomId) => Reply(OnStartGame(s, roomId), [], ())
    case GameState(roomId, playerIp, score, movesLeft) =>
      Reply(OnGameState(s, env.localIp, roomId, playerIp, score, movesLeft), [], ())
    case RoomMsg(_, _, _, _, _, _, _, _) => Reply(OnRoom(s, env, m), [], ())
    case Presence(name, ip) => Reply(OnPresence(s, env, name, ip), [], ())
    case JoinRequest(roomId, playerName, playerIp) => OnJoinRequest(s, env, roomId, playerName, playerIp)
    case ReadyState(roomId, playerIp, ready, isHost) =>
      Reply(HandleReadyState(s, env.localIp, roomId, playerIp, ready, isHost), [], ())
    case LeaveRoom(roomId, playerIp) => OnLeaveRoom(s, roomId, playerIp)
    case GameResult(_, _, _) => Reply(s, [], ())
    case Unknown(_) => Reply(s, [], ())
  }

  /** Observing the same announcement twice leaves one entry for the
      address; the second observation only moves its last-seen time. */
  lemma PresenceIdempotent(s: Lobby, env: Env, env': Env, name: string, ip: Ip)
    requires Valid(s, env.localIp) && env'.localIp == env.localIp && ip != env.localIp
    ensures var s1 := OnPresence(s, env, name, ip);
            var s2 := OnPresence(s1, env', name, ip);
            && |s2.players| == |s1.players|
            && (forall k :: 0 <= k < |s1.players| && s1.players[k].ip != Some(ip) ==> s2.players[k] == s1.players[k])
            && (forall k :: 0 <= k < |s1.players| && s1.players[k].ip == Some(ip) ==>
                  s2.players[k] == s1.players[k].(lastSeen := env'.now))
  {
    var s1 := OnPresence(s, env, name, ip);
    assert FindPlayer(s1.players, ip).Some? by {
      if FindPlayer(s.players, ip).None? {
        assert s1.players[|s.players|].ip == Some(ip);
      } else {
        var i := FindPlayer(s.players, ip).value;
        assert s1.players[i].ip == Some(ip);
      }
    }
    assert UniqueIps(s1.players);
  }

  /** Room merge never touches the host of a known room, and drops the guest
      exactly when the message names none. */
  lemma MergeKeepsHost(s: Lobby, env: Env, m: Msg)
    requires m.RoomMsg? && m.roomId in s.rooms
    ensures var r := OnRoom(s, env, m);
            && r.rooms[m.roomId].host == s.rooms[m.roomId].host
            && (r.rooms[m.roomId].guest.None? <==> !Truthy(m.guestName))
  {
  }
}

=== FILE: rooms.dfy ===
/** Data model of the LAN lobby kept by the broadcast network manager:
    players seen on the network, rooms advertised by hosts, the local
    session (current room and readiness) and the messages exchanged over the
    broadcast port.

    In the program the current room is the very Room object stored in the
    room dictionary, so the local session and the room list always agree.
    The model stores the dictionary key of the current room instead of a
    second copy, and `Valid` states the invariant that makes the two views
    coincide. */
module Rooms {
  import opened Options
  import Decimal

  type Ip = string
  type RoomId = string

  /** The clock reading `time.time()`: seconds since the epoch. */
  type Clock = t: real | 0.0 <= t

  /** Player status; every code path stores `Online`. */
  datatype PlayerStatus = Online | InGame | Offline

  /** A peer. Its address is optional because a guest rebuilt from a room
      message takes the message's optional guest address. */
  datatype Player = Player(name: string, ip: Option<Ip>, status: PlayerStatus, lastSeen: real)

  /** A freshly constructed player: online, last seen now. */
  function NewPlayer(name: string, ip: Option<Ip>, now: real): (p: Player)
    ensures p.name == name && p.ip == ip && p.lastSeen == now && p.status == Online
  {
    Player(name, ip, Online, now)
  }

  /** Room status. The wire carries the status as free text, so any other
      text is kept verbatim in `Other`. */
  datatype RoomStatus = Waiting | Preparing | AllReady | Playing | Other(text: string)

  const WaitingLabel: string := "等待中"
  const PreparingLabel: string := "准备中"
  const AllReadyLabel: string := "准备完成"
  const PlayingLabel: string := "游戏中"

  /** The text a status is transmitted and displayed as. */
  function Label(st: RoomStatus): string {
    match st
    case Waiting => WaitingLabel
    case Preparing => PreparingLabel
    case AllReady => AllReadyLabel
    case Playing => PlayingLabel
    case Other(l) => l
  }

  /** Reads a status received as text. */
  function ParseStatus(s: string): (st: RoomStatus)
    ensures Label(st) == s
  {
    if s == WaitingLabel then Waiting
    else if s == PreparingLabel then Preparing
    else if s == AllReadyLabel then AllReady
    else if s == PlayingLabel then Playing
    else Other(s)
  }

  /** A status is canonical when it is not a known label wrapped in `Other`;
      parsing produces only canonical statuses. */
  predicate Canonical(st: RoomStatus) {
    st.Other? ==> st.text !in {WaitingLabel, PreparingLabel, AllReadyLabel, PlayingLabel}
  }

  lemma ParseStatusCanonical(s: string)
    ensures Canonical(ParseStatus(s))
  {
  }

  /** Sending a status as text and reading it back gives the same status
      exactly when the status is canonical. */
  lemma LabelRoundTrip(st: RoomStatus)
    ensures ParseStatus(Label(st)) == st <==> Canonical(st)
  {
  }

  /** A room. `lastActive` is absent: the program reads `room.last_active`
      but never assigns it. */
  datatype Room = Room(roomId: RoomId, host: Player, guest: Option<Player>,
                       status: RoomStatus, hostReady: bool, guestReady: bool)

  /** Room identifiers are the decimal text of the whole seconds of the clock. */
  function RoomIdAt(now: Clock): RoomId {
    Decimal.NatToDecimal(now.Floor)
  }

  /** Two rooms created in the same second get the same identifier, and rooms
      created in different seconds never do. */
  lemma RoomIdAtCollides(t1: Clock, t2: Clock)
    ensures RoomIdAt(t1) == RoomIdAt(t2) <==> t1.Floor == t2.Floor
  {
    Decimal.NatToDecimalInjective(t1.Floor, t2.Floor);
  }

  /** The messages of the broadcast protocol, one case per message type, as
      the receive loop reads them: fields it reads with `message.get(...)`
      are optional, the rest are required. `handle_leave_room`, which reads
      both of its fields with `.get`, takes them as options instead. */
  datatype Msg =
    | StartGame(roomId: RoomId)
    | GameState(roomId: RoomId, playerIp: Ip, score: int, movesLeft: int)
    | RoomMsg(roomId: RoomId, hostName: string, hostIp: Option<Ip>, statusText: string,
              guestName: Option<string>, guestIp: Option<Ip>,
              hostReadyFlag: Option<bool>, guestReadyFlag: Option<bool>)
    | Presence(name: string, ip: Ip)
    | JoinRequest(roomId: RoomId, playerName: string, playerIp: Ip)
    | ReadyState(roomId: RoomId, playerIp: Ip, ready: bool, isHost: Option<bool>)
    | LeaveRoom(roomId: RoomId, playerIp: Ip)
    | GameResult(roomId: RoomId, playerIp: Ip, isWinner: bool)
    | Unknown(tag: string)

  datatype Dest = Broadcast | Direct(to: Ip)

  /** A datagram handed to the socket layer. */
  datatype Packet = Packet(dest: Dest, msg: Msg)

  /** The network manager's state. `opponentScore`/`opponentMoves` are None
      until the first game-state message creates the attributes. */
  datatype Lobby = Lobby(players: seq<Player>, rooms: map<RoomId, Room>,
                         currentRoom: Option<RoomId>, isReady: bool, opponentReady: bool,
                         opponentScore: Option<int>, opponentMoves: Option<int>,
                         lastCleanup: real)

  /** What the handlers read from outside: this host's address and name and
      the clock. */
  datatype Env = Env(localIp: Ip, hostName: string, now: Clock)

  /** The outcome of one command or message: the new state, the datagrams
      sent, and the command's return value. */
  datatype Reply<T> = Reply(lobby: Lobby, sent: seq<Packet>, value: T)

  /** The state right after construction. */
  function Initial(now: Clock): (s: Lobby)
    ensures s.players == [] && s.rooms == map[] && s.currentRoom.None?
    ensures !s.isReady && !s.opponentReady && s.lastCleanup == now
  {
    Lobby([], map[], None, false, false, None, None, now)
  }

  /** The room the local peer is in. */
  function Current(s: Lobby): (r: Option<Room>)
    ensures r.Some? <==> s.currentRoom.Some? && s.currentRoom.value in s.rooms
    ensures r.Some? ==> r.value == s.rooms[s.currentRoom.value]
  {
    if s.currentRoom.Some? && s.currentRoom.value in s.rooms then Some(s.rooms[s.currentRoom.value])
    else None
  }

  /** Stores a new version of the current room. */
  function SetCurrent(s: Lobby, room: Room): (t: Lobby)
    requires Current(s).Some?
    ensures t.rooms == s.rooms[s.currentRoom.value := room]
    ensures t == s.(rooms := t.rooms)
  {
    s.(rooms := s.rooms[s.currentRoom.value := room])
  }

  /** No two players share an address. */
  ghost predicate UniqueIps(players: seq<Player>) {
    forall i, j :: 0 <= i < j < |players| ==> players[i].ip != players[j].ip
  }

  /** r is s with some players left out: what remains keeps its order. */
  ghost predicate Sublist(r: seq<Player>, s: seq<Player>)
    decreases |s|
  {
    r == [] || (s != [] && ((r[0] == s[0] && Sublist(r[1..], s[1..])) || Sublist(r, s[1..])))
  }

  /** Each player of a sublist is found in the full list. */
  lemma {:induction false} SublistIndex(r: seq<Player>, s: seq<Player>, k: nat) returns (a: nat)
    requires Sublist(r, s) && k < |r|
    ensures a < |s| && s[a] == r[k]
    decreases |s|
  {
    if r[0] == s[0] && Sublist(r[1..], s[1..]) {
      if k == 0 {
        a := 0;
      } else {
        var a' := SublistIndex(r[1..], s[1..], k - 1);
        a := a' + 1;
      }
    } else {
      var a' := SublistIndex(r, s[1..], k);
      a := a' + 1;
    }
  }

  /** A sublist keeps the order of the full list: any two of its players
      come from positions of the full list in the same order. */
  lemma {:induction false} SublistKeepsOrder(r: seq<Player>, s: seq<Player>, i: nat, j: nat) returns (a: nat, b: nat)
    requires Sublist(r, s) && i < j < |r|
    ensures a < b < |s| && s[a] == r[i] && s[b] == r[j]
    decreases |s|
  {
    if r[0] == s[0] && Sublist(r[1..], s[1..]) {
      if i == 0 {
        var b' := SublistIndex(r[1..], s[1..], j - 1);
        a, b := 0, b' + 1;
      } else {
        var a', b' := SublistKeepsOrder(r[1..], s[1..], i - 1, j - 1);
        a, b := a' + 1, b' + 1;
      }
    } else {
      var a', b' := SublistKeepsOrder(r, s[1..], i, j);
      a, b := a' + 1, b' + 1;
    }
  }

  /** The invariant every transition keeps. */
  ghost predicate Valid(s: Lobby, localIp: Ip) {
    && (forall k :: k in s.rooms ==> s.rooms[k].roomId == k && Canonical(s.rooms[k].status))
    && (s.currentRoom.Some? ==> s.currentRoom.value in s.rooms)
    && UniqueIps(s.players)
    && (forall i :: 0 <= i < |s.players| ==> s.players[i].ip.Some? && s.players[i].ip != Some(localIp))
  }

  lemma InitialValid(now: Clock, localIp: Ip)
    ensures Valid(Initial(now), localIp)
  {
  }

  /** Python truthiness of an optional text field. */
  predicate Truthy(o: Option<string>) {
    o.Some? && o.value != ""
  }

  /** The message `broadcast_room` sends: it carries the guest's name but not
      the guest's address. */
  function BroadcastRoom(room: Room): (m: Msg)
    ensures m.RoomMsg? && m.roomId == room.roomId && m.hostIp == room.host.ip
    ensures m.hostName == room.host.name
    ensures m.guestIp.None?
    ensures m.guestName.Some? <==> room.guest.Some?
    ensures room.guest.Some? ==> m.guestName == Some(room.guest.value.name)
    ensures ParseStatus(m.statusText) == room.status <==> Canonical(room.status)
    ensures m.hostReadyFlag == Some(room.hostReady) && m.guestReadyFlag == Some(room.guestReady)
  {
    LabelRoundTrip(room.status);
    RoomMsg(room.roomId, room.host.name, room.host.ip, Label(room.status),
            if room.guest.Some? then Some(room.guest.value.name) else None, None,
            Some(room.hostReady), Some(room.guestReady))
  }

  /** The full room message `send_ready_state` sends, which does carry the
      guest's address. */
  function FullRoomMessage(room: Room): (m: Msg)
    ensures m.RoomMsg? && m.roomId == room.roomId && m.hostIp == room.host.ip
    ensures m.hostName == room.host.name
    ensures m.guestIp == (if room.guest.Some? then room.guest.value.ip else None)
    ensures m.guestName.Some? <==> room.guest.Some?
    ensures room.guest.Some? ==> m.guestName == Some(room.guest.value.name)
    ensures ParseStatus(m.statusText) == room.status <==> Canonical(room.status)
    ensures m.hostReadyFlag == Some(room.hostReady) && m.guestReadyFlag == Some(room.guestReady)
  {
    LabelRoundTrip(room.status);
    RoomMsg(room.roomId, room.host.name, room.host.ip, Label(room.status),
            if room.guest.Some? then Some(room.guest.value.name) else None,
            if room.guest.Some? then room.guest.value.ip else None,
            Some(room.hostReady), Some(room.guestReady))
  }

  /** The local peer is the room's host. */
  predicate IsHost(room: Room, localIp: Ip) {
    room.host.ip == Some(localIp)
  }

  /** The local peer is the room's guest. */
  predicate IsGuest(room: Room, localIp: Ip) {
    room.guest.Some? && room.guest.value.ip == Some(localIp)
  }

  /** The status both ready paths derive from the two flags. */
  function ReadyStatus(hostReady: bool, guestReady: bool): (st: RoomStatus)
    ensures st == AllReady <==> hostReady && guestReady
    ensures st != AllReady ==> st == Preparing
  {
    if hostReady && guestReady then AllReady else Preparing
  }
}

=== FILE: runs.dfy ===
/** Runs of equal kinds along one line (a row or a column) of a board.

    A run is a maximal stretch of consecutive occupied cells of one kind. The
    desktop game scans each line for runs of length three or more; the web
    game instead looks at every window of three cells. Both are related here
    to the one definition of a run. */
module Runs {
  import opened Options
  import opened Gems

  type Line = seq<Option<Kind>>

  /** Two cells hold pieces of the same kind. */
  predicate SameKind(a: Option<Kind>, b: Option<Kind>) {
    a.Some? && b.Some? && a.value == b.value
  }

  /** Cells q and q + 1 hold pieces of the same kind. */
  predicate Link(l: Line, q: nat) {
    q + 1 < |l| && SameKind(l[q], l[q + 1])
  }

  /** The first index of the run through p. */
  function RunStart(l: Line, p: nat): (s: nat)
    requires p < |l|
    ensures s <= p
    ensures forall q :: s <= q < p ==> Link(l, q)
    ensures s == 0 || !Link(l, s - 1)
  {
    if p > 0 && Link(l, p - 1) then RunStart(l, p - 1) else p
  }

  /** One past the last index of the run through p. */
  function RunEnd(l: Line, p: nat): (e: nat)
    requires p < |l|
    ensures p < e <= |l|
    ensures forall q :: p <= q < e - 1 ==> Link(l, q)
    ensures e == |l| || !Link(l, e - 1)
    decreases |l| - p
  {
    if Link(l, p) then RunEnd(l, p + 1) else p + 1
  }

  /** Cell p is occupied and its run is at least three long. */
  predicate InLongRun(l: Line, p: nat) {
    p < |l| && l[p].Some? && RunEnd(l, p) - RunStart(l, p) >= 3
  }

  /** Cell p is occupied and starts a run. */
  predicate StartsRun(l: Line, p: nat) {
    p < |l| && l[p].Some? && (p == 0 || !Link(l, p - 1))
  }

  /** The special rune a run of the given length earns: 4 explosive, 5 line,
      6 or more magic, anything shorter none. */
  function SpecialFor(len: nat): (sp: SpecialType)
    ensures sp == NoSpecial <==> len < 4
    ensures sp == Explosive <==> len == 4
    ensures sp == Line <==> len == 5
    ensures sp == Magic <==> len >= 6
  {
    if len == 4 then Explosive
    else if len == 5 then Line
    else if len >= 6 then Magic
    else NoSpecial
  }

  /** Inside a run every index has the same start and the same end. */
  lemma {:induction false} RunInterior(l: Line, j: nat, p: nat)
    requires StartsRun(l, j)
    requires j <= p < RunEnd(l, j)
    ensures RunStart(l, p) == j && RunEnd(l, p) == RunEnd(l, j)
    decreases p - j
  {
    if p > j {
      RunInterior(l, j, p - 1);
    }
  }

  /** The facts the scan needs about the run starting at j: every index in
      it has the same bounds, and only j starts it. */
  lemma RunFacts(l: Line, j: nat)
    requires StartsRun(l, j)
    ensures forall p :: j <= p < RunEnd(l, j) ==>
      RunStart(l, p) == j && RunEnd(l, p) == RunEnd(l, j) && (StartsRun(l, p) <==> p == j)
  {
    forall p | j <= p < RunEnd(l, j)
      ensures RunStart(l, p) == j && RunEnd(l, p) == RunEnd(l, j) && (StartsRun(l, p) <==> p == j)
    {
      RunInterior(l, j, p);
      if p > j {
        assert Link(l, p - 1);
      }
    }
  }

  /** A chain of equal kinds from w up to p puts the run start at or before w. */
  lemma {:induction false} RunStartAtMost(l: Line, w: nat, p: nat)
    requires w <= p < |l|
    requires forall q :: w <= q < p ==> Link(l, q)
    ensures RunStart(l, p) <= w
    decreases p - w
  {
    if p > w {
      RunStartAtMost(l, w, p - 1);
    }
  }

  /** A chain of equal kinds from p up to e - 1 puts the run end at or after e. */
  lemma {:induction false} RunEndAtLeast(l: Line, p: nat, e: nat)
    requires p < e <= |l|
    requires forall q :: p <= q < e - 1 ==> Link(l, q)
    ensures RunEnd(l, p) >= e
    decreases e - p
  {
    if p + 1 < e {
      RunEndAtLeast(l, p + 1, e);
    }
  }

  /** The inner scan: with l[j..k] all of l[j]'s kind, the first index at or
      after k that is empty or of another kind. */
  function Extend(l: Line, j: nat, k: nat): (e: nat)
    requires j < k <= |l| && l[j].Some? && l[k - 1] == l[j]
    ensures e == RunEnd(l, k - 1)
    decreases |l| - k
  {
    if k < |l| && l[k].Some? && l[k].value == l[j].value then Extend(l, j, k + 1) else k
  }

  /** The indices j..k-1. */
  function Range(j: nat, k: nat): (r: set<nat>)
    ensures forall p :: p in r <==> j <= p < k
    decreases k - j
  {
    if j >= k then {} else {j} + Range(j + 1, k)
  }

  /** What a scan of one line finds: the matched indices, and the indices
      where a run of four or more starts. */
  datatype Found = Found(cells: set<nat>, starts: set<nat>)

  /** The scan of one line from index j: skip empty cells, measure the run
      starting here, record it when it is three or longer (and its start when
      it is four or longer), continue after it. */
  function Scan(l: Line, j: nat): (r: Found)
    requires j <= |l|
    requires j == |l| || j == 0 || !Link(l, j - 1)
    decreases |l| - j
  {
    if j == |l| then Found({}, {})
    else if l[j].None? then Scan(l, j + 1)
    else
      var k := Extend(l, j, j + 1);
      var rest := Scan(l, k);
      Found((if k - j >= 3 then Range(j, k) else {}) + rest.cells,
            (if k - j >= 4 then {j} else {}) + rest.starts)
  }

  /** The scan from j finds exactly the cells of long runs from j on, and
      exactly the starts of runs of four or more from j on. */
  lemma {:induction false} ScanFinds(l: Line, j: nat)
    requires j <= |l|
    requires j == |l| || j == 0 || !Link(l, j - 1)
    ensures forall p :: p in Scan(l, j).cells <==> j <= p && InLongRun(l, p)
    ensures forall p :: p in Scan(l, j).starts <==> j <= p && StartsRun(l, p) && RunEnd(l, p) - p >= 4
    decreases |l| - j
  {
    if j < |l| {
      if l[j].None? {
        ScanFinds(l, j + 1);
      } else {
        var k := Extend(l, j, j + 1);
        ScanFinds(l, k);
        RunFacts(l, j);
      }
    }
  }

  /** The scan of a whole line. */
  function ScanLine(l: Line): (r: Found)
    ensures forall p :: p in r.cells <==> InLongRun(l, p)
    ensures forall p :: p in r.starts <==> StartsRun(l, p) && RunEnd(l, p) - p >= 4
  {
    ScanFinds(l, 0);
    Scan(l, 0)
  }

  /** The length of the run starting at p, as the scan's inner loop measures
      it. */
  function RunLength(l: Line, p: nat): (n: nat)
    requires StartsRun(l, p)
    ensures n == RunEnd(l, p) - p
  {
    Extend(l, p, p + 1) - p
  }

  /** Cell p lies in some window of three consecutive cells of one kind. */
  ghost predicate InWindow(l: Line, p: nat) {
    exists w: nat :: w <= p <= w + 2 && Triple(l, w)
  }

  /** The three cells from w on exist and the first has the kind of the
      other two. */
  predicate Triple(l: Line, w: nat) {
    w + 2 < |l| && SameKind(l[w], l[w + 1]) && SameKind(l[w], l[w + 2])
  }

  /** Windows of three and runs of three or more mark the same cells. */
  lemma {:induction false} WindowIffLongRun(l: Line, p: nat)
    requires p < |l|
    ensures InWindow(l, p) <==> InLongRun(l, p)
  {
    if InWindow(l, p) {
      var w: nat :| w <= p <= w + 2 && Triple(l, w);
      assert Link(l, w) && Link(l, w + 1);
      RunStartAtMost(l, w, p);
      RunEndAtLeast(l, p, w + 3);
    }
    if InLongRun(l, p) {
      var s, e := RunStart(l, p), RunEnd(l, p);
      var w: nat := if p + 3 <= e then p else e - 3;
      assert Link(l, w) && Link(l, w + 1);
      assert Triple(l, w);
    }
  }
}

=== FILE: session.dfy ===
/** The local commands of the network manager: creating and joining a room,
    the host-side join handler, toggling readiness, the staleness sweep and
    the standalone leave handler. Each is one atomic transition of `Lobby`. */
module Session {
  import opened Options
  import opened Rooms

  /** Seconds between two sweeps. */
  const CleanupInterval: real := 5.0
  /** A player not heard from for this many seconds is dropped by the sweep. */
  const PlayerTimeout: real := 10.0

  /** `create_room`: a new waiting room hosted by this peer becomes the
      current room and is broadcast. */
  function CreateRoom(s: Lobby, env: Env): (r: Reply<Room>)
    ensures r.value.roomId == RoomIdAt(env.now)
    ensures r.value.host.name == env.hostName && r.value.host.ip == Some(env.localIp)
    ensures r.value.guest.None? && r.value.status == Waiting
    ensures !r.value.hostReady && !r.value.guestReady
    ensures r.lobby.rooms == s.rooms[r.value.roomId := r.value]
    ensures Current(r.lobby) == Some(r.value)
    ensures r.lobby == s.(rooms := r.lobby.rooms, currentRoom := r.lobby.currentRoom)
    ensures r.sent == [Packet(Broadcast, BroadcastRoom(r.value))]
    ensures Valid(s, env.localIp) ==> Valid(r.lobby, env.localIp)
  {
    var host := NewPlayer(env.hostName, Some(env.localIp), env.now);
    var room := Room(RoomIdAt(env.now), host, None, Waiting, false, false);
    Reply(s.(rooms := s.rooms[room.roomId := room], currentRoom := Some(room.roomId)),
          [Packet(Broadcast, BroadcastRoom(room))], room)
  }

  /** `join_room`: only a known room that is still waiting can be joined.
      Joining resets both ready flags, makes the room current and sends a
      join request to the host; the room itself is left untouched until the
      host's broadcast arrives. */
  function JoinRoom(s: Lobby, env: Env, roomId: RoomId, hostIp: Ip): (r: Reply<bool>)
    ensures r.value <==> roomId in s.rooms && s.rooms[roomId].status == Waiting
    ensures !r.value ==> r.lobby == s && r.sent == []
    ensures r.value ==> r.lobby == s.(currentRoom := Some(roomId), isReady := false, opponentReady := false)
    ensures r.value ==> r.sent == [Packet(Direct(hostIp), JoinRequest(roomId, env.hostName, env.localIp))]
    ensures Valid(s, env.localIp) ==> Valid(r.lobby, env.localIp)
  {
    if roomId in s.rooms then
      if s.rooms[roomId].status != Waiting then Reply(s, [], false)
      else
        Reply(s.(isReady := false, opponentReady := false, currentRoom := Some(roomId)),
              [Packet(Direct(hostIp), JoinRequest(roomId, env.hostName, env.localIp))], true)
    else Reply(s, [], false)
  }

  /** `handle_join_request`: the host accepts a request for its current room
      only while that room has no guest; the guest is recorded, the room
      moves to Preparing and is broadcast. Any other request changes nothing. */
  function HandleJoinRequest(s: Lobby, env: Env, roomId: RoomId, playerName: string, playerIp: Ip): (r: Reply<bool>)
    ensures r.value <==> Current(s).Some? && Current(s).value.roomId == roomId && Current(s).value.guest.None?
    ensures !r.value ==> r.lobby == s && r.sent == []
    ensures r.value ==>
      var room := Current(s).value;
      var room' := room.(guest := Some(NewPlayer(playerName, Some(playerIp), env.now)), status := Preparing);
      && r.lobby == SetCurrent(s, room')
      && r.sent == [Packet(Broadcast, BroadcastRoom(room'))]
    ensures Valid(s, env.localIp) ==> Valid(r.lobby, env.localIp)
  {
    match Current(s)
    case Some(room) =>
      if roomId == room.roomId && room.guest.None? then
        var room' := room.(guest := Some(NewPlayer(playerName, Some(playerIp), env.now)), status := Preparing);
        Reply(SetCurrent(s, room'), [Packet(Broadcast, BroadcastRoom(room'))], true)
      else Reply(s, [], false)
    case None => Reply(s, [], false)
  }

  /** The room after the local peer sets its readiness: the flag of the
      local peer's role changes (host first, then guest, else neither) and
      the status is recomputed from the two flags. */
  function ApplyLocalReady(room: Room, localIp: Ip, ready: bool): (room': Room)
    ensures room'.roomId == room.roomId && room'.host == room.host && room'.guest == room.guest
    ensures room'.hostReady == (if IsHost(room, localIp) then ready else room.hostReady)
    ensures room'.guestReady == (if !IsHost(room, localIp) && IsGuest(room, localIp) then ready else room.guestReady)
    ensures room'.status == ReadyStatus(room'.hostReady, room'.guestReady)
  {
    var flagged :=
      if IsHost(room, localIp) then room.(hostReady := ready)
      else if IsGuest(room, localIp) then room.(guestReady := ready)
      else room;
    flagged.(status := ReadyStatus(flagged.hostReady, flagged.guestReady))
  }

  /** `send_ready_state`: with a current room, records the local readiness,
      updates the room, and sends a ready-state message followed by the full
      room snapshot. Without a current room nothing happens. */
  function SendReadyState(s: Lobby, env: Env, ready: bool): (r: Reply<bool>)
    ensures r.value <==> Current(s).Some?
    ensures !r.value ==> r.lobby == s && r.sent == []
    ensures r.value ==> Current(r.lobby).Some?
    ensures r.value ==>
      var room := Current(s).value;
      var room' := Current(r.lobby).value;
      && r.lobby == SetCurrent(s, room').(isReady := ready)
      && room' == ApplyLocalReady(room, env.localIp, ready)
      && (room'.status == AllReady <==> room'.hostReady && room'.guestReady)
      && r.sent == [Packet(Broadcast, ReadyState(room.roomId, env.localIp, ready, Some(IsHost(room, env.localIp)))),
                    Packet(Broadcast, FullRoomMessage(room'))]
    ensures Valid(s, env.localIp) ==> Valid(r.lobby, env.localIp)
  {
    match Current(s)
    case Some(room) =>
      var room' := ApplyLocalReady(room, env.localIp, ready);
      Reply(SetCurrent(s, room').(isReady := ready),
            [Packet(Broadcast, ReadyState(room.roomId, env.localIp, ready, Some(IsHost(room, env.localIp)))),
             Packet(Broadcast, FullRoomMessage(room'))],
            true)
    case None => Reply(s, [], false)
  }

  /** The players heard from within the timeout, in their original order. */
  function KeepFresh(players: seq<Player>, now: real): (r: seq<Player>)
    ensures forall p :: p in r <==> p in players && now - p.lastSeen < PlayerTimeout
    ensures UniqueIps(players) ==> UniqueIps(r)
    ensures Sublist(r, players)
  {
    if players == [] then []
    else
      var rest := KeepFresh(players[1..], now);
      if now - players[0].lastSeen < PlayerTimeout then
        KeepFreshHead(players, rest);
        assert ([players[0]] + rest)[1..] == rest;
        [players[0]] + rest
      else rest
  }

  lemma KeepFreshHead(players: seq<Player>, rest: seq<Player>)
    requires players != []
    requires forall p :: p in rest ==> p in players[1..]
    requires UniqueIps(players[1..]) ==> UniqueIps(rest)
    ensures UniqueIps(players) ==> UniqueIps([players[0]] + rest)
  {
    if UniqueIps(players) {
      assert UniqueIps(players[1..]);
      forall i | 0 <= i < |rest| ensures rest[i].ip != players[0].ip {
        assert rest[i] in players[1..];
        var j :| 0 <= j < |players[1..]| && players[1..][j] == rest[i];
        assert players[j + 1] == rest[i];
      }
    }
  }

  /** Some player has the room host's address. */
  predicate HostOnline(players: seq<Player>, room: Room) {
    exists i :: 0 <= i < |players| && players[i].ip == room.host.ip
  }

  /** The sweep drops a room whose host is not among the players and, since
      reading the never-assigned `last_active` raises for a room without a
      guest and the exception marks it stale, every room without a guest. */
  predicate Stale(players: seq<Player>, room: Room) {
    !HostOnline(players, room) || room.guest.None?
  }

  /** `cleanup_stale_data`: at most once per interval, drops stale players,
      then stale rooms, forgetting the current room if it was dropped. */
  function CleanupStaleData(s: Lobby, now: Clock): (r: Lobby)
    ensures now - s.lastCleanup < CleanupInterval ==> r == s
    ensures now - s.lastCleanup >= CleanupInterval ==>
      && r.lastCleanup == now
      && (forall p :: p in r.players <==> p in s.players && now - p.lastSeen < PlayerTimeout)
      && (forall k :: k in r.rooms <==> k in s.rooms && !Stale(r.players, s.rooms[k]))
      && (forall k :: k in r.rooms ==> r.rooms[k] == s.rooms[k])
      && r.currentRoom == (if Current(s).Some? && Stale(r.players, Current(s).value) then None else s.currentRoom)
      && r == s.(players := r.players, rooms := r.rooms, currentRoom := r.currentRoom, lastCleanup := now)
  {
    if now - s.lastCleanup >= CleanupInterval then
      var players := KeepFresh(s.players, now);
      var rooms := map k | k in s.rooms && !Stale(players, s.rooms[k]) :: s.rooms[k];
      var current := if Current(s).Some? && Stale(players, Current(s).value) then None else s.currentRoom;
      s.(players := players, rooms := rooms, currentRoom := current, lastCleanup := now)
    else s
  }

  lemma CleanupPreservesValid(s: Lobby, localIp: Ip, now: Clock)
    requires Valid(s, localIp)
    ensures Valid(CleanupStaleData(s, now), localIp)
  {
    var r := CleanupStaleData(s, now);
    if now - s.lastCleanup >= CleanupInterval {
      forall i | 0 <= i < |r.players|
        ensures r.players[i].ip.Some? && r.players[i].ip != Some(localIp)
      {
        assert r.players[i] in s.players;
      }
    }
  }

  /** The sweep never keeps the local host's own room: presence broadcasts
      from the local address are ignored, so the host is never among the
      players. */
  lemma CleanupDropsOwnRoom(s: Lobby, localIp: Ip, now: Clock)
    requires Valid(s, localIp)
    requires now - s.lastCleanup >= CleanupInterval
    requires Current(s).Some? && IsHost(Current(s).value, localIp)
    ensures CleanupStaleData(s, now).currentRoom.None?
    ensures s.currentRoom.value !in CleanupStaleData(s, now).rooms
  {
    var r := CleanupStaleData(s, now);
    var room := Current(s).value;
    forall i | 0 <= i < |r.players| ensures r.players[i].ip != Some(localIp) {
      assert r.players[i] in s.players;
    }
  }

  /** `handle_leave_room`. Both fields are read with `.get`, so either may be
      missing: a missing room id names no room, and a missing address is
      compared as it is, so it matches a host or guest recorded without an
      address. The host leaving deletes the room; the guest leaving empties
      the guest slot, clears the guest's readiness and returns the room to
      Waiting, and also resets the local session if that room was current.
      The room is re-broadcast if it still exists. */
  function HandleLeaveRoom(s: Lobby, roomId: Option<RoomId>, playerIp: Option<Ip>): (r: Reply<()>)
    ensures !Known(s, roomId) ==> r.lobby == s && r.sent == []
    ensures Known(s, roomId) && s.rooms[roomId.value].host.ip == playerIp ==>
      && r.lobby.rooms == s.rooms - {roomId.value}
      && r.lobby.currentRoom == (if Current(s).Some? && Current(s).value.roomId == roomId.value then None else s.currentRoom)
      && r.lobby == s.(rooms := r.lobby.rooms, currentRoom := r.lobby.currentRoom)
      && r.sent == []
    ensures Known(s, roomId) && s.rooms[roomId.value].host.ip != playerIp ==> roomId.value in r.lobby.rooms
    ensures Known(s, roomId) && s.rooms[roomId.value].host.ip != playerIp && GuestAt(s.rooms[roomId.value], playerIp) ==>
      var room' := r.lobby.rooms[roomId.value];
      && r.lobby.rooms == s.rooms[roomId.value := room']
      && room'.guest.None? && !room'.guestReady && room'.status == Waiting
      && room'.host == s.rooms[roomId.value].host && room'.hostReady == s.rooms[roomId.value].hostReady
      && (if Current(s).Some? && Current(s).value.roomId == roomId.value
          then r.lobby == s.(rooms := r.lobby.rooms, currentRoom := None, isReady := false, opponentReady := false)
          else r.lobby == s.(rooms := r.lobby.rooms))
      && r.sent == [Packet(Broadcast, BroadcastRoom(room'))]
    ensures Known(s, roomId) && s.rooms[roomId.value].host.ip != playerIp && !GuestAt(s.rooms[roomId.value], playerIp) ==>
      r.lobby == s && r.sent == [Packet(Broadcast, BroadcastRoom(s.rooms[roomId.value]))]
  {
    if roomId.Some? && roomId.value in s.rooms then
      var id := roomId.value;
      var room := s.rooms[id];
      var isCurrent := Current(s).Some? && Current(s).value.roomId == id;
      if playerIp == room.host.ip then
        Reply(s.(rooms := s.rooms - {id}, currentRoom := if isCurrent then None else s.currentRoom), [], ())
      else if room.guest.Some? && playerIp == room.guest.value.ip then
        var room' := room.(guest := None, guestReady := false, status := Waiting);
        var t := s.(rooms := s.rooms[id := room']);
        var t' := if isCurrent then t.(currentRoom := None, isReady := false, opponentReady := false) else t;
        Reply(t', [Packet(Broadcast, BroadcastRoom(room'))], ())
      else Reply(s, [Packet(Broadcast, BroadcastRoom(room))], ())
    else Reply(s, [], ())
  }

  /** The leave names a room this peer knows. */
  predicate Known(s: Lobby, roomId: Option<RoomId>) {
    roomId.Some? && roomId.value in s.rooms
  }

  /** The room has a guest recorded under this (possibly missing) address. */
  predicate GuestAt(room: Room, ip: Option<Ip>) {
    room.guest.Some? && room.guest.value.ip == ip
  }

  lemma HandleLeaveRoomPreservesValid(s: Lobby, localIp: Ip, roomId: Option<RoomId>, playerIp: Option<Ip>)
    requires Valid(s, localIp)
    ensures Valid(HandleLeaveRoom(s, roomId, playerIp).lobby, localIp)
  {
  }

  /** Host departure deletes the room whatever its status; guest departure
      never deletes it. */
  lemma LeaveDeletesOnlyOnHostDeparture(s: Lobby, roomId: RoomId, playerIp: Option<Ip>)
    requires roomId in s.rooms
    ensures roomId !in HandleLeaveRoom(s, Some(roomId), playerIp).lobby.rooms <==> s.rooms[roomId].host.ip == playerIp
  {
  }

  /** A leave message without an address evicts a guest recorded without
      one, as peers record the guest of every broadcast room, and deletes a
      room whose host has no address. */
  lemma AddresslessLeaveMatchesAddresslessPlayer(s: Lobby, roomId: RoomId)
    requires roomId in s.rooms
    ensures var room := s.rooms[roomId];
            var r := HandleLeaveRoom(s, Some(roomId), None);
            && (room.host.ip.None? ==> roomId !in r.lobby.rooms)
            && (room.host.ip.Some? && room.guest.Some? && room.guest.value.ip.None? ==>
                  roomId in r.lobby.rooms && r.lobby.rooms[roomId].guest.None?)
            && (room.host.ip.Some? && !(room.guest.Some? && room.guest.value.ip.None?) ==> r.lobby == s)
  {
  }

  /** Of two join requests for the same guestless current room, the first is
      accepted and the second is silently rejected, leaving its sender out. */
  lemma SecondJoinRejected(s: Lobby, env: Env, roomId: RoomId, n1: string, ip1: Ip, n2: string, ip2: Ip)
    requires Current(s).Some? && Current(s).value.roomId == roomId && Current(s).value.guest.None?
    ensures var r1 := HandleJoinRequest(s, env, roomId, n1, ip1);
            var r2 := HandleJoinRequest(r1.lobby, env, roomId, n2, ip2);
            && r1.value && !r2.value && r2.lobby == r1.lobby
            && Current(r2.lobby).Some? && Current(r2.lobby).value.guest.Some?
            && Current(r2.lobby).value.guest.value.ip == Some(ip1)
  {
  }
}

=== FILE: webboard.dfy ===
/** The browser version of the match-3 board. Its state lives in component
    state; the match check, the removal and the refill each run from a timer
    after the previous step, so each is a transition here, and the step a
    transition schedules is returned as a `Pending` value. */
module WebBoard {
  import opened Options
  import opened Gems
  import opened Runs
  import opened Gravity
  import Matching

  const BoardSize: nat := 8
  const StartMovesLeft: int := 20
  const PointsPerCell: int := 50

  type Board = seq<seq<Option<Kind>>>

  datatype Pos = Pos(row: int, col: int)

  /** The component state: `matches` is the set of highlighted cells. */
  datatype Web = Web(board: Board, score: int, selected: Option<Pos>, matches: set<Cell>,
                     isAnimating: bool, movesLeft: int)

  /** The step a transition schedules on a timer. */
  datatype Pending = Idle | Check(board: Board) | Remove(board: Board, marks: set<Cell>) | Fill(board: Board)

  datatype Step = Step(web: Web, next: Pending)

  /** Every cell holds a rune. */
  ghost predicate Full(b: Board) {
    IsBoard(b, BoardSize) && forall i, j :: 0 <= i < BoardSize && 0 <= j < BoardSize ==> b[i][j].Some?
  }

  /** The board is 8 by 8, and the selection, if any, is a cell of it. */
  ghost predicate ValidWeb(w: Web) {
    IsBoard(w.board, BoardSize) &&
    (w.selected.Some? ==> 0 <= w.selected.value.row < BoardSize && 0 <= w.selected.value.col < BoardSize)
  }

  function Abs(a: int): nat { if a >= 0 then a else -a }

  /** Two positions are neighbours: both given and one step apart along a row
      or a column. */
  function IsAdjacent(p1: Option<Pos>, p2: Option<Pos>): (b: bool)
    ensures b <==> p1.Some? && p2.Some? && Abs(p1.value.row - p2.value.row) + Abs(p1.value.col - p2.value.col) == 1
  {
    if p1.None? || p2.None? then false
    else
      var rowDiff := Abs(p1.value.row - p2.value.row);
      var colDiff := Abs(p1.value.col - p2.value.col);
      (rowDiff == 1 && colDiff == 0) || (rowDiff == 0 && colDiff == 1)
  }

  /** The board with two cells exchanged. */
  function Exchange(b: Board, p1: Pos, p2: Pos): (r: Board)
    requires IsBoard(b, BoardSize)
    requires 0 <= p1.row < BoardSize && 0 <= p1.col < BoardSize
    requires 0 <= p2.row < BoardSize && 0 <= p2.col < BoardSize
    ensures IsBoard(r, BoardSize)
    ensures r[p1.row][p1.col] == b[p2.row][p2.col] && r[p2.row][p2.col] == b[p1.row][p1.col]
    ensures forall i, j :: 0 <= i < BoardSize && 0 <= j < BoardSize && Pos(i, j) != p1 && Pos(i, j) != p2 ==> r[i][j] == b[i][j]
  {
    var temp := b[p1.row][p1.col];
    var b1 := b[p1.row := b[p1.row][p1.col := b[p2.row][p2.col]]];
    b1[p2.row := b1[p2.row][p2.col := temp]]
  }

  /** Swapping two tiles: refused while animating or with no moves left;
      otherwise the tiles are exchanged and a move is spent whether or not a
      match follows, and a match check is scheduled on the new board. */
  function SwapTiles(w: Web, p1: Pos, p2: Pos): (r: Step)
    requires ValidWeb(w)
    requires 0 <= p1.row < BoardSize && 0 <= p1.col < BoardSize
    requires 0 <= p2.row < BoardSize && 0 <= p2.col < BoardSize
    ensures ValidWeb(r.web)
    ensures w.isAnimating || w.movesLeft <= 0 ==> r == Step(w, Idle)
    ensures !(w.isAnimating || w.movesLeft <= 0) ==>
      r.web == w.(board := Exchange(w.board, p1, p2), movesLeft := w.movesLeft - 1) &&
      r.next == Check(r.web.board)
    ensures Full(w.board) ==> Full(r.web.board)
  {
    if w.isAnimating || w.movesLeft <= 0 then Step(w, Idle)
    else
      var b := Exchange(w.board, p1, p2);
      Step(w.(board := b, movesLeft := w.movesLeft - 1), Check(b))
  }

  /** A tile click: ignored while animating or with no moves left; with no
      selection the tile becomes selected; otherwise the two tiles are
      swapped if they are neighbours and the selection is cleared either way. */
  function HandleTileClick(w: Web, row: nat, col: nat): (r: Step)
    requires ValidWeb(w) && row < BoardSize && col < BoardSize
    ensures ValidWeb(r.web)
    ensures w.isAnimating || w.movesLeft <= 0 ==> r == Step(w, Idle)
    ensures !(w.isAnimating || w.movesLeft <= 0) && w.selected.None? ==>
      r == Step(w.(selected := Some(Pos(row, col))), Idle)
    ensures !(w.isAnimating || w.movesLeft <= 0) && w.selected.Some? && IsAdjacent(w.selected, Some(Pos(row, col))) ==>
      r.web == w.(board := Exchange(w.board, w.selected.value, Pos(row, col)),
                  movesLeft := w.movesLeft - 1, selected := None) &&
      r.next == Check(r.web.board)
    ensures !(w.isAnimating || w.movesLeft <= 0) && w.selected.Some? && !IsAdjacent(w.selected, Some(Pos(row, col))) ==>
      r == Step(w.(selected := None), Idle)
  {
    if w.isAnimating || w.movesLeft <= 0 then Step(w, Idle)
    else
      var clicked := Pos(row, col);
      if w.selected.None? then Step(w.(selected := Some(clicked)), Idle)
      else
        var s := if IsAdjacent(w.selected, Some(clicked)) then SwapTiles(w, w.selected.value, clicked) else Step(w, Idle);
        s.(web := s.web.(selected := None))
  }

  /** Exchanging the same two cells twice gives back the board, so a swap
      followed by the swap back leaves the tiles where they were. */
  lemma ExchangeTwice(b: Board, p1: Pos, p2: Pos)
    requires IsBoard(b, BoardSize)
    requires 0 <= p1.row < BoardSize && 0 <= p1.col < BoardSize
    requires 0 <= p2.row < BoardSize && 0 <= p2.col < BoardSize
    ensures Exchange(Exchange(b, p1, p2), p1, p2) == b
  {
    var r := Exchange(Exchange(b, p1, p2), p1, p2);
    forall i | 0 <= i < BoardSize
      ensures r[i] == b[i]
    {
      forall j | 0 <= j < BoardSize
        ensures r[i][j] == b[i][j]
      {
      }
    }
  }

  /** Two clicks on neighbouring tiles, starting with nothing selected,
      exchange exactly those two tiles, spend one move, clear the selection
      and schedule a match check; the score and the highlighted cells are
      untouched. */
  lemma ClickNeighboursSwaps(w: Web, p: Pos, q: Pos)
    requires ValidWeb(w) && w.selected.None? && !w.isAnimating && w.movesLeft > 0
    requires 0 <= p.row < BoardSize && 0 <= p.col < BoardSize
    requires 0 <= q.row < BoardSize && 0 <= q.col < BoardSize
    requires IsAdjacent(Some(p), Some(q))
    ensures var r := HandleTileClick(HandleTileClick(w, p.row, p.col).web, q.row, q.col);
      r.web.board[p.row][p.col] == w.board[q.row][q.col] &&
      r.web.board[q.row][q.col] == w.board[p.row][p.col] &&
      (forall i, j :: 0 <= i < BoardSize && 0 <= j < BoardSize && Pos(i, j) != p && Pos(i, j) != q ==>
        r.web.board[i][j] == w.board[i][j]) &&
      r.web.movesLeft == w.movesLeft - 1 && r.web.selected.None? &&
      r.web.score == w.score && r.web.matches == w.matches && !r.web.isAnimating &&
      r.next == Check(r.web.board)
  {
  }

  /** One of the three windows of three that contain cell p is of one kind;
      those are the windows whose marks reach p. */
  predicate Covered(l: Line, p: nat) {
    (p >= 2 && Triple(l, p - 2)) || (p >= 1 && Triple(l, p - 1)) || Triple(l, p)
  }

  /** The cells the horizontal and the vertical window loops mark: a window
      of three cells of one kind marks all three. */
  function WindowMarks(b: Board): (marks: set<Cell>)
    requires Full(b)
    ensures forall c: Cell :: c in marks <==>
      OnBoard(c.0, c.1) && (InWindow(b[c.0], c.1) || InWindow(Column(b, c.1), c.0))
  {
    var marks := set i: nat, j: nat | i < BoardSize && j < BoardSize &&
                                      (Covered(b[i], j) || Covered(Column(b, j), i)) :: (i, j);
    forall c: Cell | OnBoard(c.0, c.1)
      ensures Covered(b[c.0], c.1) <==> InWindow(b[c.0], c.1)
      ensures Covered(Column(b, c.1), c.0) <==> InWindow(Column(b, c.1), c.0)
    {
      CoveredIffWindow(b[c.0], c.1);
      CoveredIffWindow(Column(b, c.1), c.0);
    }
    marks
  }

  lemma CoveredIffWindow(l: Line, p: nat)
    ensures Covered(l, p) <==> InWindow(l, p)
  {
    if InWindow(l, p) {
      var w: nat :| w <= p <= w + 2 && Triple(l, w);
      assert p - w == 0 || p - w == 1 || p - w == 2;
    }
  }

  /** The match check: animation starts; with marked cells the score gains
      50 per distinct cell, the cells are highlighted and their removal is
      scheduled; with none the animation stops. */
  function CheckMatches(w: Web, b: Board): (r: Step)
    requires Full(b)
    ensures var marks := WindowMarks(b);
      (marks != {} ==> r == Step(w.(isAnimating := true, score := w.score + PointsPerCell * |marks|, matches := marks), Remove(b, marks))) &&
      (marks == {} ==> r == Step(w.(isAnimating := false), Idle))
  {
    var marks := WindowMarks(b);
    if |marks| > 0 then
      Step(w.(isAnimating := true, score := w.score + PointsPerCell * |marks|, matches := marks), Remove(b, marks))
    else
      Step(w.(isAnimating := false), Idle)
  }

  /** The board with the marked cells emptied. */
  function Cleared(b: Board, marks: set<Cell>): (r: Board)
    requires IsBoard(b, BoardSize)
    ensures IsBoard(r, BoardSize)
    ensures forall i, j :: OnBoard(i, j) ==> r[i][j] == if (i, j) in marks then None else b[i][j]
  {
    seq(BoardSize, i requires 0 <= i < BoardSize =>
      seq(BoardSize, j requires 0 <= j < BoardSize => if (i, j) in marks then None else b[i][j]))
  }

  /** The removal step: exactly the marked cells become empty, and the refill
      is scheduled. */
  function RemoveMatches(w: Web, b: Board, marks: set<Cell>): (r: Step)
    requires IsBoard(b, BoardSize)
    ensures IsBoard(r.web.board, BoardSize) && r.web == w.(board := r.web.board)
    ensures forall i, j :: OnBoard(i, j) && Full(b) ==> (r.web.board[i][j].None? <==> (i, j) in marks)
    ensures forall i, j :: OnBoard(i, j) && (i, j) !in marks ==> r.web.board[i][j] == b[i][j]
    ensures r.next == Fill(r.web.board)
  {
    var b' := Cleared(b, marks);
    Step(w.(board := b'), Fill(b'))
  }

  /** A rune keeps its kind when it falls. */
  function Keep(k: Kind, row: nat): Kind { k }

  /** A new rune is the drawn kind. */
  function Draw(k: Kind, row: nat, col: nat): Kind { k }

  /** The refill step: every column is compacted to the bottom in order and
      the top cells get runes drawn from `supply`; the highlight is cleared
      and a new match check is scheduled on the full board. */
  method FillEmptySpaces(w: Web, b: Board, supply: seq<Kind>) returns (r: Step)
    requires IsBoard(b, BoardSize)
    requires HolesBefore(b, BoardSize) <= |supply|
    ensures r.web == w.(board := r.web.board, matches := {}) && Full(r.web.board)
    ensures forall j :: 0 <= j < BoardSize ==>
      HolesBefore(b, j) + Holes(Column(b, j), 0) <= |supply| &&
      Column(r.web.board, j) == Settled(Column(b, j), supply[HolesBefore(b, j)..], Keep, Draw, j)
    ensures r.next == Check(r.web.board)
  {
    var b' := SettleBoard(b, BoardSize, supply, Keep, Draw);
    SettledBoardFull(b, BoardSize, supply, Keep, Draw, b');
    r := Step(w.(board := b', matches := {}), Check(b'));
  }

  /** Along a full column the refill keeps the surviving runes in their
      order: they are exactly the column's runes below the new ones. */
  lemma FillKeepsOrder(col: seq<Option<Kind>>, supply: seq<Kind>, j: nat)
    requires Holes(col, 0) <= |supply|
    ensures var s := Settled(col, supply, Keep, Draw, j);
      forall m :: 0 <= m < |Occupied(col, 0)| ==> s[Holes(col, 0) + m] == col[Occupied(col, 0)[m]]
  {
    var s := Settled(col, supply, Keep, Draw, j);
    forall m | 0 <= m < |Occupied(col, 0)| ensures s[Holes(col, 0) + m] == col[Occupied(col, 0)[m]] {
      var from := Occupied(col, 0)[m];
      assert col[from].Some?;
      assert s[Holes(col, 0) + m] == Some(Place(col[from].value, from, Holes(col, 0) + m, Keep));
    }
  }

  /** On a full board the window check marks exactly the cells that lie in a
      run of three or more along their row or column. */
  lemma WindowMarksAreRuns(b: Board)
    requires Full(b)
    ensures forall c: Cell :: c in WindowMarks(b) <==>
      OnBoard(c.0, c.1) && (InLongRun(b[c.0], c.1) || InLongRun(Column(b, c.1), c.0))
  {
    forall c: Cell | OnBoard(c.0, c.1)
      ensures InWindow(b[c.0], c.1) <==> InLongRun(b[c.0], c.1)
      ensures InWindow(Column(b, c.1), c.0) <==> InLongRun(Column(b, c.1), c.0)
    {
      WindowIffLongRun(b[c.0], c.1);
      WindowIffLongRun(Column(b, c.1), c.0);
    }
  }

  /** The kinds of a desktop board, as a browser board. */
  function KindsOf(g: Grid): (b: Board)
    requires IsBoard(g, GridSize)
    ensures IsBoard(b, BoardSize)
    ensures forall i :: 0 <= i < BoardSize ==> b[i] == Kinds(g[i])
  {
    seq(GridSize, i requires 0 <= i < GridSize => Kinds(g[i]))
  }

  /** The two games agree on which cells match: on a full desktop board the
      browser's window check marks exactly the cells the desktop's run scan
      finds. */
  lemma BothGamesMatchAlike(g: Grid)
    requires IsBoard(g, GridSize)
    requires forall i, j :: OnBoard(i, j) ==> g[i][j].Some?
    ensures Full(KindsOf(g))
    ensures WindowMarks(KindsOf(g)) == Matching.FindMatches(g).cells
  {
    var b := KindsOf(g);
    forall j | 0 <= j < BoardSize ensures Column(b, j) == Matching.ColKinds(g, j) {
      assert forall i :: 0 <= i < BoardSize ==> Column(b, j)[i] == Kinds(Column(g, j))[i];
    }
    WindowMarksAreRuns(b);
  }
}

=== FILE: widgets.dfy ===
/** Screen rectangles and push buttons, as both lobby screens use them.
    Fonts, colours and drawing are not modelled. */
module Widgets {
  datatype Point = Point(x: int, y: int)

  /** An axis-aligned rectangle: left, top, width, height. */
  datatype Rect = Rect(left: int, top: int, width: int, height: int)

  /** The rectangle's hit test: the left and top edges are inside, the
      right and bottom edges are not. */
  predicate Contains(r: Rect, p: Point) {
    r.left <= p.x < r.left + r.width && r.top <= p.y < r.top + r.height
  }

  /** A button: its label, its area, whether it reacts, and whether the
      mouse was over it at the last update. */
  datatype Button = Button(text: string, rect: Rect, active: bool, hovered: bool)

  /** A new button is not hovered. */
  function NewButton(text: string, x: int, y: int, width: int, height: int, active: bool): (b: Button)
    ensures b.text == text && b.rect == Rect(x, y, width, height) && b.active == active && !b.hovered
  {
    Button(text, Rect(x, y, width, height), active, false)
  }

  /** A button reacts to a click exactly when it is active and the click
      lands inside it. */
  predicate Clicked(b: Button, pos: Point) {
    b.active && Contains(b.rect, pos)
  }

  /** The hover update: only the hover flag changes. */
  function Update(b: Button, mouse: Point): (b': Button)
    ensures b' == b.(hovered := b'.hovered)
  {
    b.(hovered := Contains(b.rect, mouse) && b.active)
  }

  /** The hover flag shows exactly where a click would be taken: after an
      update at a point, the button is hovered iff a click there would
      react; an inactive button neither highlights nor reacts anywhere, and
      hovering never changes what a click does. */
  lemma HoverShowsClickable(b: Button, mouse: Point, pos: Point)
    ensures Update(b, mouse).hovered <==> Clicked(b, mouse)
    ensures !b.active ==> !Update(b, mouse).hovered && !Clicked(b, pos)
    ensures Clicked(Update(b, mouse), pos) <==> Clicked(b, pos)
  {
  }
}
